=== FILE: README.md ===
# Obsidian Smart History: a verified model of its decision logic

Obsidian Smart History is a browser extension. It watches which pages a user
actually reads: a page counts once it has been open long enough and scrolled
far enough. Each such page is archived into an Obsidian vault through the
vault's local REST API, together with a generated summary.

The model covers the decisions the extension makes between its I/O calls:
- which note a page is archived to;
- how a note path is encoded into a request URL and read back from a redirect;
- how a note name typed by the user is resolved against the vault, and how the
  three-strategy file search falls back;
- when a memo starts a new page context;
- how the per-tab cache evolves;
- when the content script decides a visit is valid;
- how the popup builds note paths and starts and stops a focus session.

Every network reply, storage read, clock value and URL parse is a parameter of
the function that consumes it. Each function returns what the JavaScript would
send, store and answer. The model is organised in these modules:

| module | file | models |
|---|---|---|
| `Results` | results.dfy | `Option` and `Result` |
| `Text` | text.dfy | the string built-ins the code relies on: `trim`, `split`/`join`, `startsWith`/`endsWith`, `replace(/\s+/g, ' ')`, `substring`, `parseInt(…, 10)`, `padStart`, `Array.find`, `filter`, `new Set` de-duplication |
| `Uri` | uri.dfy | `encodeURIComponent` and `decodeURIComponent` over UTF-8, and the per-segment path encoding |
| `Storage` | storage.dfy | `src/utils/storage.js`: defaults, merge, save, and JavaScript truthiness of stored values |
| `Gemini` | gemini.dfy | `generateSummary` of `src/background/gemini.js` |
| `ObsidianClient` | obsidian_client.dfy | `src/background/obsidianClient.js` |
| `TabCache` | tab_cache.dfy | the `tabCache` map of `src/background/service-worker.js` |
| `ServiceWorker` | service_worker.dfy | the message handlers of `src/background/service-worker.js` |
| `Extractor` | extractor.dfy | the visit validator and `cleanText` of `src/content/extractor.js` |
| `Popup` | popup.dfy | the path logic and session toggling of `src/popup/popup.js` |

How JavaScript behaviour is represented:
- A stored setting is a `Storage.Value` (`Str`, `Num`, `Bool` or `Null`). An absent key is `undefined`.
- `Truthy`, `OrElse` (the `||` operator) and `AsText` (a value inside a template literal) give those values JavaScript's meaning.
- A thrown exception becomes an error value carrying the message the code would report.
- For the TypeErrors the engine raises on `undefined` or `null`, that message is the engine's text.

Behaviour a reader may not expect, modelled as the code does it:
- `getContextUrl` drops the query string as well as the fragment (service-worker.js:69). The comment on that line leaves it as an open question ("Maybe keep search query"), and the next line's comment leans towards keeping it; the code keeps only origin and path.
- In `searchFiles`, an empty array from `/search/simple/` ends the chain (obsidianClient.js:182-183). The later strategies run only when a strategy throws, not when it finds nothing.
- In `VALID_VISIT`, the URL is recorded in `savedUrls` and success is reported even when `appendToNote` returned `{success: false}` (service-worker.js:137-159).
- `CREATE_NOTE` and `SEND_MEMO` report success whenever the client call resolves (service-worker.js:185-187, 221-222). The client never rejects after `init`.
- The scroll percentage is not clamped to 100 (extractor.js:39-43).
- A page too short to scroll still counts as a valid visit when `min_scroll_depth` is stored as the string `"0"`. That string is truthy, so it replaces the default 50 with 0, and a maximum of 0 meets it (extractor.js:14, 27). A stored number 0 is falsy and leaves the default in place.
- The `.md` test is case-insensitive in `resolvePath` (obsidianClient.js:295, 309, 324) and case-sensitive in the popup (popup.js:230, 238, 256).

## Model

| member | source | states |
|---|---|---|
| Storage.GetSettings | src/utils/storage.js:31-34 | every stored key reads as stored; every other default key reads as its default; the key set is the union |
| Storage.DefaultsWhenEmpty | src/utils/storage.js:21-29 | with nothing stored the settings are exactly the defaults (http, 27123, 5, 50, gemini-1.5-pro, 092.Daily, short); API keys, focus mode, target note and default folder have no default |
| Storage.GetSettingsIdempotent | src/utils/storage.js:31-34 | merging the defaults in twice is the same as once |
| Storage.SaveSettings | src/utils/storage.js:36-38 | the given keys take the given values, every other stored key keeps its value |
| Storage.ReadAfterSave | src/utils/storage.js:31-38 | after a save, a saved key reads back as saved and every other key reads as before |
| Storage.GetApiKey | src/utils/storage.js:40-43 | the API-key entry exactly when one is stored (there is no default) |
| Storage.TruthyText | src/background/obsidianClient.js:13-21 | a truthy setting never becomes an empty string in a template literal |
| Text.Trim | src/popup/popup.js:106 | a contiguous slice of the input with only white space outside it and none at either end; empty exactly when the input is all white space; the non-space characters unchanged and in order |
| Text.CollapseSpaces | src/content/extractor.js:138 | equals the character-by-character reference `CollapseFrom`, which keeps every non-space character and writes one plain space for each run of white space; no two adjacent spaces remain; empty exactly when the input is |
| Text.Take | src/content/extractor.js:138 | the prefix of length `n`, or the whole string when it is no longer than `n` |
| Text.DropSuffix | src/background/obsidianClient.js:121 | one trailing occurrence removed when present, otherwise the string unchanged |
| Text.JoinSplit | src/background/obsidianClient.js:55 | joining the `/`-split pieces gives back the path |
| Text.SplitJoin | src/background/obsidianClient.js:55 | splitting a join of `/`-free pieces gives back the pieces |
| Text.ReplaceChar | src/background/service-worker.js:129 | same length; every occurrence of the replaced character becomes the replacement; every other character kept in place |
| Text.Split | src/background/obsidianClient.js:55 | at least one piece, and no piece contains the separator |
| Text.Join | src/background/obsidianClient.js:55 | empty for no pieces; otherwise starts with the first piece, followed by the separator when there is a second |
| Text.ParseInt | src/content/extractor.js:13-14 | `NaN` (none) for a string starting with a character that is neither white space, a sign nor a digit; a non-negative number for a string starting with a digit |
| Text.ParseIntOfBlank | src/content/extractor.js:13-14 | `NaN` (none) for an empty or all-white-space string |
| Text.NatToStringValue | src/background/obsidianClient.js:115-118 | the decimal digits of a number read back as the number |
| Text.PadTwoValue | src/background/obsidianClient.js:116-117 | a month or day below 100 becomes exactly two digits that read back as the number |
| Text.ParseIntOfDigits | src/content/extractor.js:13-14 | `parseInt` of a string of digits is its value |
| Text.ParseIntOfIntToString | src/content/extractor.js:13-14 | `parseInt` of a printed integer is that integer |
| Text.ParseDigitsStop | src/content/extractor.js:13-14 | the digit run read from a string is the digits before its first non-digit, with their value |
| Text.ParseIntPrefix | src/content/extractor.js:13-14 | leading white space is skipped and only the digits before the first non-digit count: `w + ds + rest` parses to the value of `ds` |
| Text.ParseIntSignedPrefix | src/content/extractor.js:13-14 | after leading white space a `-` negates and a `+` is dropped, whatever follows the digits |
| Text.ParseIntOfFraction | src/content/extractor.js:13-14 | `parseInt("7.5")` is 7: a stored threshold with a fraction is cut, not refused |
| Text.FirstIndex | src/background/obsidianClient.js:315-319 | the first position whose element satisfies the test, none exactly when no element does |
| Text.Filter | src/background/obsidianClient.js:243-248 | exactly the elements that pass the test are kept, never more than the input |
| Text.FilterAppend | src/background/obsidianClient.js:243-248 | filtering a concatenation is concatenating the filtered parts, so kept elements stay in input order and keep their multiplicity |
| Text.FilterSingle | src/background/obsidianClient.js:243-248 | one element is kept exactly when it passes the test |
| Text.FilterKeepsFirstOrder | src/background/obsidianClient.js:243-248 | two kept elements whose first occurrences in the result are in one order first occur in the input in the same order |
| Text.Dedup | src/background/obsidianClient.js:250 | the same elements, each once, never longer than the input |
| Text.DedupKeepsFirstOrder | src/background/obsidianClient.js:250 | each kept element first occurs in the input before the next kept one does: the `Set` keeps insertion order |
| Text.DedupFilterFirstOrdered | src/background/obsidianClient.js:243-250 | filtering and then de-duplicating keeps the order of first occurrence in the unfiltered input |
| Text.DedupOfDistinct | src/background/service-worker.js:146-147 | a list without repeats goes through a `Set` unchanged, so the order is kept |
| Text.DedupBySet | src/background/obsidianClient.js:250 | de-duplication by scanning with a seen-set gives the first-occurrence order |
| Uri.EncodeComponent | src/background/obsidianClient.js:55 | only unreserved characters and `%` escapes in the result; a string of unreserved characters is unchanged |
| Uri.Utf8RoundTrip | src/background/obsidianClient.js:165 | the UTF-8 octets of a non-ASCII character decode back to it |
| Uri.DecodeEncodeComponent | src/background/obsidianClient.js:55 | `decodeURIComponent(encodeURIComponent(s)) == s` |
| Uri.EncodePath | src/background/obsidianClient.js:55 | the encoded path has one `/`-separated segment per segment of the path, each the encoding of its counterpart |
| Uri.DecodeComponent | src/background/obsidianClient.js:165 | a string without `%` decodes to itself, and decoding never lengthens a string; a malformed escape is the `URIError` (none) |
| Uri.DecodeEncodePath | src/background/obsidianClient.js:55 | decoding a segment-wise encoded path gives back the path |
| Gemini.CleanModelName | src/background/gemini.js:11 | one leading `models/` removed, anything else unchanged |
| Gemini.CleanModelNameOnce | src/background/gemini.js:11 | `models/models/x` becomes `models/x`: only one prefix goes |
| Gemini.Instruction | src/background/gemini.js:18-23 | the medium and long instructions exactly for `medium` and `long`; the short one for every other value |
| Gemini.Prompt | src/background/gemini.js:16-28 | the prompt starts with the lead, the instruction and the content heading, and ends with the first 30000 characters of the page |
| Gemini.PromptEmbedsPrefix | src/background/gemini.js:16 | the embedded text is a prefix of the page of at most 30000 characters, all of it when it fits |
| Gemini.SummaryOf | src/background/gemini.js:34-59 | a thrown fetch becomes `Error generating summary: ` and its message; a non-ok status becomes that prefix, `Gemini API Error: `, the status and the error text; an ok reply gives exactly what `FirstCandidateText` reads from its body |
| Gemini.FirstCandidateText | src/background/gemini.js:50-54 | no candidates, an empty list or a first candidate without content gives `No summary generated.`; content without `parts` and an empty `parts` give the two TypeError texts; otherwise the first part's text (possibly `undefined`) |
| Gemini.WellFormedReplyText | src/background/gemini.js:50-51 | for any ok status, a first candidate whose first part has a text yields that text, whatever follows it |
| Gemini.GenerateSummary | src/background/gemini.js:4-59 | no request and `No API Key provided.` without a key; otherwise one request to the cleaned model's URL with the prompt, and the reply's mapped text |
| ObsidianClient.Init | src/background/obsidianClient.js:10-26 | succeeds exactly when the merged API key is truthy, otherwise fails with `Obsidian API Key not set`; the client keeps the merged settings and the key |
| ObsidianClient.InitFallbacks | src/background/obsidianClient.js:13-21 | with protocol and port unset or falsy, the base URL is `http://127.0.0.1:27123` |
| ObsidianClient.VaultUrl | src/background/obsidianClient.js:55-56 | the URL starts with the base URL and `/vault/`, and what follows decodes back to the path |
| ObsidianClient.Exists | src/background/obsidianClient.js:49-64 | the note's `HEAD` answered exactly 200 |
| ObsidianClient.ExistsExactly200 | src/background/obsidianClient.js:57-63 | only the note's own `HEAD` decides: exactly a 200 means the note exists, and a `HEAD` that threw means it does not |
| ObsidianClient.VaultUrlNamesPath | src/background/obsidianClient.js:55-56 | a note URL starts with `/vault/`, decodes back to the note's path, and has as many segments as the path |
| ObsidianClient.CreateNote | src/background/obsidianClient.js:66-83 | one `PUT` of the content to the note's URL; written exactly on an ok status; a thrown fetch's message is the error |
| ObsidianClient.AppendToNote | src/background/obsidianClient.js:85-106 | one `POST` to the note's URL; written exactly on an ok status; 404 gives `Note not found: …`, any other status `Failed to append: …`, a thrown fetch its message |
| ObsidianClient.DailyFileNameRoundTrip | src/background/obsidianClient.js:114-118 | the daily file name is 13 characters and reads back as its date: month and day are zero-padded |
| ObsidianClient.DailyFileName | src/background/obsidianClient.js:114-118 | the daily file name ends in `.md` |
| ObsidianClient.DailyNotePath | src/background/obsidianClient.js:121-122 | the daily path starts with the folder (one trailing `/` dropped) and `/`, ends with `/` and the file name, and is exactly as long as those together, so nothing lies between |
| ObsidianClient.DailyNotePathParts | src/background/obsidianClient.js:114-122 | for a valid date, the path splits back into the folder, a `/` and a 13-character file name that reads back as the date |
| ObsidianClient.DailyNotePathTrailingSlash | src/background/obsidianClient.js:121 | one trailing `/` on the folder makes no difference; only one is removed |
| ObsidianClient.DailyFolder | src/background/obsidianClient.js:112 | the stored daily folder when it is truthy, `Daily` otherwise; never empty |
| ObsidianClient.AppendToDailyNote | src/background/obsidianClient.js:108-125 | a `POST` of the content whose URL decodes to today's file in the daily folder (`Daily` when unset); written exactly on an ok status |
| ObsidianClient.MemoText | src/background/obsidianClient.js:131-140 | the text ends with `- ts memo\n`, starts with the `## [title](url)` header exactly when the context is new, and is exactly as long as header and bullet together |
| ObsidianClient.MemoTextLines | src/background/obsidianClient.js:134-140 | for one-line parts, the text's lines are a blank line and the header line for a new context, then the bullet line, then nothing after the final newline |
| ObsidianClient.AppendMemo | src/background/obsidianClient.js:128-144 | the memo text is appended to the given note; a missing path fails with the engine's `split` TypeError and no request |
| ObsidianClient.GetActiveNote | src/background/obsidianClient.js:146-173 | for an ok landing under `/vault/`, `decodeURIComponent` of the rest of the URL, or `URI malformed` when that decoding throws; any other landing is `Could not determine active note path`; a thrown fetch rethrows its message |
| ObsidianClient.ActiveNoteMalformed | src/background/obsidianClient.js:159-165 | a landing whose path holds a broken escape (`%zz`) rethrows `URI malformed` |
| ObsidianClient.ActiveNoteRoundTrip | src/background/obsidianClient.js:158-165 | landing on the client's own URL for a note yields that note's path |
| ObsidianClient.FetchSearch | src/background/obsidianClient.js:265-284 | an array only for an ok status with an array body, and then its filenames; anything else throws |
| ObsidianClient.EntryName | src/background/obsidianClient.js:245 | a listing entry's name, or an object's `filename` when its `name` is empty; empty only when both are |
| ObsidianClient.ListingEntries | src/background/obsidianClient.js:208-213 | a listing contributes its entries only when it answered ok; a failed or thrown one contributes none |
| ObsidianClient.NameMatches | src/background/obsidianClient.js:245-246 | a non-empty name whose lower-cased form contains the lower-cased query |
| ObsidianClient.NameMatchesIgnoresCase | src/background/obsidianClient.js:242-246 | the filter ignores case on both sides; an empty query keeps every non-empty name; `plan` matches `notes/MyPlan.md` anywhere in it |
| ObsidianClient.ListingMatches | src/background/obsidianClient.js:239-252 | exactly the listed names that contain the query ignoring case, each once, in the order in which they first occur in the listing |
| ObsidianClient.ListingSearch | src/background/obsidianClient.js:196-237 | lists the vault root, then the default folder's URL with a trailing `/` when a folder is set, and filters their entries |
| ObsidianClient.FolderSetting | src/background/obsidianClient.js:301-302 | the default folder exactly when the setting is truthy, and then never empty |
| ObsidianClient.SearchFiles | src/background/obsidianClient.js:175-263 | `/search/simple/` first; `/search/` only when it threw; the listings only when both threw; the results are those of the first strategy that returned an array |
| ObsidianClient.FirstStrategyDecides | src/background/obsidianClient.js:181-183 | once `/search/simple/` returns an array, nothing else is asked and an empty array means no results |
| ObsidianClient.Candidates | src/background/obsidianClient.js:289-312 | the input first; input+`.md` next exactly when it does not end in `.md` in any case; with a folder, the joined path right after those, then the joined path with `.md` exactly when the joined path lacks it; one or two candidates without a folder, two to four with one |
| ObsidianClient.JoinedIsMarkdown | src/background/obsidianClient.js:309 | testing the name or the joined path for `.md` is the same test |
| ObsidianClient.SearchQuery | src/background/obsidianClient.js:324 | the input with one trailing `.md` removed, in any case |
| ObsidianClient.IsExactHit | src/background/obsidianClient.js:331 | the path ends with `/` plus the query plus `.md`, or is the query plus `.md` |
| ObsidianClient.ExactHitInAnyFolder | src/background/obsidianClient.js:331 | the query's note at the root or in any folder is an exact hit; `notes/MyPlan.md` is not one for `Plan` |
| ObsidianClient.FirstExisting | src/background/obsidianClient.js:315-319 | the position of the first candidate that exists, with none before it existing; none exactly when no candidate exists |
| ObsidianClient.PickHit | src/background/obsidianClient.js:327-346 | the first exact base-name hit, else the first hit, else the input |
| ObsidianClient.ResolvePath | src/background/obsidianClient.js:287-347 | the first existing candidate, with no earlier one existing; with none existing, the pick among the search hits for the input without `.md` |
| ObsidianClient.ResolvedIsKnown | src/background/obsidianClient.js:315-346 | the resolved path is always a candidate, a search hit or the input |
| ObsidianClient.ResolveInputFirst | src/background/obsidianClient.js:292-318 | an input that exists resolves to itself |
| ObsidianClient.ResolveBySimpleSearch | src/background/obsidianClient.js:322-335 | with no candidate existing and an exact hit in the simple search, the resolution is an exact hit |
| TabCache.Seed | src/background/service-worker.js:17-31 | exactly the open web tabs get an entry, each fresh and not valid; the last web tab with an id wins |
| TabCache.OnUpdated | src/background/service-worker.js:34-48 | a completed load of a web page replaces that tab's entry with a fresh one; nothing else changes |
| TabCache.MarkValid | src/background/service-worker.js:81-91 | the tab's entry is valid with the sender's title, URL and content; its icon and timestamp are kept; other tabs are untouched |
| TabCache.OnRemoved | src/background/service-worker.js:255-259 | the tab's entry is gone; other tabs are untouched |
| TabCache.NavigationResetsValidity | src/background/service-worker.js:34-44 | a new page load forgets validity and content |
| TabCache.MarkValidIdempotent | src/background/service-worker.js:85-91 | marking the same visit twice is the same as once |
| TabCache.DifferentTabsCommute | src/background/service-worker.js:85-91 | events for different tabs commute |
| ServiceWorker.OriginPath | src/background/service-worker.js:69 | origin and path with one trailing `/` removed; query and fragment dropped |
| ServiceWorker.ContextUrl | src/background/service-worker.js:66-74 | a parsed URL becomes its origin and path; an unparsable one is itself |
| ServiceWorker.SameContext | src/background/service-worker.js:66-74 | URLs that differ only in query, fragment or one trailing `/` are the same context |
| ServiceWorker.MemoPage | src/background/service-worker.js:194-204 | the message's title and URL, both replaced by the active tab's when either is falsy and a tab is active |
| ServiceWorker.SendMemo | src/background/service-worker.js:191-228 | fails with `No URL context found` without a URL; otherwise the stored context becomes the page's, the memo is new exactly when it differs from the stored one, and success is reported exactly when `init` succeeds, whatever the append returned; a failed `init` sends `Obsidian API Key not set` |
| ServiceWorker.MemoHeaderIffNewContext | src/background/service-worker.js:216-221 | the appended text carries a header exactly when the memo starts a new context |
| ServiceWorker.MemoContexts | src/background/service-worker.js:209-219 | the first memo is a new context; a second memo is new exactly when its context differs from the first's |
| ServiceWorker.ChooseSummary | src/background/service-worker.js:112-126 | a summary request exactly with a key and content; `No Gemini API Key configured.` without a key; `Summary not available.` with a key but no content |
| ServiceWorker.ModelOf | src/background/service-worker.js:114 | the stored model when truthy, `gemini-2.5-flash` otherwise; never empty |
| ServiceWorker.LengthOf | src/background/service-worker.js:117 | the stored summary length when truthy, `short` otherwise; never empty |
| ServiceWorker.VisitEntry | src/background/service-worker.js:129-133 | the link line and the summary label, then the summary with the same length and every character other than a newline in place |
| ServiceWorker.VisitEntryTwoLines | src/background/service-worker.js:129-133 | whatever the summary says, the entry is two lines: the timestamped link, then the summary |
| ServiceWorker.ArchiveTarget | src/background/service-worker.js:135-141 | the target note exactly when focus mode and a target are both truthy; otherwise the daily note |
| ServiceWorker.ValidVisit | src/background/service-worker.js:79-174 | the tab is marked valid; an archived URL changes nothing else; otherwise the context is set and the summary chosen; then either the entry is appended to the target or daily note, the URL recorded and success reported, or nothing is appended and the failure (an `undefined` summary's TypeError, else `Obsidian API Key not set`) is sent and notified |
| ServiceWorker.SavedUrlsGrow | src/background/service-worker.js:97-147 | `savedUrls` only grows, has no repeats, and gains the page exactly when an append was made |
| ServiceWorker.RecordUrl | src/background/service-worker.js:146-147 | adding a page to a repeat-free saved list keeps every earlier entry and the list repeat-free, and the page is listed afterwards exactly when it was before or was just recorded |
| ServiceWorker.ArchivedOnce | src/background/service-worker.js:96-103 | a second valid visit to an archived URL appends, answers and records nothing |
| ServiceWorker.FailedAppendCountsAsSaved | src/background/service-worker.js:137-159 | an append the vault refused still records the URL and reports success |
| ServiceWorker.VisitSetsMemoContext | src/background/service-worker.js:105-108 | after a page is archived, a memo on it continues its context |
| ServiceWorker.CreateNoteHandler | src/background/service-worker.js:184-189 | success exactly when `init` succeeds, and then one create request |
| ServiceWorker.CreateNoteFailureHidden | src/background/service-worker.js:185-187 | a create the vault refused is still reported as a success |
| ServiceWorker.ActiveNoteHandler | src/background/service-worker.js:177-182 | the active note's path on success; a failed `init` sends `Obsidian API Key not set`, and a failed lookup sends `getActiveNote`'s own message |
| ServiceWorker.SearchHandler | src/background/service-worker.js:230-235 | success exactly when `init` succeeds, with the search's results |
| ServiceWorker.ResolveHandler | src/background/service-worker.js:237-245 | success exactly with a non-empty resolution, which it carries; an empty one fails without an error text; a failed `init` answers `Obsidian API Key not set` |
| ServiceWorker.ResolveNonEmpty | src/background/service-worker.js:237-245 | a non-empty path whose search hits are non-empty always resolves |
| ServiceWorker.CandidatesNonEmpty | src/background/obsidianClient.js:289-312 | every candidate of a non-empty input is non-empty |
| ServiceWorker.Badge | src/background/service-worker.js:51-59 | `ON` exactly in focus mode, empty otherwise |
| Extractor.Start | src/content/extractor.js:4-9 | thresholds 5 s and 50 %, nothing scrolled, nothing reported |
| Extractor.Threshold | src/content/extractor.js:13-14 | a falsy stored value leaves the threshold; a truthy one replaces it with its `parseInt` |
| Extractor.ThresholdOfNumber | src/content/extractor.js:13-14 | a stored non-zero number becomes the threshold; a stored 0 is ignored |
| Extractor.ThresholdOfDigits | src/content/extractor.js:13-14 | a stored digit string becomes the threshold, even `"0"` |
| Extractor.Load | src/content/extractor.js:12-16 | only the thresholds change |
| Extractor.Meets | src/content/extractor.js:21-27 | both thresholds are known, the elapsed milliseconds reach 1000 times the duration, and the maximum scroll reaches the depth |
| Extractor.MeetsStaysMet | src/content/extractor.js:21-27 | once met, the thresholds stay met at later times and with a larger recorded scroll |
| Extractor.Check | src/content/extractor.js:18-50 | reports exactly when not yet reported and both thresholds are met, and then sets the flag |
| Extractor.UpdateMaxScroll | src/content/extractor.js:32-47 | a page without scrollable height changes nothing; otherwise the maximum becomes the larger of it and the sample, and the conditions are checked |
| Extractor.Step | src/content/extractor.js:12-80 | a report only from an unreported state that meets the thresholds; the flag never clears; the maximum never falls |
| Extractor.Run | src/content/extractor.js:18-80 | a page load reports at most once, and never after it has reported |
| Extractor.ReportAfterSixSeconds | src/content/extractor.js:18-30 | with 80 % scrolled, nothing at 4 s, a report at 6 s, nothing at 7 s |
| Extractor.ScrollNotClamped | src/content/extractor.js:39-43 | a sample past the bottom is recorded above 100 % |
| Extractor.ShortPageNeverReports | src/content/extractor.js:34-37 | a page too short to scroll never reports while the scroll threshold is above the recorded maximum |
| Extractor.ShortPageWithZeroThreshold | src/content/extractor.js:14-27 | with `"0"` stored as the scroll threshold, a page too short to scroll reports after 5 s |
| Extractor.CleanText | src/content/extractor.js:136-139 | empty for a missing or empty text; otherwise the first min(30000, n) characters of the trimmed reference collapse of the text, n its length; single plain spaces only; no leading space |
| Extractor.CleanTextKeepsShortText | src/content/extractor.js:138 | a text whose cleaned form fits is exactly its trimmed collapse and loses nothing but white space |
| Text.CollapseExample | src/content/extractor.js:138 | `"a \t b "` collapses to `"a b "` |
| Extractor.CleanTextExample | src/content/extractor.js:138 | `"a \t b "` cleans to `"a b"` |
| Popup.StartSession | src/popup/popup.js:283-287 | focus mode on and the target set; every other stored key unchanged |
| Popup.StopSession | src/popup/popup.js:297-301 | focus mode off and the target `null`; every other stored key unchanged |
| Popup.StartRoutesToTarget | src/popup/popup.js:283-290 | after a session starts, valid visits go to its note and the badge is on |
| Popup.StopRoutesToDaily | src/popup/popup.js:297-304 | after a session stops, valid visits go to the daily note and the badge is off |
| Popup.SessionKeepsOtherSettings | src/popup/popup.js:283-307 | starting or stopping a session leaves every other setting as it was |
| Popup.WithMd | src/popup/popup.js:230 | the result ends in `.md`: the path itself when it does, the path plus `.md` otherwise |
| Popup.SetExistingRequest | src/popup/popup.js:195-223 | a path is sent exactly when the trimmed input is non-empty, and it is the trimmed input |
| Popup.SetExistingTarget | src/popup/popup.js:223-240 | the resolved path when the response succeeds with a non-empty one; otherwise, also when the message threw, the input with `.md` added if missing |
| Popup.UnresolvedTargets | src/popup/popup.js:226-240 | `Project` becomes `Project.md`; `a.MD` becomes `a.MD.md` because the test is case-sensitive |
| Popup.CreateNewRequest | src/popup/popup.js:243-269 | a note exactly for a non-empty trimmed name; the path always ends in `.md`, joins the default folder when one is set, and loses one leading `/`; the content is the heading and the fixed line |
| Popup.StripKeepsMd | src/popup/popup.js:256-259 | removing one leading `/` keeps the `.md` ending |
| Popup.CreateInFolder | src/popup/popup.js:252-259 | a folder and a name without `.md` make `folder/name.md`, without a leading `/` |
| Popup.CreateNewTarget | src/popup/popup.js:271-276 | the session starts on the new note exactly when the background reports success |
| Popup.UseActiveTarget | src/popup/popup.js:182-188 | the session starts on the active note exactly when the response carries a non-empty path |
| Popup.SendMemoRequest | src/popup/popup.js:309-327 | a memo exactly for a non-empty trimmed text, to the stored target note, with no title or URL of its own |
| Popup.PopupMemoTargetsSession | src/popup/popup.js:309-327 | during a session, a popup memo goes to the session's note and is about the active tab; after a stop it has no note |
| Popup.SearchRequest | src/popup/popup.js:105-120 | a query is sent exactly when the trimmed input is non-empty; it has no white space at either end |
| Popup.SearchShown | src/popup/popup.js:119-143 | a list exactly for a successful non-empty result, showing the first ten results in order; a failure or a thrown message shows an error |
| Popup.ShownResultsArePrefix | src/popup/popup.js:143 | every result shown is the received result at the same position, at most ten |

## Left out

- `fetch`, `chrome.storage`, `chrome.tabs`, `chrome.notifications`, `chrome.action` and runtime messaging: every reply they give is a parameter. Request headers are not modelled.
- The `query` parameter `fetchSearch` adds to the search URL: `URL.searchParams` is library code. The model records the endpoint contacted, not the full URL.
- `new URL` is a parameter (`ServiceWorker.UrlParser`). `Date`, `toLocaleTimeString` and `Date.now()` are parameters too: a `Date`, a timestamp string and integer milliseconds.
- `encodeURIComponent` and `decodeURIComponent` are modelled concretely over UTF-8. Dafny characters are Unicode scalar values, so the `URIError` that `encodeURIComponent` throws on a lone surrogate cannot arise.
- `toLowerCase` is modelled on ASCII letters only. Non-ASCII case folding is not modelled.
- Settings values are strings, integers, booleans or `null`. Numbers with fractions and `NaN` stored in settings are not modelled.
- `Extractor.Meets` compares elapsed milliseconds with `1000 * d`, where the source compares `ms / 1000` with `d`. Over the reals these are the same; floating-point rounding is not modelled.
- Scroll positions are Dafny `real`s: floating-point division is exact here.
- `ObsidianClient.ListedFile`: listing entries are strings or objects with a `name` and a `filename`. Entries of other shapes, which make `toLowerCase` throw and end the listing strategy, are not modelled.
- `ObsidianClient.ListingReply`: a listing's JSON body enters as its entries, which are the array itself, or its `files`, or none when `files` is missing. `Array.isArray` and `data.files || []` are not modelled step by step. A `json()` that throws counts as a listing that threw.
- `ObsidianClient.FetchSearch`: an array reply's entries are assumed to carry a string `filename`. An entry without one yields `undefined`, which the model does not represent.
- `ObsidianClient.AppendMemo`: a missing path is `null` or `undefined` in the source. The model reports the `null` wording of the TypeError in both cases. The memo handler ignores that text anyway.
- `Popup.SendMemoRequest`: a non-string stored target note is treated as absent.
- ObsidianClient.DailyFolder: a truthy non-string `dailyNotePath` (a number or `true`) has no `replace` method and throws a TypeError at obsidianClient.js:121; the model prints it with `AsText` instead.
- ObsidianClient.FolderSetting: a truthy non-string `defaultFolder` has no `split` or `replace` method; the source throws a TypeError (caught by the listing at obsidianClient.js:221, rejecting `resolvePath` at obsidianClient.js:305). The model prints it with `AsText` instead.
- ServiceWorker.ModelOf: a truthy non-string `geminiModel` makes `modelName.replace` throw at gemini.js:11, outside the `try`; the model prints it with `AsText` instead.
- ServiceWorker.ArchiveTarget: a truthy non-string `targetNote` makes `path.split` throw at obsidianClient.js:88; the model prints it with `AsText` instead.
- Text.Take: JavaScript's `substring` counts UTF-16 code units; the model counts Unicode scalar values, so a text with characters outside the Basic Multilingual Plane is cut at a different place.
- Extractor.CleanText: the 30000 limit is counted in Unicode scalar values, not UTF-16 code units (see `Text.Take`).
- Gemini.Prompt: the page is cut at 30000 Unicode scalar values, not UTF-16 code units (see `Text.Take`).
- Concurrent handlers racing on `savedUrls` and `lastMemoUrl`, and the service worker being suspended between awaits: the model runs each handler to completion.
- `extractMainContent` (src/content/extractor.js:83-134), which is DOM querying and size heuristics. Its result is the `content` parameter.
- The messaging callback in `reportValidVisit`, which only logs and alerts. Only its flag is modelled.
- src/content/memo.js is not part of this model. It is the floating memo button: DOM only, plus trimming and forwarding `SEND_MEMO`, which `ServiceWorker.SendMemo` covers.
- resize_icons.py is not part of this model; it is image I/O.
- `testConnection`, `restoreSettings`, `updateUI`, `saveAndTest`, `debounce`, the search results' click handlers and all DOM rendering: UI and I/O.
- `CHECK_FOCUS_MODE`'s badge colour. The badge text is `ServiceWorker.Badge`.
- `console` logging.

=== FILE: extractor.dfy ===
/**
 The visit validator of the content script (`src/content/extractor.js`): a
 state machine over settings loads, scroll samples and one-second ticks that
 reports a valid visit once, when the page has been open long enough and
 scrolled far enough; and the text clean-up applied to the extracted content.
 Times are integer milliseconds; scroll positions are `real`.
 */
module Extractor {
  import opened Results
  import opened Text
  import opened Storage

  /** At most this many characters of cleaned text are sent. */
  const MaxText: nat := 30000

  /**
   The validator's state. A threshold is `None` when `parseInt` produced `NaN`;
   every comparison with it is then false.
   */
  datatype Tracker = Tracker(startTime: int, maxScroll: real, reported: bool,
                             minDuration: Option<int>, minScroll: Option<int>)

  /** The state at script load: 5 seconds, 50 percent, nothing scrolled, nothing reported. */
  function Start(now: int): (t: Tracker)
    ensures t.minDuration == Some(5) && t.minScroll == Some(50)
    ensures t.maxScroll == 0.0 && !t.reported && t.startTime == now
  {
    Tracker(now, 0.0, false, Some(5), Some(50))
  }

  /** `if (result[key]) threshold = parseInt(result[key], 10)` */
  function Threshold(stored: Settings, key: string, current: Option<int>): (r: Option<int>)
    ensures !TruthyAt(stored, key) ==> r == current
    ensures TruthyAt(stored, key) ==> r == ParseInt(AsText(stored[key]))
  {
    if TruthyAt(stored, key) then ParseInt(AsText(stored[key])) else current
  }

  /** A stored non-zero number becomes the threshold; zero is falsy and leaves the threshold as it was. */
  lemma ThresholdOfNumber(stored: Settings, key: string, current: Option<int>)
    requires key in stored && stored[key].Num?
    ensures stored[key].n != 0 ==> Threshold(stored, key, current) == Some(stored[key].n)
    ensures stored[key].n == 0 ==> Threshold(stored, key, current) == current
  {
    ParseIntOfIntToString(stored[key].n);
  }

  /** A stored string of digits becomes the threshold, even `"0"`, which is truthy. */
  lemma ThresholdOfDigits(stored: Settings, key: string, current: Option<int>)
    requires key in stored && stored[key].Str? && |stored[key].s| >= 1
    requires forall i :: 0 <= i < |stored[key].s| ==> IsDigit(stored[key].s[i])
    ensures Threshold(stored, key, current) == Some(DigitsValue(stored[key].s))
  {
    ParseIntOfDigits(stored[key].s);
  }

  /** The settings arrive from `chrome.storage.local` (the raw store, without defaults). */
  function Load(t: Tracker, stored: Settings): (r: Tracker)
    ensures r.minDuration == Threshold(stored, MinVisitDuration, t.minDuration)
    ensures r.minScroll == Threshold(stored, MinScrollDepth, t.minScroll)
    ensures r.startTime == t.startTime && r.maxScroll == t.maxScroll && r.reported == t.reported
  {
    t.(minDuration := Threshold(stored, MinVisitDuration, t.minDuration),
       minScroll := Threshold(stored, MinScrollDepth, t.minScroll))
  }

  /**
   Both thresholds are met at `now`. Elapsed seconds are `(now - startTime) / 1000`,
   and `x / 1000 >= d` is `x >= 1000 * d` over the reals.
   */
  predicate Meets(t: Tracker, now: int) {
    && t.minDuration.Some? && t.minScroll.Some?
    && now - t.startTime >= 1000 * t.minDuration.value
    && t.maxScroll >= t.minScroll.value as real
  }

  /**
   Once met, the thresholds stay met: later times and a larger recorded
   scroll depth keep them met.
   */
  lemma MeetsStaysMet(t: Tracker, now: int, now': int, maxScroll': real)
    requires Meets(t, now) && now <= now' && t.maxScroll <= maxScroll'
    ensures Meets(t.(maxScroll := maxScroll'), now')
    ensures t.minDuration.value > 0 ==> now > t.startTime
  {
  }

  /** A state after an event, and whether the event reported a valid visit. */
  datatype Stepped = Stepped(tracker: Tracker, fired: bool)

  /** `checkConditions()`: reports when both thresholds are met, unless it has reported already. */
  function Check(t: Tracker, now: int): (r: Stepped)
    ensures r.fired <==> !t.reported && Meets(t, now)
    ensures r.tracker == t.(reported := t.reported || r.fired)
  {
    if t.reported then Stepped(t, false)
    else if Meets(t, now) then Stepped(t.(reported := true), true)
    else Stepped(t, false)
  }

  function Max(a: real, b: real): real {
    if a >= b then a else b
  }

  /**
   `updateMaxScroll()`: a page without a scrollable area is ignored entirely;
   otherwise the sample `scrollY / docHeight * 100`, not clamped to 100, raises
   the maximum, and the conditions are checked.
   */
  function UpdateMaxScroll(t: Tracker, now: int, scrollY: real, scrollHeight: real, innerHeight: real): (r: Stepped)
    ensures scrollHeight - innerHeight <= 0.0 ==> r == Stepped(t, false)
    ensures scrollHeight - innerHeight > 0.0 ==>
      r.tracker.maxScroll == Max(t.maxScroll, scrollY / (scrollHeight - innerHeight) * 100.0)
    ensures r.tracker.maxScroll >= t.maxScroll
    ensures r.fired <==> scrollHeight - innerHeight > 0.0 && !t.reported && Meets(r.tracker, now)
  {
    var docHeight := scrollHeight - innerHeight;
    if docHeight <= 0.0 then Stepped(t, false)
    else
      var percentage := scrollY / docHeight * 100.0;
      Check(t.(maxScroll := Max(t.maxScroll, percentage)), now)
  }

  /** What the content script reacts to. */
  datatype Event =
    | Loaded(stored: Settings)
    | Scrolled(now: int, scrollY: real, scrollHeight: real, innerHeight: real)
    | Ticked(now: int)

  /** One event. Once reported, nothing is reported again; the start time is fixed and the maximum never falls. */
  function Step(t: Tracker, e: Event): (r: Stepped)
    ensures r.fired ==> !t.reported
    ensures r.tracker.reported == (t.reported || r.fired)
    ensures r.tracker.maxScroll >= t.maxScroll
    ensures r.tracker.startTime == t.startTime
    ensures r.fired ==> (e.Ticked? && Meets(t, e.now)) || (e.Scrolled? && Meets(r.tracker, e.now))
  {
    match e
    case Loaded(stored) => Stepped(Load(t, stored), false)
    case Scrolled(now, y, h, inner) => UpdateMaxScroll(t, now, y, h, inner)
    case Ticked(now) => Check(t, now)
  }

  /** A run of events: the final state and how many valid visits were reported. */
  datatype Ran = Ran(tracker: Tracker, reports: nat)

  /** A page load reports a valid visit at most once, and never after it has reported one. */
  function Run(t: Tracker, events: seq<Event>): (r: Ran)
    ensures r.reports <= 1
    ensures t.reported ==> r.reports == 0
    ensures r.tracker.reported == (t.reported || r.reports == 1)
    ensures r.tracker.maxScroll >= t.maxScroll
    ensures r.tracker.startTime == t.startTime
    decreases |events|
  {
    if |events| == 0 then Ran(t, 0)
    else
      var first := Step(t, events[0]);
      var rest := Run(first.tracker, events[1..]);
      Ran(rest.tracker, (if first.fired then 1 else 0) + rest.reports)
  }

  /** Four seconds with 80% scrolled report nothing; the tick at six seconds reports; the one at seven does not. */
  lemma ReportAfterSixSeconds()
    ensures var t := Start(0);
      var s1 := Step(t, Scrolled(4000, 80.0, 200.0, 100.0));
      var s2 := Step(s1.tracker, Ticked(4000));
      var s3 := Step(s2.tracker, Ticked(6000));
      var s4 := Step(s3.tracker, Ticked(7000));
      !s1.fired && !s2.fired && s3.fired && !s4.fired
      && Run(t, [Scrolled(4000, 80.0, 200.0, 100.0), Ticked(4000), Ticked(6000), Ticked(7000)]).reports == 1
  {
    var t := Start(0);
    var events := [Scrolled(4000, 80.0, 200.0, 100.0), Ticked(4000), Ticked(6000), Ticked(7000)];
    var s1 := Step(t, events[0]);
    assert s1.tracker.maxScroll == 80.0;
    var s2 := Step(s1.tracker, events[1]);
    var s3 := Step(s2.tracker, events[2]);
    assert s3.fired;
    assert events[1..][1..] == events[2..];
    assert Run(s2.tracker, events[2..]).reports == 1;
  }

  /** A sample is not clamped: scrolling past the document height records more than 100%. */
  lemma ScrollNotClamped(t: Tracker, now: int)
    requires t.maxScroll <= 100.0
    ensures UpdateMaxScroll(t, now, 200.0, 200.0, 100.0).tracker.maxScroll == 200.0
  {
  }

  /** Only ticks, and scroll events on pages too short to scroll. */
  predicate NoScrollableSample(events: seq<Event>) {
    forall i :: 0 <= i < |events| ==> events[i].Ticked? || (events[i].Scrolled? && events[i].scrollHeight - events[i].innerHeight <= 0.0)
  }

  /**
   A page too short to scroll never reports while the scroll threshold is above
   the recorded maximum, however long it stays open.
   */
  lemma {:induction false} ShortPageNeverReports(t: Tracker, events: seq<Event>)
    requires NoScrollableSample(events)
    requires t.minScroll.Some? && t.maxScroll < t.minScroll.value as real
    ensures Run(t, events).reports == 0
    ensures Run(t, events).tracker == t
  {
    if |events| > 0 {
      var first := Step(t, events[0]);
      assert first == Stepped(t, false);
      assert NoScrollableSample(events[1..]) by {
        forall i | 0 <= i < |events[1..]| ensures events[1..][i] == events[i + 1] { }
      }
      ShortPageNeverReports(t, events[1..]);
    }
  }

  /** With the scroll threshold stored as the string `"0"`, a page too short to scroll does report once it has been open long enough. */
  lemma ShortPageWithZeroThreshold(start: int, now: int)
    requires now - start >= 5000
    ensures Step(Load(Start(start), map[MinScrollDepth := Str("0")]), Ticked(now)).fired
  {
    var stored := map[MinScrollDepth := Str("0")];
    assert !TruthyAt(stored, MinVisitDuration);
    assert Threshold(stored, MinScrollDepth, Some(50)) == Some(0) by {
      ThresholdOfDigits(stored, MinScrollDepth, Some(50));
      assert "0"[..0] == "";
    }
  }

  /** The text sent for a page: `text.replace(/\s+/g, ' ').trim().substring(0, 30000)`, `""` for a missing text. */
  function CleanText(text: Option<string>): (r: string)
    ensures text.None? || text.value == "" ==> r == ""
    ensures |r| <= MaxText
    ensures NoSpaceRun(r) && OnlyPlainSpaces(r)
    ensures |r| > 0 ==> !IsSpace(r[0])
    ensures text.Some? ==> StartsWith(Squeeze(text.value), Squeeze(r))
    ensures text.Some? ==>
      var t := Trim(CollapseFrom(text.value, false));
      |r| == (if |t| <= MaxText then |t| else MaxText) && r == t[..|r|]
  {
    match text
    case None => ""
    case Some(t) =>
      if t == "" then ""
      else
        var trimmed := Trim(CollapseSpaces(t));
        var r := Take(trimmed, MaxText);
        SliceKeepsSpacing(trimmed, 0, |r|);
        assert trimmed[0..|r|] == r;
        SqueezeAppend(r, trimmed[|r|..]);
        assert trimmed == r + trimmed[|r|..];
        r
  }

  /** Nothing but white space is lost from a text whose cleaned form fits in the limit. */
  lemma CleanTextKeepsShortText(t: string)
    requires |Trim(CollapseSpaces(t))| <= MaxText
    ensures CleanText(Some(t)) == Trim(CollapseFrom(t, false))
    ensures Squeeze(CleanText(Some(t))) == Squeeze(t)
  {
  }

  /** Runs of white space inside become one space and the ends are cut. */
  lemma CleanTextExample()
    ensures CleanText(Some("a \t b ")) == "a b"
  {
    CollapseExample();
    TrimExample();
    assert "a b"[..3] == "a b";
  }
}

=== FILE: gemini.dfy ===
/**
 The summary generator (`src/background/gemini.js`): builds one request to the
 generative-language endpoint and maps its reply to the summary text. The
 reply arrives as a parameter; the function never throws.
 */
module Gemini {
  import opened Results
  import opened Text

  /** At most this many characters of the page reach the prompt. */
  const MaxContent: nat := 30000

  const PromptLead := "以下のWebページの内容を、日本語で簡潔に要約してください。"
  const ShortInstruction := "この記事の核心となる結論や最も重要な洞察（インサイト）を、1〜2文で鋭くまとめてください。「〜について書かれています」といった説明調は避け、内容そのものを記述してください。"
  const MediumInstruction := "記事の重要なポイント、論理展開、および独自の視点を3〜5文で抽出してください。単なる概要ではなく、記事のエッセンス（本質）が伝わるようにまとめてください。"
  const LongInstruction := "記事の詳細な要約を作成してください。著者の中心的な主張、それを支える主要な論拠、具体的な事例、および結論を網羅し、読者が元記事を読まなくても本質を深く理解できるようにしてください。"
  const ContentHeading := "\n\nContent:\n"
  const Endpoint := "https://generativelanguage.googleapis.com/v1beta/models/"

  const NoKeyText := "No API Key provided."
  const NoSummaryText := "No summary generated."
  const ErrorPrefix := "Error generating summary: "
  /** What the engine says when `content.parts` is missing and `parts[0]` is read. */
  const NoPartsMessage := "Cannot read properties of undefined (reading '0')"
  /** What the engine says when `parts` is empty and `parts[0].text` is read. */
  const NoFirstPartMessage := "Cannot read properties of undefined (reading 'text')"

  /** The JSON reply: `candidates[i].content.parts[j].text`, any of which may be absent. */
  datatype Part = Part(text: Option<string>)
  datatype Content = Content(parts: Option<seq<Part>>)
  datatype Candidate = Candidate(content: Option<Content>)
  datatype Body = Body(candidates: Option<seq<Candidate>>)

  /** The outcome of the `fetch`: it threw, or it answered with a status, the error text and the parsed body. */
  datatype Reply = Threw(message: string) | Answered(status: int, errorText: string, body: Body)

  datatype Request = Request(url: string, prompt: string)

  /** The request made (if any) and the returned text; `None` is `undefined`. */
  datatype Generation = Generation(request: Option<Request>, text: Option<string>)

  /** `modelName.replace(/^models\//, '')` */
  function CleanModelName(modelName: string): (r: string)
    ensures StartsWith(modelName, "models/") ==> "models/" + r == modelName
    ensures !StartsWith(modelName, "models/") ==> r == modelName
  {
    DropPrefix(modelName, "models/")
  }

  /** Only ONE leading `models/` is removed. */
  lemma CleanModelNameOnce(name: string)
    ensures CleanModelName("models/" + name) == name
  {
    assert ("models/" + name)[..7] == "models/";
    assert ("models/" + name)[7..] == name;
  }

  /** 'medium' and 'long' have their own instructions; every other length gets the short one. */
  function Instruction(length: string): (r: string)
    ensures r == MediumInstruction <==> length == "medium"
    ensures r == LongInstruction <==> length == "long"
    ensures r == ShortInstruction <==> length != "medium" && length != "long"
  {
    assert MediumInstruction != ShortInstruction && LongInstruction != ShortInstruction
      && MediumInstruction != LongInstruction by {
      assert |ShortInstruction| == 86 && |MediumInstruction| == 77 && |LongInstruction| == 90;
    }
    if length == "medium" then MediumInstruction
    else if length == "long" then LongInstruction
    else ShortInstruction
  }

  /** The prompt: lead, instruction, heading, then the first `MaxContent` characters of the page. */
  function Prompt(content: string, length: string): (r: string)
    ensures EndsWith(r, Take(content, MaxContent))
    ensures StartsWith(r, PromptLead + Instruction(length) + ContentHeading)
  {
    var head := PromptLead + Instruction(length) + ContentHeading;
    var r := head + Take(content, MaxContent);
    assert r[..|head|] == head;
    assert r[|r| - |Take(content, MaxContent)|..] == Take(content, MaxContent);
    r
  }

  /** The page text embedded in a prompt is a prefix of the content of at most `MaxContent` characters, all of it when it fits. */
  lemma PromptEmbedsPrefix(content: string, length: string)
    ensures var embedded := Prompt(content, length)[|PromptLead + Instruction(length) + ContentHeading|..];
      && |embedded| <= MaxContent
      && StartsWith(content, embedded)
      && (|content| <= MaxContent ==> embedded == content)
      && (|content| > MaxContent ==> |embedded| == MaxContent)
  {
  }

  /** The text extracted from the reply, or the error text that replaces the exception. */
  function SummaryOf(reply: Reply): (r: Option<string>)
    ensures reply.Threw? ==> r == Some(ErrorPrefix + reply.message)
    ensures reply.Answered? && !(200 <= reply.status < 300) ==>
      r.Some? && StartsWith(r.value, ErrorPrefix + "Gemini API Error: ")
    ensures r.None? ==> reply.Answered? && 200 <= reply.status < 300
    ensures reply.Answered? && !(200 <= reply.status < 300) ==>
      r == Some(ErrorPrefix + "Gemini API Error: " + IntToString(reply.status) + " " + reply.errorText)
    ensures reply.Answered? && 200 <= reply.status < 300 ==> r == FirstCandidateText(reply.body)
  {
    match reply
    case Threw(m) => Some(ErrorPrefix + m)
    case Answered(status, errorText, body) =>
      if !(200 <= status < 300) then
        var r := ErrorPrefix + "Gemini API Error: " + IntToString(status) + " " + errorText;
        assert r[..|ErrorPrefix + "Gemini API Error: "|] == ErrorPrefix + "Gemini API Error: ";
        Some(r)
      else FirstCandidateText(body)
  }

  /** `candidates[0].content.parts[0].text` when there is a first candidate with content. */
  function FirstCandidateText(body: Body): (r: Option<string>)
    ensures (body.candidates.None? || |body.candidates.value| == 0 || body.candidates.value[0].content.None?)
      ==> r == Some(NoSummaryText)
    ensures body.candidates.Some? && |body.candidates.value| > 0 && body.candidates.value[0].content.Some? ==>
      var parts := body.candidates.value[0].content.value.parts;
      && (parts.None? ==> r == Some(ErrorPrefix + NoPartsMessage))
      && (parts.Some? && |parts.value| == 0 ==> r == Some(ErrorPrefix + NoFirstPartMessage))
      && (parts.Some? && |parts.value| > 0 ==> r == parts.value[0].text)
  {
    match body.candidates
    case None => Some(NoSummaryText)
    case Some(cs) =>
      if |cs| == 0 then Some(NoSummaryText)
      else
        match cs[0].content
        case None => Some(NoSummaryText)
        case Some(content) =>
          match content.parts
          case None => Some(ErrorPrefix + NoPartsMessage)
          case Some(parts) =>
            if |parts| == 0 then Some(ErrorPrefix + NoFirstPartMessage)
            else parts[0].text
  }

  /** `generateSummary(content, apiKey, modelName, length)` */
  function GenerateSummary(content: string, apiKey: string, modelName: string, length: string, reply: Reply): (r: Generation)
    ensures r.request.None? <==> apiKey == ""
    ensures apiKey == "" ==> r.text == Some(NoKeyText)
    ensures apiKey != "" ==> r.text == SummaryOf(reply)
    ensures r.request.Some? ==>
      && r.request.value.url == Endpoint + CleanModelName(modelName) + ":generateContent?key=" + apiKey
      && r.request.value.prompt == Prompt(content, length)
  {
    if apiKey == "" then Generation(None, Some(NoKeyText))
    else
      var url := Endpoint + CleanModelName(modelName) + ":generateContent?key=" + apiKey;
      Generation(Some(Request(url, Prompt(content, length))), SummaryOf(reply))
  }

  /** The text of a well-formed first candidate is what the summary is. */
  lemma WellFormedReplyText(status: int, errorText: string, text: string, rest: seq<Part>, more: seq<Candidate>)
    requires 200 <= status < 300
    ensures SummaryOf(Answered(status, errorText, Body(Some([Candidate(Some(Content(Some([Part(Some(text))] + rest))))] + more))))
      == Some(text)
  {
  }
}

=== FILE: obsidian_client.dfy ===
/**
 The note-store client (`src/background/obsidianClient.js`). Every operation
 first runs `init`, which reads the settings and fails without an API key;
 here the operations take the resulting `Client`, and the store's replies are
 parameters: a map from URL to the status a `HEAD` answers, and one reply per
 other request the operation may make.
 */
module ObsidianClient {
  import opened Results
  import opened Text
  import opened Uri
  import opened Storage

  datatype Client = Client(baseUrl: string, apiKey: string, settings: Settings)

  const ApiKeyMissing := "Obsidian API Key not set"

  /** `init()`: the base URL from protocol and port (with their fallbacks), or the missing-key error. */
  function Init(store: Settings): (r: Result<Client, string>)
    ensures r.Ok? <==> TruthyAt(GetSettings(store), ObsidianApiKey)
    ensures r.Err? ==> r.error == ApiKeyMissing
    ensures r.Ok? ==> r.value.settings == GetSettings(store) && r.value.apiKey == AsText(store[ObsidianApiKey])
  {
    var settings := GetSettings(store);
    var protocol := AsText(OrElse(settings, ObsidianProtocol, Str("http")));
    var port := AsText(OrElse(settings, ObsidianPort, Str("27123")));
    if !TruthyAt(settings, ObsidianApiKey) then Err(ApiKeyMissing)
    else Ok(Client(protocol + "://127.0.0.1:" + port, AsText(settings[ObsidianApiKey]), settings))
  }

  /** With only a key stored, or with protocol and port stored empty, the client talks to `http://127.0.0.1:27123`. */
  lemma InitFallbacks(key: string, blank: Settings)
    requires key != ""
    requires blank.Keys <= {ObsidianProtocol, ObsidianPort}
    requires forall k :: k in blank ==> !Truthy(blank[k])
    ensures Init(blank[ObsidianApiKey := Str(key)]).Ok?
    ensures Init(blank[ObsidianApiKey := Str(key)]).value.baseUrl == "http://127.0.0.1:27123"
  {
    var store := blank[ObsidianApiKey := Str(key)];
    var m := GetSettings(store);
    assert m[ObsidianApiKey] == Str(key);
    FallbackText(blank, store, ObsidianProtocol, "http");
    FallbackText(blank, store, ObsidianPort, "27123");
    assert Init(store) == Ok(Client("http" + "://127.0.0.1:" + "27123", key, m));
    DefaultBaseUrl();
  }

  lemma DefaultBaseUrl()
    ensures "http" + "://127.0.0.1:" + "27123" == "http://127.0.0.1:27123"
  {
  }

  /** A key stored falsy, or not stored and defaulted to `fallback`, reads as `fallback` under `||`. */
  lemma FallbackText(blank: Settings, store: Settings, k: string, fallback: string)
    requires k in DefaultSettings && DefaultSettings[k] == Str(fallback)
    requires k in blank ==> !Truthy(blank[k])
    requires k in store <==> k in blank
    requires k in blank ==> store[k] == blank[k]
    ensures AsText(OrElse(GetSettings(store), k, Str(fallback))) == fallback
  {
  }

  // ---------------------------------------------------------------------------
  // Requests and replies
  // ---------------------------------------------------------------------------

  datatype Method = Get | Head | Put | Post

  datatype Request = Request(verb: Method, url: string, body: string)

  /** The outcome of one `fetch`: it threw, or the store answered. */
  datatype Reply = Threw(message: string) | Answered(status: int, statusText: string)

  /** `response.ok` */
  predicate IsOk(status: int) {
    200 <= status < 300
  }

  /** `{ success: true }` or `{ success: false, error }`. */
  datatype WriteResult = Written | NotWritten(error: string)

  /** The request a write made (none when it failed before the `fetch`) and its result. */
  datatype Write = Write(request: Option<Request>, result: WriteResult)

  /** `${baseUrl}/vault/${encodedPath}` */
  function VaultUrl(c: Client, path: string): (u: string)
    ensures StartsWith(u, c.baseUrl + "/vault/")
    ensures DecodeComponent(u[|c.baseUrl + "/vault/"|..]) == Some(path)
  {
    var prefix := c.baseUrl + "/vault/";
    var u := prefix + EncodePath(path);
    assert u[..|prefix|] == prefix;
    assert u[|prefix|..] == EncodePath(path);
    DecodeEncodePath(path);
    u
  }

  /**
   The URL a note operation requests names exactly the note: what follows
   `/vault/` decodes back to the path, and it has as many `/`-separated segments.
   */
  lemma VaultUrlNamesPath(c: Client, path: string)
    ensures StartsWith(VaultUrl(c, path), c.baseUrl + "/vault/")
    ensures DecodeComponent(VaultUrl(c, path)[|c.baseUrl + "/vault/"|..]) == Some(path)
    ensures |Split(VaultUrl(c, path)[|c.baseUrl + "/vault/"|..], '/')| == |Split(path, '/')|
  {
    var prefix := c.baseUrl + "/vault/";
    assert VaultUrl(c, path)[|prefix|..] == EncodePath(path);
  }

  /** What the store answered to `HEAD` on each URL; a URL without an entry is a `fetch` that threw. */
  type HeadStatuses = map<string, int>

  /** `exists(path)`: the `HEAD` answered exactly 200. */
  predicate Exists(c: Client, head: HeadStatuses, path: string) {
    VaultUrl(c, path) in head && head[VaultUrl(c, path)] == 200
  }

  /**
   Only the note's own `HEAD` decides: a note exists exactly when that request
   answered 200 (any other status, even another 2xx, means missing), and a
   `HEAD` that threw means missing.
   */
  lemma ExistsExactly200(c: Client, head: HeadStatuses, path: string, status: int)
    ensures Exists(c, head[VaultUrl(c, path) := status], path) <==> status == 200
    ensures !Exists(c, head - {VaultUrl(c, path)}, path)
  {
  }

  /** `createNote(path, content)` */
  function CreateNote(c: Client, path: string, content: string, reply: Reply): (w: Write)
    ensures w.request == Some(Request(Put, VaultUrl(c, path), content))
    ensures w.result.Written? <==> reply.Answered? && IsOk(reply.status)
    ensures reply.Threw? ==> w.result == NotWritten(reply.message)
  {
    var result :=
      match reply
      case Threw(m) => NotWritten(m)
      case Answered(status, text) =>
        if IsOk(status) then Written else NotWritten("Failed to create note: " + text);
    Write(Some(Request(Put, VaultUrl(c, path), content)), result)
  }

  const NotFoundPrefix := "Note not found: "

  /** `appendToNote(path, content)`: a 404 is reported as a missing note, any other failure as it came. */
  function AppendToNote(c: Client, path: string, content: string, reply: Reply): (w: Write)
    ensures w.request == Some(Request(Post, VaultUrl(c, path), content))
    ensures w.result.Written? <==> reply.Answered? && IsOk(reply.status)
    ensures reply.Answered? && reply.status == 404 ==>
      w.result == NotWritten(NotFoundPrefix + path + " (Encoded: " + EncodePath(path) + ")")
    ensures reply.Answered? && !IsOk(reply.status) && reply.status != 404 ==>
      w.result == NotWritten("Failed to append: " + reply.statusText)
    ensures reply.Threw? ==> w.result == NotWritten(reply.message)
  {
    var result :=
      match reply
      case Threw(m) => NotWritten(m)
      case Answered(status, text) =>
        if IsOk(status) then Written
        else if status == 404 then NotWritten(NotFoundPrefix + path + " (Encoded: " + EncodePath(path) + ")")
        else NotWritten("Failed to append: " + text);
    Write(Some(Request(Post, VaultUrl(c, path), content)), result)
  }

  // ---------------------------------------------------------------------------
  // Daily note
  // ---------------------------------------------------------------------------

  /** A local calendar date: `getFullYear()`, `getMonth() + 1`, `getDate()`. */
  datatype Date = Date(year: nat, month: nat, day: nat)

  predicate ValidDate(d: Date) {
    1000 <= d.year <= 9999 && 1 <= d.month <= 12 && 1 <= d.day <= 31
  }

  /** `${year}-${month}-${day}.md` with month and day padded to two digits. */
  function DailyFileName(d: Date): (name: string)
    ensures EndsWith(name, ".md")
  {
    var name := NatToString(d.year) + "-" + PadTwo(d.month) + "-" + PadTwo(d.day) + ".md";
    ConcatEnds(NatToString(d.year) + "-" + PadTwo(d.month) + "-" + PadTwo(d.day), ".md");
    name
  }

  predicate AllDigits(s: string) {
    forall i :: 0 <= i < |s| ==> IsDigit(s[i])
  }

  /** Reads `YYYY-MM-DD.md` back. */
  function ParseDailyFileName(name: string): Option<Date> {
    if |name| == 13 && name[4] == '-' && name[7] == '-' && name[10..] == ".md"
      && AllDigits(name[..4]) && AllDigits(name[5..7]) && AllDigits(name[8..10])
    then Some(Date(DigitsValue(name[..4]), DigitsValue(name[5..7]), DigitsValue(name[8..10])))
    else None
  }

  lemma FourDigits(y: nat)
    requires 1000 <= y <= 9999
    ensures |NatToString(y)| == 4
  {
    assert NatToString(y / 1000) == [DigitChar(y / 1000)];
    assert NatToString(y / 100) == NatToString(y / 1000) + [DigitChar((y / 100) % 10)];
    assert NatToString(y / 10) == NatToString(y / 100) + [DigitChar((y / 10) % 10)];
  }

  /** Every daily file name of a four-digit year reads back as its date: the month and day are zero-padded. */
  lemma DailyFileNameRoundTrip(d: Date)
    requires ValidDate(d)
    ensures |DailyFileName(d)| == 13
    ensures ParseDailyFileName(DailyFileName(d)) == Some(d)
  {
    var y := NatToString(d.year);
    var m := PadTwo(d.month);
    var dd := PadTwo(d.day);
    FourDigits(d.year);
    NatToStringValue(d.year);
    PadTwoValue(d.month);
    PadTwoValue(d.day);
    var name := DailyFileName(d);
    assert name == y + "-" + m + "-" + dd + ".md";
    assert name[..4] == y;
    assert name[5..7] == m;
    assert name[8..10] == dd;
    assert name[10..] == ".md";
  }

  /** `${dailyPath.replace(/\/$/, '')}/${fileName}` */
  function DailyNotePath(dailyPath: string, d: Date): (r: string)
    ensures EndsWith(r, "/" + DailyFileName(d))
    ensures StartsWith(r, DropSuffix(dailyPath, "/") + "/")
    ensures |r| == |DropSuffix(dailyPath, "/")| + 1 + |DailyFileName(d)|
  {
    var dir := DropSuffix(dailyPath, "/");
    var name := DailyFileName(d);
    ConcatAssoc(dir, "/", name);
    ConcatEnds(dir, "/" + name);
    ConcatEnds(dir + "/", name);
    dir + "/" + name
  }

  /**
   The daily path splits back into its parts: the folder (one trailing `/`
   dropped), a `/`, and a 13-character file name that reads back as the date.
   */
  lemma DailyNotePathParts(dailyPath: string, d: Date)
    requires ValidDate(d)
    ensures var r := DailyNotePath(dailyPath, d);
      && |r| == |DropSuffix(dailyPath, "/")| + 14
      && r[..|r| - 14] == DropSuffix(dailyPath, "/")
      && r[|r| - 14] == '/'
      && ParseDailyFileName(r[|r| - 13..]) == Some(d)
  {
    DailyFileNameRoundTrip(d);
    var dir := DropSuffix(dailyPath, "/");
    var name := DailyFileName(d);
    var r := DailyNotePath(dailyPath, d);
    assert r == dir + "/" + name;
    assert r[..|dir|] == dir;
    assert r[|dir| + 1..] == name;
  }

  /** One trailing `/` on the daily folder makes no difference; a second one is kept. */
  lemma DailyNotePathTrailingSlash(folder: string, d: Date)
    requires !EndsWith(folder, "/")
    ensures DailyNotePath(folder + "/", d) == DailyNotePath(folder, d)
    ensures DailyNotePath(folder + "//", d) == folder + "/" + "/" + DailyFileName(d)
  {
    assert (folder + "/")[|folder + "/"| - 1..] == "/";
    assert (folder + "//")[|folder + "//"| - 1..] == "/";
    assert (folder + "//")[..|folder + "//"| - 1] == folder + "/";
  }

  /** `appendToDailyNote(content)`: the daily folder falls back to `Daily` when the setting is falsy. */
  function DailyFolder(settings: Settings): (folder: string)
    ensures !TruthyAt(settings, ObsidianDailyPath) ==> folder == "Daily"
    ensures TruthyAt(settings, ObsidianDailyPath) ==> folder == AsText(settings[ObsidianDailyPath])
    ensures folder != ""
  {
    TruthyAtText(settings, ObsidianDailyPath);
    AsText(OrElse(settings, ObsidianDailyPath, Str("Daily")))
  }

  /**
   `appendToDailyNote(content)`: a `POST` of the content to the URL of today's
   note in the daily folder, which falls back to `Daily` when the setting is falsy.
   */
  function AppendToDailyNote(c: Client, d: Date, content: string, reply: Reply): (w: Write)
    ensures w.request.Some? && w.request.value.verb == Post && w.request.value.body == content
    ensures StartsWith(w.request.value.url, c.baseUrl + "/vault/")
    ensures DecodeComponent(w.request.value.url[|c.baseUrl + "/vault/"|..]) == Some(DailyNotePath(DailyFolder(c.settings), d))
    ensures w.result.Written? <==> reply.Answered? && IsOk(reply.status)
  {
    var path := DailyNotePath(DailyFolder(c.settings), d);
    VaultUrlNamesPath(c, path);
    AppendToNote(c, path, content, reply)
  }

  // ---------------------------------------------------------------------------
  // Memo
  // ---------------------------------------------------------------------------

  /** The memo text: a `## [title](url)` header for a new context, then the timestamped bullet. */
  function MemoText(memo: string, title: string, url: string, isNewContext: bool, timestamp: string): (r: string)
    ensures EndsWith(r, "- " + timestamp + " " + memo + "\n")
    ensures isNewContext ==> StartsWith(r, "\n## [" + title + "](" + url + ")\n")
    ensures isNewContext <==> StartsWith(r, "\n## [")
    ensures |r| == (if isNewContext then |"\n## [" + title + "](" + url + ")\n"| else 0) + |"- " + timestamp + " " + memo + "\n"|
  {
    var header := if isNewContext then "\n## [" + title + "](" + url + ")\n" else "";
    var bullet := "- " + timestamp + " " + memo + "\n";
    var r := header + bullet;
    assert r[|r| - |bullet|..] == bullet;
    assert isNewContext ==> r[..|header|] == header && header[..5] == "\n## [";
    assert !isNewContext ==> r[0] == '-';
    r
  }

  /**
   For one-line parts, a memo for a new context is a blank line, the header
   line and the bullet line; otherwise the bullet line alone. Each ends the text
   with a newline.
   */
  lemma MemoTextLines(memo: string, title: string, url: string, isNewContext: bool, timestamp: string)
    requires '\n' !in memo && '\n' !in title && '\n' !in url && '\n' !in timestamp
    ensures Split(MemoText(memo, title, url, isNewContext, timestamp), '\n')
      == (if isNewContext then ["", "## [" + title + "](" + url + ")"] else []) + ["- " + timestamp + " " + memo, ""]
  {
    var bulletLine := "- " + timestamp + " " + memo;
    assert '\n' !in bulletLine;
    BulletLines(bulletLine);
    if isNewContext {
      var headLine := "## [" + title + "](" + url + ")";
      assert '\n' !in headLine;
      HeaderLines(headLine, bulletLine);
      assert MemoText(memo, title, url, isNewContext, timestamp) == "" + ['\n'] + (headLine + ['\n'] + (bulletLine + "\n"));
    } else {
      assert MemoText(memo, title, url, isNewContext, timestamp) == bulletLine + "\n";
    }
  }

  lemma BulletLines(bulletLine: string)
    requires '\n' !in bulletLine
    ensures Split(bulletLine + "\n", '\n') == [bulletLine, ""]
  {
    SplitPiece(bulletLine, '\n', "", true);
    assert Split("", '\n') == [""];
    assert bulletLine + ['\n'] + "" == bulletLine + "\n";
  }

  lemma HeaderLines(headLine: string, bulletLine: string)
    requires '\n' !in headLine && '\n' !in bulletLine && Split(bulletLine + "\n", '\n') == [bulletLine, ""]
    ensures Split("" + ['\n'] + (headLine + ['\n'] + (bulletLine + "\n")), '\n') == ["", headLine, bulletLine, ""]
  {
    SplitPiece(headLine, '\n', bulletLine + "\n", true);
    SplitPiece("", '\n', headLine + ['\n'] + (bulletLine + "\n"), true);
  }

  /** What the engine says when `appendToNote` is called with a `null` path and calls `path.split`. */
  const NullPathMessage := "Cannot read properties of null (reading 'split')"

  /** `appendMemo(path, memo, title, url, isNewContext)`: a missing path fails inside `appendToNote`'s `try`. */
  function AppendMemo(c: Client, path: Option<string>, memo: string, title: string, url: string,
                      isNewContext: bool, timestamp: string, reply: Reply): (w: Write)
    ensures path.None? ==> w == Write(None, NotWritten(NullPathMessage))
    ensures path.Some? ==> w == AppendToNote(c, path.value, MemoText(memo, title, url, isNewContext, timestamp), reply)
  {
    match path
    case None => Write(None, NotWritten(NullPathMessage))
    case Some(p) => AppendToNote(c, p, MemoText(memo, title, url, isNewContext, timestamp), reply)
  }

  // ---------------------------------------------------------------------------
  // Active note
  // ---------------------------------------------------------------------------

  /** Where `GET /active/` ended up: the `fetch` threw, or the status and the final (redirected) URL. */
  datatype Landing = LandingThrew(message: string) | Landed(status: int, url: string)

  const NoActiveNote := "Could not determine active note path (Is a note open?)"
  /** The message of the `URIError` a malformed escape raises. */
  const MalformedUri := "URI malformed"

  /** `getActiveNote()`: the decoded path after `${baseUrl}/vault/`; it rethrows every failure. */
  function GetActiveNote(c: Client, landing: Landing): (r: Result<string, string>)
    ensures r.Ok? ==> landing.Landed? && IsOk(landing.status) && StartsWith(landing.url, c.baseUrl + "/vault/")
    ensures landing.Landed? && !(IsOk(landing.status) && StartsWith(landing.url, c.baseUrl + "/vault/")) ==>
      r == Err(NoActiveNote)
    ensures landing.LandingThrew? ==> r == Err(landing.message)
    ensures landing.Landed? && IsOk(landing.status) && StartsWith(landing.url, c.baseUrl + "/vault/") ==>
      var rest := landing.url[|c.baseUrl + "/vault/"|..];
      (DecodeComponent(rest).None? ==> r == Err(MalformedUri)) &&
      (DecodeComponent(rest).Some? ==> r == Ok(DecodeComponent(rest).value))
  {
    match landing
    case LandingThrew(m) => Err(m)
    case Landed(status, url) =>
      var prefix := c.baseUrl + "/vault/";
      if IsOk(status) && StartsWith(url, prefix) then
        match DecodeComponent(url[|prefix|..])
        case None => Err(MalformedUri)
        case Some(p) => Ok(p)
      else Err(NoActiveNote)
  }

  /** A redirect to the URL the client itself would use for a note yields that note's path. */
  lemma ActiveNoteRoundTrip(c: Client, path: string, status: int)
    requires IsOk(status)
    ensures GetActiveNote(c, Landed(status, VaultUrl(c, path))) == Ok(path)
  {
    VaultUrlNamesPath(c, path);
  }

  /** A landing whose path holds a broken escape rethrows the `URIError` of the decoding. */
  lemma ActiveNoteMalformed(c: Client, status: int)
    requires IsOk(status)
    ensures GetActiveNote(c, Landed(status, c.baseUrl + "/vault/" + "%zz.md")) == Err(MalformedUri)
  {
    var prefix := c.baseUrl + "/vault/";
    var url := prefix + "%zz.md";
    assert StartsWith(url, prefix) by { ConcatEnds(prefix, "%zz.md"); }
    assert url[|prefix|..] == "%zz.md";
    assert HexValue('z').None?;
  }

  // ---------------------------------------------------------------------------
  // Search
  // ---------------------------------------------------------------------------

  /** The JSON a search endpoint returned: an array of `{filename}` results, or something else. */
  datatype SearchBody = Hits(filenames: seq<string>) | NotAnArray

  datatype SearchReply = SearchThrew(message: string) | SearchAnswered(status: int, body: SearchBody)

  /** One search strategy: it threw, or it returned an array (possibly empty). */
  datatype Strategy = Fail | Found(files: seq<string>)

  /** `fetchSearch(endpoint, query)`: the filenames of an ok array reply; anything else throws. */
  function FetchSearch(reply: SearchReply): (s: Strategy)
    ensures s.Found? <==> reply.SearchAnswered? && IsOk(reply.status) && reply.body.Hits?
    ensures s.Found? ==> s.files == reply.body.filenames
  {
    match reply
    case SearchThrew(_) => Fail
    case SearchAnswered(status, body) =>
      if IsOk(status) && body.Hits? then Found(body.filenames) else Fail
  }

  /** A listing entry: a plain string, or an object with `name` and `filename` ("" where absent). */
  datatype ListedFile = Plain(name: string) | Described(name: string, filename: string)

  /** A directory listing: the `fetch` threw, or a status and the entries (of an array or of `files`). */
  datatype ListingReply = ListingThrew(message: string) | Listed(status: int, entries: seq<ListedFile>)

  /** The entries a listing contributes: none unless it answered ok. */
  function ListingEntries(reply: ListingReply): (r: seq<ListedFile>)
    ensures r != [] ==> reply.Listed? && IsOk(reply.status) && r == reply.entries
    ensures reply.Listed? && IsOk(reply.status) ==> r == reply.entries
    ensures reply.ListingThrew? ==> r == []
  {
    if reply.Listed? && IsOk(reply.status) then reply.entries else []
  }

  /** `typeof f === 'string' ? f : f.name || f.filename` */
  function EntryName(e: ListedFile): (n: string)
    ensures n == e.name || (e.Described? && e.name == "" && n == e.filename)
    ensures n == "" <==> e.name == "" && (e.Plain? || e.filename == "")
  {
    match e
    case Plain(n) => n
    case Described(n, f) => if n != "" then n else f
  }

  /** `name && name.toLowerCase().includes(query.toLowerCase())` */
  predicate NameMatches(query: string, name: string) {
    name != "" && Contains(ToLower(name), ToLower(query))
  }

  /**
   The filter ignores case on both sides, an empty query keeps every non-empty
   name, and it matches anywhere in the name, not only at the start.
   */
  lemma NameMatchesIgnoresCase(query: string, name: string)
    ensures NameMatches(query, name) <==> NameMatches(ToLower(query), ToLower(name))
    ensures NameMatches("", name) <==> name != ""
    ensures NameMatches("plan", "notes/MyPlan.md")
  {
    ToLowerTwice(query);
    ToLowerTwice(name);
    assert StartsWith(ToLower(name)[0..], "");
    var n := "notes/MyPlan.md";
    assert ToLower(n)[8..][..4] == "plan";
    assert ToLower("plan") == "plan";
  }

  function Names(entries: seq<ListedFile>): (r: seq<string>)
    ensures |r| == |entries|
    ensures forall i :: 0 <= i < |r| ==> r[i] == EntryName(entries[i])
  {
    seq(|entries|, i requires 0 <= i < |entries| => EntryName(entries[i]))
  }

  /**
   The listing strategy's filter: the matching names, each once, in the order
   of their first occurrence; exactly the listed names that match.
   */
  function ListingMatches(query: string, entries: seq<ListedFile>): (r: seq<string>)
    ensures Distinct(r)
    ensures forall i :: 0 <= i < |r| ==> NameMatches(query, r[i]) && r[i] in Names(entries)
    ensures forall i :: 0 <= i < |entries| && NameMatches(query, EntryName(entries[i])) ==> EntryName(entries[i]) in r
    ensures FirstOrdered(Names(entries), r)
  {
    var names := Names(entries);
    var matches := n => NameMatches(query, n);
    var kept := Filter(names, matches);
    assert forall i :: 0 <= i < |entries| && NameMatches(query, EntryName(entries[i])) ==> EntryName(entries[i]) in kept by {
      forall i | 0 <= i < |entries| && NameMatches(query, EntryName(entries[i]))
        ensures EntryName(entries[i]) in kept
      {
        assert names[i] == EntryName(entries[i]);
      }
    }
    DedupFilterFirstOrdered(names, matches);
    Dedup(kept)
  }

  /** The default folder when the setting is truthy. */
  function FolderSetting(settings: Settings): (f: Option<string>)
    ensures f.Some? <==> TruthyAt(settings, DefaultFolder)
    ensures f.Some? ==> f.value == AsText(settings[DefaultFolder]) && f.value != ""
  {
    TruthyAtText(settings, DefaultFolder);
    if TruthyAt(settings, DefaultFolder) then Some(AsText(settings[DefaultFolder])) else None
  }

  /** The results and the endpoints contacted, in order. */
  datatype Search = Search(results: seq<string>, contacted: seq<string>)

  /** The entries the last strategy filters: the vault root's, then, with a default folder, that folder's. */
  function FallbackEntries(c: Client, root: ListingReply, folder: ListingReply): seq<ListedFile> {
    ListingEntries(root) + (if FolderSetting(c.settings).Some? then ListingEntries(folder) else [])
  }

  /** The last strategy: the names in the listings that match, and the listing URLs it requests. */
  function ListingSearch(c: Client, query: string, root: ListingReply, folder: ListingReply): (s: Search)
    ensures s.results == ListingMatches(query, FallbackEntries(c, root, folder))
    ensures |s.contacted| == (if FolderSetting(c.settings).Some? then 2 else 1)
    ensures s.contacted[0] == c.baseUrl + "/vault/"
    ensures FolderSetting(c.settings).Some? ==>
      s.contacted[1] == VaultUrl(c, FolderSetting(c.settings).value) + "/"
  {
    var urls :=
      match FolderSetting(c.settings)
      case None => [c.baseUrl + "/vault/"]
      case Some(f) => [c.baseUrl + "/vault/", VaultUrl(c, f) + "/"];
    Search(ListingMatches(query, FallbackEntries(c, root, folder)), urls)
  }

  /**
   `searchFiles(query)`: `/search/simple/`, then `/search/`, then the listings.
   A strategy that returns an array, even an empty one, ends the chain; the
   next one runs only if it threw.
   */
  function SearchFiles(c: Client, query: string, simple: SearchReply, plain: SearchReply,
                       root: ListingReply, folder: ListingReply): (s: Search)
    ensures 1 <= |s.contacted| && s.contacted[0] == c.baseUrl + "/search/simple/"
    ensures FetchSearch(simple).Found? <==> |s.contacted| == 1
    ensures FetchSearch(simple).Found? ==> s.results == FetchSearch(simple).files
    ensures FetchSearch(simple).Fail? ==> |s.contacted| >= 2 && s.contacted[1] == c.baseUrl + "/search/"
    ensures FetchSearch(simple).Fail? && FetchSearch(plain).Found? ==>
      s.results == FetchSearch(plain).files && |s.contacted| == 2
    ensures FetchSearch(simple).Fail? && FetchSearch(plain).Fail? ==>
      var listing := ListingSearch(c, query, root, folder);
      s.results == listing.results && s.contacted[2..] == listing.contacted
  {
    var simpleUrl := c.baseUrl + "/search/simple/";
    var plainUrl := c.baseUrl + "/search/";
    match FetchSearch(simple)
    case Found(files) => Search(files, [simpleUrl])
    case Fail =>
      match FetchSearch(plain)
      case Found(files) => Search(files, [simpleUrl, plainUrl])
      case Fail =>
        var listing := ListingSearch(c, query, root, folder);
        assert ([simpleUrl, plainUrl] + listing.contacted)[2..] == listing.contacted;
        Search(listing.results, [simpleUrl, plainUrl] + listing.contacted)
  }

  /** Once the first strategy returns an array, later replies cannot change the search, and an empty array stays empty. */
  lemma FirstStrategyDecides(c: Client, query: string, simple: SearchReply, plain: SearchReply, root: ListingReply,
                             folder: ListingReply, plain': SearchReply, root': ListingReply, folder': ListingReply)
    requires simple.SearchAnswered? && IsOk(simple.status) && simple.body.Hits?
    ensures SearchFiles(c, query, simple, plain, root, folder) == SearchFiles(c, query, simple, plain', root', folder')
    ensures simple.body.filenames == [] ==> SearchFiles(c, query, simple, plain, root, folder).results == []
  {
  }

  // ---------------------------------------------------------------------------
  // Path resolution
  // ---------------------------------------------------------------------------

  /**
   The candidates `resolvePath` probes, in order: the input; the input with
   `.md` unless it already ends in `.md` (any case); and with a default folder,
   the folder (one trailing `/` dropped) joined to the name (one leading `/`
   dropped), then that path with `.md` under the same test.
   */
  function Candidates(input: string, folder: Option<string>): (cs: seq<string>)
    ensures 1 <= |cs| <= 4 && cs[0] == input
    ensures !EndsWithIgnoringCase(input, ".md") ==> |cs| >= 2 && cs[1] == input + ".md"
    ensures folder.None? ==> |cs| == (if EndsWithIgnoringCase(input, ".md") then 1 else 2)
    ensures folder.None? ==> forall i :: 0 <= i < |cs| ==> cs[i] == input || cs[i] == input + ".md"
    ensures folder.Some? ==>
      var joined := DropSuffix(folder.value, "/") + "/" + DropPrefix(input, "/");
      var own := if EndsWithIgnoringCase(input, ".md") then 1 else 2;
      && |cs| == own + (if EndsWithIgnoringCase(joined, ".md") then 1 else 2)
      && cs[own] == joined
      && cs[|cs| - 1] == (if EndsWithIgnoringCase(joined, ".md") then joined else joined + ".md")
  {
    var own := OwnCandidates(input);
    match folder
    case None => own
    case Some(f) =>
      var inFolder := FolderCandidates(DropSuffix(f, "/"), DropPrefix(input, "/"));
      var cs := own + inFolder;
      assert cs[|own|] == inFolder[0];
      assert cs[|cs| - 1] == inFolder[|inFolder| - 1];
      cs
  }

  /** The input, then the input with `.md` unless it ends in `.md` already. */
  function OwnCandidates(input: string): (cs: seq<string>)
    ensures 1 <= |cs| <= 2 && cs[0] == input
    ensures |cs| == 2 <==> !EndsWithIgnoringCase(input, ".md")
    ensures |cs| == 2 ==> cs[1] == input + ".md"
    ensures forall i :: 0 <= i < |cs| ==> |cs[i]| >= |input|
  {
    [input] + (if EndsWithIgnoringCase(input, ".md") then [] else [input + ".md"])
  }

  /** The name under the folder, then with `.md` unless the NAME ends in `.md`. */
  function FolderCandidates(dir: string, name: string): (cs: seq<string>)
    ensures 1 <= |cs| <= 2 && cs[0] == dir + "/" + name
    ensures |cs| == (if EndsWithIgnoringCase(dir + "/" + name, ".md") then 1 else 2)
    ensures cs[|cs| - 1] == (if EndsWithIgnoringCase(dir + "/" + name, ".md") then dir + "/" + name else dir + "/" + name + ".md")
    ensures forall i :: 0 <= i < |cs| ==> |cs[i]| > |dir|
  {
    JoinedIsMarkdown(dir, name);
    [dir + "/" + name] + (if EndsWithIgnoringCase(name, ".md") then [] else [dir + "/" + name + ".md"])
  }

  /** Testing the name or the joined path for `.md` is the same test, since the name follows a `/`. */
  lemma JoinedIsMarkdown(dir: string, name: string)
    ensures EndsWithIgnoringCase(dir + "/" + name, ".md") <==> EndsWithIgnoringCase(name, ".md")
  {
    var joined := dir + "/" + name;
    if |name| >= 3 {
      SuffixOfJoin(dir + "/", name, ".md");
    } else {
      var k := |joined| - 1 - |name|;
      assert ToLower(joined)[k] == LowerChar(joined[k]) == '/';
      if |joined| >= 3 {
        assert ToLower(joined)[|joined| - 3..][k - (|joined| - 3)] == '/';
      }
    }
  }

  /** A suffix no longer than the right operand decides `endsWith` on a concatenation. */
  lemma SuffixOfJoin(a: string, b: string, suffix: string)
    requires |suffix| <= |b|
    ensures EndsWithIgnoringCase(a + b, suffix) <==> EndsWithIgnoringCase(b, suffix)
  {
    var ab := ToLower(a + b);
    assert ab[|ab| - |suffix|..] == ToLower(b)[|b| - |suffix|..];
  }

  /** The query `resolvePath` searches for: the input with one trailing `.md` (any case) removed. */
  function SearchQuery(input: string): (q: string)
    ensures EndsWithIgnoringCase(input, ".md") ==> |q| + 3 == |input| && q == input[..|q|]
    ensures !EndsWithIgnoringCase(input, ".md") ==> q == input
  {
    if EndsWithIgnoringCase(input, ".md") then input[..|input| - 3] else input
  }

  /** `p.endsWith('/' + query + '.md') || p === query + '.md'` */
  predicate IsExactHit(p: string, query: string) {
    EndsWith(p, "/" + query + ".md") || p == query + ".md"
  }

  /**
   An exact hit is the note named `query` at the vault root or in any folder;
   a file whose base name merely ends with the query is not one.
   */
  lemma ExactHitInAnyFolder(dir: string, query: string)
    ensures IsExactHit(query + ".md", query)
    ensures IsExactHit(dir + "/" + query + ".md", query)
    ensures !IsExactHit("notes/MyPlan.md", "Plan")
  {
    ConcatAssoc(dir, "/" + query, ".md");
    assert dir + "/" + query + ".md" == dir + ("/" + query + ".md");
    ConcatEnds(dir, "/" + query + ".md");
    var p := "notes/MyPlan.md";
    assert "/" + "Plan" + ".md" == "/Plan.md";
    assert p[|p| - |"/Plan.md"|..][0] == 'y';
    assert |p| != |"Plan" + ".md"|;
  }

  /** The search half of `resolvePath`: the first exact hit, else the first hit, else the input. */
  function PickHit(input: string, query: string, hits: seq<string>): (r: string)
    ensures |hits| == 0 ==> r == input
    ensures |hits| > 0 ==> r in hits
    ensures (exists j :: 0 <= j < |hits| && IsExactHit(hits[j], query)) ==>
      && IsExactHit(r, query)
      && (exists j :: 0 <= j < |hits| && r == hits[j] && forall k :: 0 <= k < j ==> !IsExactHit(hits[k], query))
    ensures |hits| > 0 && (forall j :: 0 <= j < |hits| ==> !IsExactHit(hits[j], query)) ==> r == hits[0]
  {
    if |hits| == 0 then input
    else
      match FirstIndex(hits, p => IsExactHit(p, query))
      case Some(j) => hits[j]
      case None => hits[0]
  }

  /** The loop over the candidates: the position of the first one that exists. */
  function FirstExisting(c: Client, head: HeadStatuses, cs: seq<string>): (k: Option<nat>)
    ensures k.Some? ==> k.value < |cs| && Exists(c, head, cs[k.value])
    ensures k.Some? ==> forall j :: 0 <= j < k.value ==> !Exists(c, head, cs[j])
    ensures k.None? <==> forall j :: 0 <= j < |cs| ==> !Exists(c, head, cs[j])
  {
    FirstIndex(cs, p => Exists(c, head, p))
  }

  /** The first existing candidate, stated as the witness `ResolvePath` promises. */
  lemma FirstExistingWitness(c: Client, head: HeadStatuses, cs: seq<string>)
    ensures FirstExisting(c, head, cs).Some? ==>
      var i := FirstExisting(c, head, cs).value;
      exists k :: 0 <= k < |cs| && cs[i] == cs[k] && Exists(c, head, cs[k])
        && forall j :: 0 <= j < k ==> !Exists(c, head, cs[j])
  {
    if FirstExisting(c, head, cs).Some? {
      var i := FirstExisting(c, head, cs).value;
      assert 0 <= i < |cs| && cs[i] == cs[i] && Exists(c, head, cs[i]);
    }
  }

  /**
   `resolvePath(input)`: the first candidate that exists; failing that, the
   search for the input without its `.md`, picked by `PickHit`.
   */
  function ResolvePath(c: Client, input: string, head: HeadStatuses, simple: SearchReply, plain: SearchReply,
                       root: ListingReply, folder: ListingReply): (r: string)
    ensures var cs := Candidates(input, FolderSetting(c.settings));
      (exists i :: 0 <= i < |cs| && Exists(c, head, cs[i])) ==>
        exists i :: 0 <= i < |cs| && r == cs[i] && Exists(c, head, cs[i])
          && forall j :: 0 <= j < i ==> !Exists(c, head, cs[j])
    ensures var cs := Candidates(input, FolderSetting(c.settings));
      (forall i :: 0 <= i < |cs| ==> !Exists(c, head, cs[i])) ==>
        r == PickHit(input, SearchQuery(input), SearchFiles(c, SearchQuery(input), simple, plain, root, folder).results)
  {
    var cs := Candidates(input, FolderSetting(c.settings));
    match FirstExisting(c, head, cs)
    case Some(i) =>
      FirstExistingWitness(c, head, cs);
      cs[i]
    case None =>
      var query := SearchQuery(input);
      PickHit(input, query, SearchFiles(c, query, simple, plain, root, folder).results)
  }

  /** The resolved path is always a candidate, a search hit or the input itself. */
  lemma ResolvedIsKnown(c: Client, input: string, head: HeadStatuses, simple: SearchReply, plain: SearchReply,
                        root: ListingReply, folder: ListingReply)
    ensures var r := ResolvePath(c, input, head, simple, plain, root, folder);
      r == input || r in Candidates(input, FolderSetting(c.settings))
        || r in SearchFiles(c, SearchQuery(input), simple, plain, root, folder).results
  {
    var cs := Candidates(input, FolderSetting(c.settings));
    var r := ResolvePath(c, input, head, simple, plain, root, folder);
    match FirstExisting(c, head, cs)
    case Some(i) =>
      assert r == cs[i];
    case None =>
      var q := SearchQuery(input);
      var hits := SearchFiles(c, q, simple, plain, root, folder).results;
      assert r == PickHit(input, q, hits);
  }

  /** When the input itself exists it wins, even if `input.md` exists too. */
  lemma ResolveInputFirst(c: Client, input: string, head: HeadStatuses, simple: SearchReply, plain: SearchReply,
                          root: ListingReply, folder: ListingReply)
    requires Exists(c, head, input)
    ensures ResolvePath(c, input, head, simple, plain, root, folder) == input
  {
  }

  /**
   When no candidate exists and `/search/simple/` returns hits, the resolution
   is settled by those hits alone, and an exact base-name hit is preferred.
   */
  lemma ResolveBySimpleSearch(c: Client, input: string, head: HeadStatuses, hits: seq<string>,
                              plain: SearchReply, root: ListingReply, folder: ListingReply, j: nat)
    requires forall p :: p in Candidates(input, FolderSetting(c.settings)) ==> !Exists(c, head, p)
    requires j < |hits| && IsExactHit(hits[j], SearchQuery(input))
    ensures IsExactHit(ResolvePath(c, input, head, SearchAnswered(200, Hits(hits)), plain, root, folder), SearchQuery(input))
  {
  }
}

=== FILE: popup.dfy ===
/**
 The path logic of the popup (`src/popup/popup.js`): which message each button
 sends, which note a focus session is started on, and how the settings change
 when a session starts or stops. The background's responses are parameters;
 `None` stands for a `sendMessage` that threw.
 */
module Popup {
  import opened Results
  import opened Text
  import opened Storage
  import ServiceWorker

  // ---------------------------------------------------------------------------
  // Focus sessions
  // ---------------------------------------------------------------------------

  /** `startSession(p)`: focus mode on, target `p`. */
  function StartSession(store: Settings, target: string): (r: Settings)
    ensures r.Keys == store.Keys + {FocusMode, TargetNote}
    ensures r[FocusMode] == Bool(true) && r[TargetNote] == Str(target)
    ensures forall k :: k in store && k != FocusMode && k != TargetNote ==> r[k] == store[k]
  {
    SaveSettings(store, map[FocusMode := Bool(true), TargetNote := Str(target)])
  }

  /** `handleStopSession()`: focus mode off, target `null`. */
  function StopSession(store: Settings): (r: Settings)
    ensures r.Keys == store.Keys + {FocusMode, TargetNote}
    ensures r[FocusMode] == Bool(false) && r[TargetNote] == Null
    ensures forall k :: k in store && k != FocusMode && k != TargetNote ==> r[k] == store[k]
  {
    SaveSettings(store, map[FocusMode := Bool(false), TargetNote := Null])
  }

  /** After a session starts on a note, valid visits are archived to that note and the badge is on. */
  lemma StartRoutesToTarget(store: Settings, target: string)
    requires target != ""
    ensures ServiceWorker.ArchiveTarget(GetSettings(StartSession(store, target))) == Some(target)
    ensures ServiceWorker.Badge(StartSession(store, target)) == "ON"
  {
    var updates := map[FocusMode := Bool(true), TargetNote := Str(target)];
    ReadAfterSave(store, updates, FocusMode);
    ReadAfterSave(store, updates, TargetNote);
  }

  /** After a session stops, valid visits go to the daily note and the badge is off. */
  lemma StopRoutesToDaily(store: Settings)
    ensures ServiceWorker.ArchiveTarget(GetSettings(StopSession(store))) == None
    ensures ServiceWorker.Badge(StopSession(store)) == ""
  {
    var updates := map[FocusMode := Bool(false), TargetNote := Null];
    ReadAfterSave(store, updates, FocusMode);
    ReadAfterSave(store, updates, TargetNote);
  }

  /** Starting or stopping a session leaves every other setting as it was. */
  lemma SessionKeepsOtherSettings(store: Settings, target: string, k: string)
    requires k != FocusMode && k != TargetNote
    ensures k in GetSettings(StartSession(store, target)) <==> k in GetSettings(store)
    ensures k in GetSettings(store) ==> GetSettings(StartSession(store, target))[k] == GetSettings(store)[k]
    ensures k in GetSettings(StopSession(store)) <==> k in GetSettings(store)
    ensures k in GetSettings(store) ==> GetSettings(StopSession(store))[k] == GetSettings(store)[k]
  {
    ReadAfterSave(store, map[FocusMode := Bool(true), TargetNote := Str(target)], k);
    ReadAfterSave(store, map[FocusMode := Bool(false), TargetNote := Null], k);
  }

  // ---------------------------------------------------------------------------
  // Choosing the target note
  // ---------------------------------------------------------------------------

  /** `p.endsWith('.md') ? p : p + '.md'`: case-sensitive, unlike the background's test. */
  function WithMd(p: string): (r: string)
    ensures EndsWith(r, ".md")
    ensures EndsWith(p, ".md") ==> r == p
    ensures !EndsWith(p, ".md") ==> r == p + ".md"
  {
    if EndsWith(p, ".md") then p else
      var r := p + ".md";
      assert r[|r| - 3..] == ".md";
      r
  }

  /** `handleSetExisting`: the trimmed path to resolve, if it is not empty. */
  function SetExistingRequest(input: string): (path: Option<string>)
    ensures path.Some? <==> Trim(input) != ""
    ensures path.Some? ==> path.value == Trim(input)
  {
    if Trim(input) == "" then None else Some(Trim(input))
  }

  /**
   The note a session is started on after `RESOLVE_PATH`: the resolved path
   when the response carries a non-empty one, otherwise (also when the message
   threw) the input with `.md` added unless it already ends in `.md`.
   */
  function SetExistingTarget(path: string, response: Option<ServiceWorker.Response>): (target: string)
    ensures (response.Some? && response.value.Success? && response.value.data.Resolved? && response.value.data.resolvedPath != "")
      ==> target == response.value.data.resolvedPath
    ensures !(response.Some? && response.value.Success? && response.value.data.Resolved? && response.value.data.resolvedPath != "")
      ==> target == WithMd(path)
  {
    if response.Some? && response.value.Success? && response.value.data.Resolved? && response.value.data.resolvedPath != ""
    then response.value.data.resolvedPath
    else WithMd(path)
  }

  /** A name the background cannot resolve differently still gets a Markdown target: `Project` becomes `Project.md`, `a.MD` becomes `a.MD.md`. */
  lemma UnresolvedTargets()
    ensures SetExistingTarget("Project", None) == "Project.md"
    ensures SetExistingTarget("a.MD", Some(ServiceWorker.Failure(None))) == "a.MD.md"
    ensures SetExistingTarget("a.md", Some(ServiceWorker.Success(ServiceWorker.Resolved("")))) == "a.md"
  {
    assert !EndsWith("a.MD", ".md") by {
      assert "a.MD"[1..] != ".md";
    }
    assert EndsWith("a.md", ".md") by {
      assert "a.md"[1..] == ".md";
    }
  }

  /** `CREATE_NOTE`'s path and content. */
  datatype NewNote = NewNote(path: string, content: string)

  /**
   `handleCreateNew`: the default folder (when set) joined to the trimmed name,
   `.md` added unless present (case-sensitively), then one leading `/` removed.
   */
  function CreateNewRequest(store: Settings, input: string): (n: Option<NewNote>)
    ensures n.Some? <==> Trim(input) != ""
    ensures n.Some? ==> EndsWith(n.value.path, ".md")
    ensures n.Some? ==> n.value.content == "# " + Trim(input) + "\n\nCreated via Smart History Focus Mode\n"
    ensures n.Some? && !TruthyAt(GetSettings(store), DefaultFolder) ==>
      n.value.path == DropPrefix(WithMd(Trim(input)), "/")
    ensures n.Some? && TruthyAt(GetSettings(store), DefaultFolder) ==>
      n.value.path == DropPrefix(WithMd(AsText(GetSettings(store)[DefaultFolder]) + "/" + Trim(input)), "/")
  {
    var filename := Trim(input);
    if filename == "" then None
    else
      var folder := AsText(OrElse(GetSettings(store), DefaultFolder, Str("")));
      var joined := if folder != "" then folder + "/" + filename else filename;
      assert TruthyAt(GetSettings(store), DefaultFolder) ==> folder != "" by {
        if TruthyAt(GetSettings(store), DefaultFolder) {
          TruthyText(GetSettings(store)[DefaultFolder]);
        }
      }
      var path := DropPrefix(WithMd(joined), "/");
      StripKeepsMd(WithMd(joined));
      Some(NewNote(path, "# " + filename + "\n\nCreated via Smart History Focus Mode\n"))
  }

  /** Removing one leading `/` keeps a `.md` ending. */
  lemma StripKeepsMd(p: string)
    requires EndsWith(p, ".md")
    ensures EndsWith(DropPrefix(p, "/"), ".md")
  {
    if StartsWith(p, "/") {
      var r := p[1..];
      assert p[..1][0] == '/' && p[|p| - 3..][0] == '.';
      assert |p| != 3;
      assert r[|r| - 3..] == p[|p| - 3..];
    }
  }

  /** The session starts on the new note only when the background reports success. */
  function CreateNewTarget(note: NewNote, response: Option<ServiceWorker.Response>): (target: Option<string>)
    ensures target.Some? <==> response.Some? && response.value.Success?
    ensures target.Some? ==> target.value == note.path
  {
    if response.Some? && response.value.Success? then Some(note.path) else None
  }

  /** A folder and a name make a note in that folder; one leading `/` of the folder is dropped. */
  lemma CreateInFolder(store: Settings, folder: string, name: string)
    requires DefaultFolder in store && store[DefaultFolder] == Str(folder)
    requires folder != "" && Trim(name) == name && name != ""
    requires !EndsWith(name, ".md")
    ensures CreateNewRequest(store, name).value.path == DropPrefix(folder + "/" + name + ".md", "/")
  {
    var joined := folder + "/" + name;
    JoinedNameKeepsEnding(folder, name);
    assert WithMd(joined) == folder + "/" + name + ".md";
    var m := GetSettings(store);
    assert m[DefaultFolder] == Str(folder);
    assert TruthyAt(m, DefaultFolder);
  }

  /** A folder joined to a name that does not end in `.md` does not end in `.md` either. */
  lemma JoinedNameKeepsEnding(folder: string, name: string)
    requires name != "" && !EndsWith(name, ".md")
    ensures !EndsWith(folder + "/" + name, ".md")
  {
    var joined := folder + "/" + name;
    if |name| >= 3 {
      assert joined[|joined| - 3..] == name[|name| - 3..];
    } else {
      var k := |joined| - 1 - |name|;
      assert joined[k] == '/';
      if |joined| >= 3 {
        assert joined[|joined| - 3..][k - (|joined| - 3)] == '/';
      }
    }
  }

  /** `handleUseActiveNote`: the session starts on the active note when the response carries a non-empty path. */
  function UseActiveTarget(response: Option<ServiceWorker.Response>): (target: Option<string>)
    ensures target.Some? <==>
      response.Some? && response.value.Success? && response.value.data.NotePath? && response.value.data.path != ""
    ensures target.Some? ==> target.value == response.value.data.path
  {
    if response.Some? && response.value.Success? && response.value.data.NotePath? && response.value.data.path != ""
    then Some(response.value.data.path)
    else None
  }

  // ---------------------------------------------------------------------------
  // Memo and search
  // ---------------------------------------------------------------------------

  /** `handleSendMemo`: the trimmed memo for the current target note, with no page of its own. */
  function SendMemoRequest(store: Settings, input: string): (m: Option<ServiceWorker.MemoMessage>)
    ensures m.Some? <==> Trim(input) != ""
    ensures m.Some? ==> m.value.memo == Trim(input) && m.value.title.None? && m.value.url.None?
    ensures m.Some? && TargetNote in GetSettings(store) && GetSettings(store)[TargetNote].Str? ==>
      m.value.path == Some(GetSettings(store)[TargetNote].s)
    ensures m.Some? && !(TargetNote in GetSettings(store) && GetSettings(store)[TargetNote].Str?) ==> m.value.path.None?
  {
    var memo := Trim(input);
    if memo == "" then None
    else
      var settings := GetSettings(store);
      var path := if TargetNote in settings && settings[TargetNote].Str? then Some(settings[TargetNote].s) else None;
      Some(ServiceWorker.MemoMessage(path, memo, None, None))
  }

  /** A popup memo goes to the session's note and is about the active tab. */
  lemma PopupMemoTargetsSession(store: Settings, target: string, input: string, tab: ServiceWorker.ActiveTab)
    requires Trim(input) != "" && target != ""
    ensures var m := SendMemoRequest(StartSession(store, target), input).value;
      m.path == Some(target) && ServiceWorker.MemoPage(m, Some(tab)) == ServiceWorker.Page(tab.title, tab.url)
    ensures SendMemoRequest(StopSession(store), input).value.path.None?
  {
  }

  /** What the results box shows. */
  datatype SearchView = Hidden | Searching | NoResults | ErrorShown(message: string) | Listed(files: seq<string>)

  /** `handleSearchInput`: the trimmed query to send, if it is not empty. */
  function SearchRequest(input: string): (q: Option<string>)
    ensures q.Some? <==> Trim(input) != ""
    ensures q.Some? ==> q.value == Trim(input) && !IsSpace(q.value[0]) && !IsSpace(q.value[|q.value| - 1])
  {
    if Trim(input) == "" then None else Some(Trim(input))
  }

  /** The results box after the search response: the first ten results in order, "No results found.", or the error. */
  function SearchShown(response: Option<ServiceWorker.Response>): (v: SearchView)
    ensures v.Listed? ==> 1 <= |v.files| <= 10
    ensures v.Listed? <==>
      response.Some? && response.value.Success? && response.value.data.SearchResults? && |response.value.data.results| > 0
    ensures v.Listed? ==> var results := response.value.data.results;
      |v.files| == (if |results| < 10 then |results| else 10)
      && forall i :: 0 <= i < |v.files| ==> v.files[i] == results[i]
    ensures response.Some? && response.value.Failure? ==> v.ErrorShown?
    ensures response.None? ==> v.ErrorShown?
  {
    match response
    case None => ErrorShown("Msg Error")
    case Some(reply) =>
      if reply.Failure? then
        ErrorShown("Error: " + (if reply.error.Some? && reply.error.value != "" then reply.error.value else "Unknown"))
      else
      var data := reply.data;
      if data.SearchResults? && |data.results| > 0 then
        Listed(if |data.results| <= 10 then data.results else data.results[..10])
      else NoResults
  }

  /** Every result shown is a result received, at the same position. */
  lemma ShownResultsArePrefix(results: seq<string>)
    requires |results| > 0
    ensures var v := SearchShown(Some(ServiceWorker.Success(ServiceWorker.SearchResults(results))));
      v.Listed? && forall i :: 0 <= i < |v.files| ==> i < 10 && v.files[i] == results[i]
  {
  }
}

=== FILE: results.dfy ===
/** Optional values and fallible results shared by every module of the model. */
module Results {

  /** A value that may be absent: JavaScript's `undefined`/`null` where the source tests for it. */
  datatype Option<+T> = None | Some(value: T)

  /** The outcome of an operation that can throw: `Err` carries the exception's message. */
  datatype Result<+T, +E> = Ok(value: T) | Err(error: E)
}

=== FILE: service_worker.dfy ===
/**
 The background message handlers (`src/background/service-worker.js`). Each
 handler is a function from the stored settings, the extension's local storage
 (`lastMemoUrl`, `savedUrls`), the message and the replies of the services it
 calls, to the new local storage, the requests made and the response sent.
 URL parsing (`new URL`) is a parameter.
 */
module ServiceWorker {
  import opened Results
  import opened Text
  import opened Storage
  import opened ObsidianClient
  import TabCache
  import Gemini

  // ---------------------------------------------------------------------------
  // Context URL
  // ---------------------------------------------------------------------------

  /** The parts of a parsed URL the handlers read. */
  datatype Url = Url(origin: string, pathname: string, search: string, hash: string)

  /** `new URL(s)`: `None` where it throws. */
  type UrlParser = string -> Option<Url>

  /** Origin and path of a parsed URL, without one trailing `/`; query and fragment are dropped. */
  function OriginPath(u: Url): (r: string)
    ensures StartsWith(r, u.origin)
    ensures EndsWith(u.pathname, "/") ==> r + "/" == u.origin + u.pathname
    ensures !EndsWith(u.pathname, "/") ==> r == u.origin + u.pathname
  {
    var path := DropSuffix(u.pathname, "/");
    assert (u.origin + path)[..|u.origin|] == u.origin;
    assert EndsWith(u.pathname, "/") ==> path + "/" == u.pathname;
    u.origin + path
  }

  /** `getContextUrl(url)`: a URL that does not parse is its own context. */
  function ContextUrl(parse: UrlParser, raw: string): (r: string)
    ensures parse(raw).None? ==> r == raw
    ensures parse(raw).Some? ==> r == OriginPath(parse(raw).value)
  {
    if parse(raw).None? then raw else OriginPath(parse(raw).value)
  }

  /**
   Two URLs with the same origin and the same path, up to one trailing `/`,
   are one context whatever their query strings and fragments.
   */
  lemma SameContext(parse: UrlParser, a: string, b: string)
    requires parse(a).Some? && parse(b).Some?
    requires parse(a).value.origin == parse(b).value.origin
    requires parse(a).value.pathname == parse(b).value.pathname
      || (parse(a).value.pathname == parse(b).value.pathname + "/" && !EndsWith(parse(b).value.pathname, "/"))
    ensures ContextUrl(parse, a) == ContextUrl(parse, b)
  {
    var p := parse(b).value.pathname;
    if parse(a).value.pathname != p {
      assert (p + "/")[..|p + "/"| - 1] == p;
    }
  }

  // ---------------------------------------------------------------------------
  // Storage, responses, notifications
  // ---------------------------------------------------------------------------

  /** `chrome.storage.local`: the last memo context and the URLs already archived (`[]` when absent). */
  datatype Local = Local(lastMemoUrl: Option<string>, savedUrls: seq<string>)

  datatype Data = NoData | NotePath(path: string) | SearchResults(results: seq<string>) | Resolved(resolvedPath: string)

  /** `{ success: true, ... }` or `{ success: false, error }` (`error` absent when `None`). */
  datatype Response = Success(data: Data) | Failure(error: Option<string>)

  datatype Notification = Notification(title: string, message: string)

  /** `(v ?? undefined)` inside a template literal. */
  function OptText(s: Option<string>): string {
    match s
    case None => "undefined"
    case Some(t) => t
  }

  predicate Falsy(s: Option<string>) {
    s.None? || s.value == ""
  }

  // ---------------------------------------------------------------------------
  // SEND_MEMO
  // ---------------------------------------------------------------------------

  datatype MemoMessage = MemoMessage(path: Option<string>, memo: string, title: Option<string>, url: Option<string>)

  /** The active tab of the current window, if there is one. */
  datatype ActiveTab = ActiveTab(title: Option<string>, url: Option<string>)

  /** The page a memo is about. */
  datatype Page = Page(title: Option<string>, url: Option<string>)

  /** The message's title and URL, both replaced by the active tab's when either is falsy and a tab is active. */
  function MemoPage(msg: MemoMessage, active: Option<ActiveTab>): (p: Page)
    ensures !Falsy(msg.title) && !Falsy(msg.url) ==> p == Page(msg.title, msg.url)
    ensures (Falsy(msg.title) || Falsy(msg.url)) && active.Some? ==> p == Page(active.value.title, active.value.url)
    ensures active.None? ==> p == Page(msg.title, msg.url)
  {
    if (Falsy(msg.title) || Falsy(msg.url)) && active.Some? then Page(active.value.title, active.value.url)
    else Page(msg.title, msg.url)
  }

  /** The storage afterwards, whether the memo was a new context, the append made (if any) and the response. */
  datatype Memo = Memo(local: Local, isNewContext: bool, write: Option<Write>, response: Response)

  const NoUrlContext := "No URL context found"

  /**
   `SEND_MEMO`: the memo goes under a new `## [title](url)` header exactly when
   its context differs from the stored one, which it then replaces, before the
   append runs. The append's own result is not looked at.
   */
  function SendMemo(store: Settings, local: Local, msg: MemoMessage, active: Option<ActiveTab>,
                    parse: UrlParser, timestamp: string, reply: Reply): (m: Memo)
    ensures Falsy(MemoPage(msg, active).url) ==> m == Memo(local, false, None, Failure(Some(NoUrlContext)))
    ensures !Falsy(MemoPage(msg, active).url) ==>
      var ctx := ContextUrl(parse, MemoPage(msg, active).url.value);
      && m.local == local.(lastMemoUrl := Some(ctx))
      && (m.isNewContext <==> local.lastMemoUrl != Some(ctx))
    ensures m.response.Success? <==> !Falsy(MemoPage(msg, active).url) && Init(store).Ok?
    ensures m.response.Success? ==> m.response.data == NoData
    ensures m.write.Some? <==> m.response.Success?
    ensures m.write.Some? ==>
      m.write.value == AppendMemo(Init(store).value, msg.path, msg.memo, OptText(MemoPage(msg, active).title),
                                  MemoPage(msg, active).url.value, m.isNewContext, timestamp, reply)
    ensures m.local.savedUrls == local.savedUrls
    ensures !Falsy(MemoPage(msg, active).url) && Init(store).Err? ==> m.response == Failure(Some(ApiKeyMissing))
  {
    var page := MemoPage(msg, active);
    if Falsy(page.url) then Memo(local, false, None, Failure(Some(NoUrlContext)))
    else
      var ctx := ContextUrl(parse, page.url.value);
      var isNew := local.lastMemoUrl != Some(ctx);
      var local' := local.(lastMemoUrl := Some(ctx));
      match Init(store)
      case Err(e) => Memo(local', isNew, None, Failure(Some(e)))
      case Ok(c) =>
        Memo(local', isNew, Some(AppendMemo(c, msg.path, msg.memo, OptText(page.title), page.url.value, isNew, timestamp, reply)),
             Success(NoData))
  }

  /** The memo's text carries a header exactly when the memo starts a new context. */
  lemma MemoHeaderIffNewContext(store: Settings, local: Local, msg: MemoMessage, active: Option<ActiveTab>,
                                parse: UrlParser, timestamp: string, reply: Reply)
    requires msg.path.Some?
    ensures var m := SendMemo(store, local, msg, active, parse, timestamp, reply);
      m.write.Some? ==> (m.isNewContext <==> StartsWith(m.write.value.request.value.body, "\n## ["))
  {
  }

  /**
   The first memo is a new context; a second memo on the same page, or on the
   same page with another fragment or query, is not; a memo on another page is.
   */
  lemma MemoContexts(store: Settings, local: Local, msg: MemoMessage, msg': MemoMessage, active: Option<ActiveTab>,
                     parse: UrlParser, timestamp: string, reply: Reply)
    requires !Falsy(MemoPage(msg, active).url) && !Falsy(MemoPage(msg', active).url)
    ensures local.lastMemoUrl.None? ==> SendMemo(store, local, msg, active, parse, timestamp, reply).isNewContext
    ensures var first := SendMemo(store, local, msg, active, parse, timestamp, reply);
      var second := SendMemo(store, first.local, msg', active, parse, timestamp, reply);
      (second.isNewContext <==>
        ContextUrl(parse, MemoPage(msg', active).url.value) != ContextUrl(parse, MemoPage(msg, active).url.value))
  {
  }

  // ---------------------------------------------------------------------------
  // VALID_VISIT
  // ---------------------------------------------------------------------------

  const NoGeminiKey := "No Gemini API Key configured."
  const NoSummary := "Summary not available."
  /** What the engine says when the summary is `undefined` and `summary.replace` is called. */
  const SummaryUndefined := "Cannot read properties of undefined (reading 'replace')"

  /** `settings[GEMINI_MODEL] || 'gemini-2.5-flash'` */
  function ModelOf(settings: Settings): (model: string)
    ensures !TruthyAt(settings, GeminiModel) ==> model == "gemini-2.5-flash"
    ensures TruthyAt(settings, GeminiModel) ==> model == AsText(settings[GeminiModel])
    ensures model != ""
  {
    TruthyAtText(settings, GeminiModel);
    AsText(OrElse(settings, GeminiModel, Str("gemini-2.5-flash")))
  }

  /** `settings[SUMMARY_LENGTH] || 'short'` */
  function LengthOf(settings: Settings): (length: string)
    ensures !TruthyAt(settings, SummaryLength) ==> length == "short"
    ensures TruthyAt(settings, SummaryLength) ==> length == AsText(settings[SummaryLength])
    ensures length != ""
  {
    TruthyAtText(settings, SummaryLength);
    AsText(OrElse(settings, SummaryLength, Str("short")))
  }

  /**
   The summary of a valid visit: generated when there is a key and content;
   a fixed text when the key is missing, another when the content is empty.
   */
  function ChooseSummary(settings: Settings, content: Option<string>, reply: Gemini.Reply): (g: Gemini.Generation)
    ensures g.request.Some? <==> TruthyAt(settings, GeminiApiKey) && !Falsy(content)
    ensures !TruthyAt(settings, GeminiApiKey) ==> g.text == Some(NoGeminiKey)
    ensures TruthyAt(settings, GeminiApiKey) && Falsy(content) ==> g.text == Some(NoSummary)
    ensures g.request.Some? ==>
      && g.text == Gemini.SummaryOf(reply)
      && g.request.value.prompt == Gemini.Prompt(content.value, LengthOf(settings))
      && g.request.value.url
           == Gemini.Endpoint + Gemini.CleanModelName(ModelOf(settings)) + ":generateContent?key=" + AsText(settings[GeminiApiKey])
  {
    if TruthyAt(settings, GeminiApiKey) && !Falsy(content) then
      var key := AsText(settings[GeminiApiKey]);
      TruthyText(settings[GeminiApiKey]);
      Gemini.GenerateSummary(content.value, key, ModelOf(settings), LengthOf(settings), reply)
    else if !TruthyAt(settings, GeminiApiKey) then Gemini.Generation(None, Some(NoGeminiKey))
    else Gemini.Generation(None, Some(NoSummary))
  }

  const EntrySummaryLabel := "    - AI要約: "

  /** The archived entry: a timestamped link, then the summary, flattened to one line, as a nested bullet. */
  function VisitEntry(timestamp: string, title: string, url: string, summary: string): (entry: string)
    ensures StartsWith(entry, "- " + timestamp + " [" + title + "](" + url + ")\n" + EntrySummaryLabel)
    ensures |entry| == |"- " + timestamp + " [" + title + "](" + url + ")\n" + EntrySummaryLabel| + |summary|
    ensures forall i :: 0 <= i < |summary| && summary[i] != '\n' ==>
      entry[|"- " + timestamp + " [" + title + "](" + url + ")\n" + EntrySummaryLabel| + i] == summary[i]
  {
    var head := "- " + timestamp + " [" + title + "](" + url + ")\n" + EntrySummaryLabel;
    var entry := head + ReplaceChar(summary, '\n', ' ');
    ConcatEnds(head, ReplaceChar(summary, '\n', ' '));
    entry
  }

  /** Whatever the summary says, an entry for a one-line title and URL is exactly two lines: the link and the summary. */
  lemma VisitEntryTwoLines(timestamp: string, title: string, url: string, summary: string)
    requires '\n' !in timestamp && '\n' !in title && '\n' !in url
    ensures Split(VisitEntry(timestamp, title, url, summary), '\n')
      == ["- " + timestamp + " [" + title + "](" + url + ")", EntrySummaryLabel + ReplaceChar(summary, '\n', ' ')]
  {
    var link := "- " + timestamp + " [" + title + "](" + url + ")";
    var rest := EntrySummaryLabel + ReplaceChar(summary, '\n', ' ');
    assert '\n' !in link by {
      forall i | 0 <= i < |link| ensures link[i] != '\n' {
        if i >= 2 + |timestamp| + 2 && i < 2 + |timestamp| + 2 + |title| {
          assert link[i] == title[i - (2 + |timestamp| + 2)];
        } else if i >= 2 && i < 2 + |timestamp| {
          assert link[i] == timestamp[i - 2];
        } else if i >= 2 + |timestamp| + 2 + |title| + 2 && i < |link| - 1 {
          assert link[i] == url[i - (2 + |timestamp| + 2 + |title| + 2)];
        }
      }
    }
    assert '\n' !in rest by {
      forall i | 0 <= i < |rest| ensures rest[i] != '\n' {
        if i >= |EntrySummaryLabel| {
          assert rest[i] == ReplaceChar(summary, '\n', ' ')[i - |EntrySummaryLabel|];
        }
      }
    }
    assert VisitEntry(timestamp, title, url, summary) == link + ['\n'] + rest;
    SplitPiece(link, '\n', rest, true);
    SplitPiece(rest, '\n', "", false);
  }

  /** Where archived entries go: the target note in focus mode with a target set, otherwise (`None`) the daily note. */
  function ArchiveTarget(settings: Settings): (t: Option<string>)
    ensures t.Some? <==> TruthyAt(settings, FocusMode) && TruthyAt(settings, TargetNote)
    ensures t.Some? ==> t.value == AsText(settings[TargetNote])
  {
    if TruthyAt(settings, FocusMode) && TruthyAt(settings, TargetNote) then Some(AsText(settings[TargetNote])) else None
  }

  /** The tab a content script's message came from. */
  datatype Sender = Sender(tabId: int, title: string, url: string)

  /** Everything a valid visit changes or sends. */
  datatype Visit = Visit(cache: TabCache.Cache, local: Local, summaryRequest: Option<Gemini.Request>,
                         write: Option<Write>, notification: Option<Notification>, response: Option<Response>)

  /**
   `VALID_VISIT`: mark the tab valid; unless its URL was archived before, make
   it the memo context, summarise, append the entry to the focus or daily note
   and record the URL. The append's `{success: false}` is not looked at: the
   URL is recorded and success reported all the same.
   */
  function ValidVisit(cache: TabCache.Cache, store: Settings, local: Local, sender: Sender, content: Option<string>,
                      parse: UrlParser, summaryReply: Gemini.Reply, writeReply: Reply, date: Date, timestamp: string): (v: Visit)
    ensures v.cache == TabCache.MarkValid(cache, sender.tabId, Some(sender.title), Some(sender.url), content)
    ensures sender.url in local.savedUrls ==>
      v == Visit(v.cache, local, None, None, None, None)
    ensures sender.url !in local.savedUrls ==>
      && v.local.lastMemoUrl == Some(ContextUrl(parse, sender.url))
      && v.summaryRequest == ChooseSummary(GetSettings(store), content, summaryReply).request
      && v.response.Some?
    ensures v.write.Some? <==>
      sender.url !in local.savedUrls && ChooseSummary(GetSettings(store), content, summaryReply).text.Some? && Init(store).Ok?
    ensures v.write.Some? ==>
      var entry := VisitEntry(timestamp, sender.title, sender.url, ChooseSummary(GetSettings(store), content, summaryReply).text.value);
      && v.write.value == (match ArchiveTarget(GetSettings(store))
                           case Some(t) => AppendToNote(Init(store).value, t, entry, writeReply)
                           case None => AppendToDailyNote(Init(store).value, date, entry, writeReply))
      && v.local.savedUrls == Dedup(local.savedUrls) + [sender.url]
      && v.response == Some(Success(NoData))
      && v.notification == Some(Notification("Saved to Obsidian", "Saved: " + sender.title))
    ensures v.write.None? ==> v.local.savedUrls == local.savedUrls
    ensures sender.url !in local.savedUrls && v.write.None? ==>
      v.response == Some(Failure(Some(
        if ChooseSummary(GetSettings(store), content, summaryReply).text.None? then SummaryUndefined else ApiKeyMissing)))
    ensures v.response.Some? && v.response.value.Failure? ==>
      v.notification == Some(Notification("Obsidian Sync Failed", "Error: " + OptText(v.response.value.error)))
  {
    var cache' := TabCache.MarkValid(cache, sender.tabId, Some(sender.title), Some(sender.url), content);
    if sender.url in local.savedUrls then Visit(cache', local, None, None, None, None)
    else
      var local1 := local.(lastMemoUrl := Some(ContextUrl(parse, sender.url)));
      var settings := GetSettings(store);
      var g := ChooseSummary(settings, content, summaryReply);
      match g.text
      case None => Visit(cache', local1, g.request, None, Some(Notification("Obsidian Sync Failed", "Error: " + SummaryUndefined)),
                         Some(Failure(Some(SummaryUndefined))))
      case Some(summary) =>
        var entry := VisitEntry(timestamp, sender.title, sender.url, summary);
        match Init(store)
        case Err(e) => Visit(cache', local1, g.request, None, Some(Notification("Obsidian Sync Failed", "Error: " + e)),
                             Some(Failure(Some(e))))
        case Ok(c) =>
          var w := match ArchiveTarget(settings)
                   case Some(t) => AppendToNote(c, t, entry, writeReply)
                   case None => AppendToDailyNote(c, date, entry, writeReply);
          Visit(cache', local1.(savedUrls := Dedup(local.savedUrls) + [sender.url]), g.request, Some(w),
                Some(Notification("Saved to Obsidian", "Saved: " + sender.title)), Some(Success(NoData)))
  }

  /** The archive list only grows, stays free of repeats, and gains the page exactly when an append was made. */
  lemma SavedUrlsGrow(cache: TabCache.Cache, store: Settings, local: Local, sender: Sender, content: Option<string>,
                      parse: UrlParser, summaryReply: Gemini.Reply, writeReply: Reply, date: Date, timestamp: string)
    requires Distinct(local.savedUrls)
    ensures var v := ValidVisit(cache, store, local, sender, content, parse, summaryReply, writeReply, date, timestamp);
      && (forall i :: 0 <= i < |local.savedUrls| ==> local.savedUrls[i] in v.local.savedUrls)
      && Distinct(v.local.savedUrls)
      && (sender.url in v.local.savedUrls <==> sender.url in local.savedUrls || v.write.Some?)
  {
    var v := ValidVisit(cache, store, local, sender, content, parse, summaryReply, writeReply, date, timestamp);
    RecordUrl(local.savedUrls, sender.url, v.local.savedUrls, v.write.Some?);
  }

  /** Recording a URL that is not yet in a repeat-free list, through a `Set`, appends it and keeps the list repeat-free. */
  lemma RecordUrl(saved: seq<string>, url: string, saved': seq<string>, recorded: bool)
    requires Distinct(saved)
    requires recorded ==> url !in saved && saved' == Dedup(saved) + [url]
    requires !recorded ==> saved' == saved
    ensures forall i :: 0 <= i < |saved| ==> saved[i] in saved'
    ensures Distinct(saved')
    ensures url in saved' <==> url in saved || recorded
  {
    if recorded {
      DedupOfDistinct(saved);
      assert saved' == saved + [url];
      DistinctSnoc(saved, url);
      assert forall i :: 0 <= i < |saved| ==> saved'[i] == saved[i];
    }
  }

  /** A page is archived at most once: a second valid visit to an archived URL appends nothing and sends nothing. */
  lemma ArchivedOnce(cache: TabCache.Cache, store: Settings, local: Local, sender: Sender, content: Option<string>,
                     parse: UrlParser, summaryReply: Gemini.Reply, writeReply: Reply, date: Date, timestamp: string,
                     tabId': int, title': string, content': Option<string>, summaryReply': Gemini.Reply, writeReply': Reply)
    requires ValidVisit(cache, store, local, sender, content, parse, summaryReply, writeReply, date, timestamp).write.Some?
    ensures var v := ValidVisit(cache, store, local, sender, content, parse, summaryReply, writeReply, date, timestamp);
      var again := ValidVisit(v.cache, store, v.local, Sender(tabId', title', sender.url), content', parse,
                              summaryReply', writeReply', date, timestamp);
      again.write.None? && again.response.None? && again.local == v.local
  {
  }

  /** A failed append is still recorded as archived and still answered with success. */
  lemma FailedAppendCountsAsSaved(cache: TabCache.Cache, store: Settings, local: Local, sender: Sender,
                                  parse: UrlParser, date: Date, timestamp: string, status: int, statusText: string)
    requires sender.url !in local.savedUrls
    requires TruthyAt(GetSettings(store), ObsidianApiKey)
    requires !IsOk(status)
    ensures var v := ValidVisit(cache, store, local, sender, None, parse, Gemini.Threw(""), Answered(status, statusText), date, timestamp);
      && v.write.Some? && v.write.value.result.NotWritten?
      && sender.url in v.local.savedUrls
      && v.response == Some(Success(NoData))
  {
    var settings := GetSettings(store);
    assert ChooseSummary(settings, None, Gemini.Threw("")).text.Some?;
    assert Init(store).Ok?;
  }

  /** After a page is archived, a memo on that page continues its context instead of opening a new one. */
  lemma VisitSetsMemoContext(cache: TabCache.Cache, store: Settings, local: Local, sender: Sender, content: Option<string>,
                             parse: UrlParser, summaryReply: Gemini.Reply, writeReply: Reply, date: Date, timestamp: string,
                             msg: MemoMessage, memoReply: Reply)
    requires sender.url !in local.savedUrls
    requires msg.title.Some? && msg.title.value != "" && msg.url == Some(sender.url) && sender.url != ""
    ensures var v := ValidVisit(cache, store, local, sender, content, parse, summaryReply, writeReply, date, timestamp);
      !SendMemo(store, v.local, msg, None, parse, timestamp, memoReply).isNewContext
  {
  }

  // ---------------------------------------------------------------------------
  // Popup requests
  // ---------------------------------------------------------------------------

  /** A handler's request to the note store (if any) and its response. */
  datatype Handled = Handled(write: Option<Write>, response: Response)

  /** `CREATE_NOTE`: success whenever `init` succeeds; the note's own `{success: false}` is not looked at. */
  function CreateNoteHandler(store: Settings, path: string, content: string, reply: Reply): (h: Handled)
    ensures h.response.Success? <==> Init(store).Ok?
    ensures h.response.Success? ==> h.response.data == NoData && h.write == Some(CreateNote(Init(store).value, path, content, reply))
    ensures h.response.Failure? ==> h.write.None? && h.response.error == Some(ApiKeyMissing)
  {
    match Init(store)
    case Err(e) => Handled(None, Failure(Some(e)))
    case Ok(c) => Handled(Some(CreateNote(c, path, content, reply)), Success(NoData))
  }

  /** A create the note store refused is still reported to the popup as a success. */
  lemma CreateNoteFailureHidden(store: Settings, path: string, content: string, status: int, statusText: string)
    requires Init(store).Ok? && !IsOk(status)
    ensures CreateNoteHandler(store, path, content, Answered(status, statusText)).response == Success(NoData)
    ensures CreateNoteHandler(store, path, content, Answered(status, statusText)).write.value.result
      == NotWritten("Failed to create note: " + statusText)
  {
  }

  /** `GET_ACTIVE_NOTE` */
  function ActiveNoteHandler(store: Settings, landing: Landing): (r: Response)
    ensures r.Success? <==> Init(store).Ok? && GetActiveNote(Init(store).value, landing).Ok?
    ensures r.Success? ==> r.data == NotePath(GetActiveNote(Init(store).value, landing).value)
    ensures r.Failure? ==> r.error.Some?
    ensures Init(store).Err? ==> r == Failure(Some(ApiKeyMissing))
    ensures Init(store).Ok? && GetActiveNote(Init(store).value, landing).Err? ==>
      r == Failure(Some(GetActiveNote(Init(store).value, landing).error))
  {
    match Init(store)
    case Err(e) => Failure(Some(e))
    case Ok(c) =>
      match GetActiveNote(c, landing)
      case Err(e) => Failure(Some(e))
      case Ok(p) => Success(NotePath(p))
  }

  /** `SEARCH_FILES`: the search itself never fails; only `init` can. */
  function SearchHandler(store: Settings, query: string, simple: SearchReply, plain: SearchReply,
                         root: ListingReply, folder: ListingReply): (r: Response)
    ensures r.Success? <==> Init(store).Ok?
    ensures r.Success? ==> r.data == SearchResults(SearchFiles(Init(store).value, query, simple, plain, root, folder).results)
    ensures r.Failure? ==> r.error == Some(ApiKeyMissing)
  {
    match Init(store)
    case Err(e) => Failure(Some(e))
    case Ok(c) => Success(SearchResults(SearchFiles(c, query, simple, plain, root, folder).results))
  }

  /** `RESOLVE_PATH`: an empty resolution is a failure without an error text. */
  function ResolveHandler(store: Settings, path: string, head: HeadStatuses, simple: SearchReply, plain: SearchReply,
                          root: ListingReply, folder: ListingReply): (r: Response)
    ensures r.Success? ==> r.data.Resolved? && r.data.resolvedPath != ""
    ensures r.Success? <==> Init(store).Ok? && ResolvePath(Init(store).value, path, head, simple, plain, root, folder) != ""
    ensures r.Success? ==> r.data.resolvedPath == ResolvePath(Init(store).value, path, head, simple, plain, root, folder)
    ensures Init(store).Ok? && r.Failure? ==> r.error.None?
    ensures Init(store).Err? ==> r == Failure(Some(ApiKeyMissing))
  {
    match Init(store)
    case Err(e) => Failure(Some(e))
    case Ok(c) =>
      var resolved := ResolvePath(c, path, head, simple, plain, root, folder);
      if resolved != "" then Success(Resolved(resolved)) else Failure(None)
  }

  /** A non-empty path whose search turns up only non-empty names always resolves. */
  lemma ResolveNonEmpty(store: Settings, path: string, head: HeadStatuses, simple: SearchReply, plain: SearchReply,
                        root: ListingReply, folder: ListingReply)
    requires Init(store).Ok? && path != ""
    requires var hits := SearchFiles(Init(store).value, SearchQuery(path), simple, plain, root, folder).results;
      forall i :: 0 <= i < |hits| ==> hits[i] != ""
    ensures ResolveHandler(store, path, head, simple, plain, root, folder).Success?
  {
    var c := Init(store).value;
    var cs := Candidates(path, FolderSetting(c.settings));
    var hits := SearchFiles(c, SearchQuery(path), simple, plain, root, folder).results;
    var r := ResolvePath(c, path, head, simple, plain, root, folder);
    if forall i :: 0 <= i < |cs| ==> !Exists(c, head, cs[i]) {
      assert r == PickHit(path, SearchQuery(path), hits);
    } else {
      CandidatesNonEmpty(path, FolderSetting(c.settings));
    }
  }

  /** Every candidate of a non-empty input is non-empty. */
  lemma CandidatesNonEmpty(input: string, folder: Option<string>)
    requires input != ""
    ensures forall i :: 0 <= i < |Candidates(input, folder)| ==> Candidates(input, folder)[i] != ""
  {
    var own := OwnCandidates(input);
    var cs := Candidates(input, folder);
    if folder.Some? {
      var inFolder := FolderCandidates(DropSuffix(folder.value, "/"), DropPrefix(input, "/"));
      assert cs == own + inFolder;
      forall i | 0 <= i < |cs| ensures cs[i] != "" {
        if i < |own| {
          assert cs[i] == own[i];
        } else {
          assert cs[i] == inFolder[i - |own|];
        }
      }
    } else {
      assert cs == own;
    }
  }

  /** `CHECK_FOCUS_MODE` and page loads: the badge reads `ON` exactly in focus mode. */
  function Badge(store: Settings): (text: string)
    ensures text == "ON" <==> TruthyAt(GetSettings(store), FocusMode)
    ensures text != "ON" ==> text == ""
  {
    if TruthyAt(GetSettings(store), FocusMode) then "ON" else ""
  }
}

=== FILE: storage.dfy ===
/**
 The settings store (`src/utils/storage.js`): a key-value map of JavaScript
 values, read back merged over a fixed table of defaults.
 */
module Storage {
  import opened Results
  import opened Text

  /** The JavaScript values the settings hold. */
  datatype Value = Str(s: string) | Num(n: int) | Bool(b: bool) | Null

  /** A stored key-value map; an absent key reads as `undefined`. */
  type Settings = map<string, Value>

  const ObsidianApiKey := "obsidian_api_key"
  const ObsidianProtocol := "obsidian_protocol"
  const ObsidianPort := "obsidian_port"
  const GeminiApiKey := "gemini_api_key"
  const MinVisitDuration := "min_visit_duration"
  const MinScrollDepth := "min_scroll_depth"
  const GeminiModel := "gemini_model"
  const ObsidianDailyPath := "obsidian_daily_path"
  const FocusMode := "focus_mode"
  const TargetNote := "target_note"
  const DefaultFolder := "default_folder"
  const SummaryLength := "summary_length"

  /** JavaScript truthiness (numbers are integers here, so `NaN` does not arise). */
  predicate Truthy(v: Value) {
    match v
    case Str(s) => s != ""
    case Num(n) => n != 0
    case Bool(b) => b
    case Null => false
  }

  /** `settings[key]` is truthy; an absent key is `undefined`, which is not. */
  predicate TruthyAt(m: Settings, key: string) {
    key in m && Truthy(m[key])
  }

  /** `settings[key] || fallback` */
  function OrElse(m: Settings, key: string, fallback: Value): (r: Value)
    ensures TruthyAt(m, key) ==> r == m[key]
    ensures !TruthyAt(m, key) ==> r == fallback
  {
    if TruthyAt(m, key) then m[key] else fallback
  }

  /** The text a value becomes inside a template literal. */
  function AsText(v: Value): string {
    match v
    case Str(s) => s
    case Num(n) => IntToString(n)
    case Bool(b) => if b then "true" else "false"
    case Null => "null"
  }

  /** A truthy setting never prints as the empty string. */
  lemma TruthyAtText(m: Settings, key: string)
    ensures TruthyAt(m, key) ==> AsText(m[key]) != ""
  {
    if TruthyAt(m, key) {
      TruthyText(m[key]);
    }
  }

  /** A truthy value never prints as the empty string. */
  lemma TruthyText(v: Value)
    requires Truthy(v)
    ensures AsText(v) != ""
  {
    if v.Num? && v.n >= 0 {
      assert |NatToString(v.n)| >= 1;
    }
  }

  /** `DEFAULT_SETTINGS` */
  const DefaultSettings: Settings := map[
    ObsidianProtocol := Str("http"),
    ObsidianPort := Str("27123"),
    MinVisitDuration := Num(5),
    MinScrollDepth := Num(50),
    GeminiModel := Str("gemini-1.5-pro"),
    ObsidianDailyPath := Str("092.Daily"),
    SummaryLength := Str("short")
  ]

  /** `getSettings()`: `{ ...DEFAULT_SETTINGS, ...stored }`. */
  function GetSettings(store: Settings): (r: Settings)
    ensures r.Keys == DefaultSettings.Keys + store.Keys
    ensures forall k :: k in store ==> r[k] == store[k]
    ensures forall k :: k in DefaultSettings && k !in store ==> r[k] == DefaultSettings[k]
  {
    DefaultSettings + store
  }

  /** `saveSettings(updates)`: writes exactly the given keys. */
  function SaveSettings(store: Settings, updates: Settings): (r: Settings)
    ensures r.Keys == store.Keys + updates.Keys
    ensures forall k :: k in updates ==> r[k] == updates[k]
    ensures forall k :: k in store && k !in updates ==> r[k] == store[k]
  {
    store + updates
  }

  /** `getApiKey()`: the merged Obsidian API key entry, `None` for `undefined`. */
  function GetApiKey(store: Settings): (r: Option<Value>)
    ensures r.Some? <==> ObsidianApiKey in store
    ensures r.Some? ==> r.value == store[ObsidianApiKey]
  {
    var m := GetSettings(store);
    if ObsidianApiKey in m then Some(m[ObsidianApiKey]) else None
  }

  /** With nothing stored, the settings are the defaults; API keys, focus mode, target note and default folder have none. */
  lemma DefaultsWhenEmpty()
    ensures GetSettings(map[]) == DefaultSettings
    ensures GetSettings(map[])[ObsidianProtocol] == Str("http") && GetSettings(map[])[ObsidianPort] == Str("27123")
    ensures GetSettings(map[])[MinVisitDuration] == Num(5) && GetSettings(map[])[MinScrollDepth] == Num(50)
    ensures GetSettings(map[])[GeminiModel] == Str("gemini-1.5-pro")
    ensures GetSettings(map[])[ObsidianDailyPath] == Str("092.Daily")
    ensures GetSettings(map[])[SummaryLength] == Str("short")
    ensures forall k :: k in {ObsidianApiKey, GeminiApiKey, FocusMode, TargetNote, DefaultFolder} ==> k !in GetSettings(map[])
  {
  }

  /** Merging the defaults in a second time changes nothing. */
  lemma GetSettingsIdempotent(store: Settings)
    ensures GetSettings(GetSettings(store)) == GetSettings(store)
  {
  }

  /** A saved key reads back as saved; every other key reads as it did before the save. */
  lemma ReadAfterSave(store: Settings, updates: Settings, k: string)
    ensures k in updates ==> k in GetSettings(SaveSettings(store, updates)) && GetSettings(SaveSettings(store, updates))[k] == updates[k]
    ensures k !in updates ==> (k in GetSettings(SaveSettings(store, updates)) <==> k in GetSettings(store))
    ensures k !in updates && k in GetSettings(store) ==> GetSettings(SaveSettings(store, updates))[k] == GetSettings(store)[k]
  {
  }
}

=== FILE: tab_cache.dfy ===
/**
 The service worker's per-tab cache (`tabCache` in
 `src/background/service-worker.js`): seeded from the open tabs, reset on every
 completed navigation to a web page, marked valid when the page reports a
 valid visit, and dropped when the tab closes. The clock is a parameter.
 */
module TabCache {
  import opened Results
  import opened Text

  /** What the browser reports about a tab; any field may be `undefined`. */
  datatype Tab = Tab(id: int, title: Option<string>, url: Option<string>, favIconUrl: Option<string>)

  /** One cache entry; `lastUpdated` and `favIconUrl` are absent in an entry a valid visit created. */
  datatype Entry = Entry(title: Option<string>, url: Option<string>, favIconUrl: Option<string>,
                         lastUpdated: Option<int>, isValidVisit: bool, content: Option<string>)

  type Cache = map<int, Entry>

  /** `tab.url && tab.url.startsWith('http')` */
  predicate IsWebPage(url: Option<string>) {
    url.Some? && StartsWith(url.value, "http")
  }

  /** The entry a freshly loaded page gets: not yet a valid visit, no content. */
  function Fresh(tab: Tab, now: int): (e: Entry)
    ensures !e.isValidVisit && e.content.None? && e.lastUpdated == Some(now)
    ensures e.title == tab.title && e.url == tab.url && e.favIconUrl == tab.favIconUrl
  {
    Entry(tab.title, tab.url, tab.favIconUrl, Some(now), false, None)
  }

  /** The two caches agree on every tab but `id`. */
  ghost predicate AgreeExcept(a: Cache, b: Cache, id: int) {
    forall k :: k != id ==> (k in a <==> k in b) && (k in a ==> a[k] == b[k])
  }

  /** `tabs[i]` is a web page and no later web page has its id. */
  predicate LastWebTab(tabs: seq<Tab>, i: nat)
    requires i < |tabs|
  {
    IsWebPage(tabs[i].url) && forall j :: i < j < |tabs| ==> tabs[j].id != tabs[i].id || !IsWebPage(tabs[j].url)
  }

  /** Startup: every open web page gets a fresh entry; a later tab with the same id overwrites an earlier one. */
  function Seed(tabs: seq<Tab>, now: int): (c: Cache)
    ensures c.Keys == set i | 0 <= i < |tabs| && IsWebPage(tabs[i].url) :: tabs[i].id
    ensures forall id :: id in c ==> !c[id].isValidVisit && c[id].content.None? && IsWebPage(c[id].url)
    ensures forall i :: 0 <= i < |tabs| && LastWebTab(tabs, i) ==> c[tabs[i].id] == Fresh(tabs[i], now)
    decreases |tabs|
  {
    if |tabs| == 0 then map[]
    else
      var last := tabs[|tabs| - 1];
      var before := Seed(tabs[..|tabs| - 1], now);
      var c := if IsWebPage(last.url) then before[last.id := Fresh(last, now)] else before;
      SeedKeys(tabs, tabs[..|tabs| - 1], before, c);
      SeedEntries(tabs, tabs[..|tabs| - 1], now, before, c);
      c
  }

  /** The keys of one seeding step: those before it, and the last tab's id when it is a web page. */
  lemma SeedKeys(tabs: seq<Tab>, init: seq<Tab>, before: Cache, c: Cache)
    requires |tabs| > 0 && init == tabs[..|tabs| - 1]
    requires before.Keys == set i | 0 <= i < |init| && IsWebPage(init[i].url) :: init[i].id
    requires c.Keys == before.Keys + (if IsWebPage(tabs[|tabs| - 1].url) then {tabs[|tabs| - 1].id} else {})
    ensures c.Keys == set i | 0 <= i < |tabs| && IsWebPage(tabs[i].url) :: tabs[i].id
  {
    assert forall i :: 0 <= i < |init| ==> init[i] == tabs[i];
  }

  /** The entries of one seeding step: every entry fresh, and the last web tab of each id owns it. */
  lemma SeedEntries(tabs: seq<Tab>, init: seq<Tab>, now: int, before: Cache, c: Cache)
    requires |tabs| > 0 && init == tabs[..|tabs| - 1]
    requires forall id :: id in before ==> !before[id].isValidVisit && before[id].content.None? && IsWebPage(before[id].url)
    requires forall i :: 0 <= i < |init| && LastWebTab(init, i) ==> init[i].id in before && before[init[i].id] == Fresh(init[i], now)
    requires c == if IsWebPage(tabs[|tabs| - 1].url) then before[tabs[|tabs| - 1].id := Fresh(tabs[|tabs| - 1], now)] else before
    ensures forall id :: id in c ==> !c[id].isValidVisit && c[id].content.None? && IsWebPage(c[id].url)
    ensures forall i :: 0 <= i < |tabs| && LastWebTab(tabs, i) ==> tabs[i].id in c && c[tabs[i].id] == Fresh(tabs[i], now)
  {
    forall i | 0 <= i < |tabs| && LastWebTab(tabs, i)
      ensures tabs[i].id in c && c[tabs[i].id] == Fresh(tabs[i], now)
    {
      if i < |init| {
        assert init[i] == tabs[i];
        assert LastWebTab(init, i);
      }
    }
  }

  /** `chrome.tabs.onUpdated`: a completed load of a web page replaces the tab's entry; nothing else changes the cache. */
  function OnUpdated(cache: Cache, tabId: int, status: Option<string>, tab: Tab, now: int): (c: Cache)
    ensures AgreeExcept(c, cache, tabId)
    ensures status == Some("complete") && IsWebPage(tab.url) ==>
      tabId in c && c[tabId] == Fresh(tab, now)
    ensures !(status == Some("complete") && IsWebPage(tab.url)) ==> c == cache
  {
    if status == Some("complete") && IsWebPage(tab.url) then cache[tabId := Fresh(tab, now)] else cache
  }

  /**
   A valid visit: the existing entry (or an empty one) with the sender's title
   and URL, the extracted content, and the valid flag set.
   */
  function MarkValid(cache: Cache, tabId: int, title: Option<string>, url: Option<string>, content: Option<string>): (c: Cache)
    ensures AgreeExcept(c, cache, tabId)
    ensures tabId in c && c[tabId].isValidVisit
    ensures c[tabId].title == title && c[tabId].url == url && c[tabId].content == content
    ensures tabId in cache ==>
      c[tabId].favIconUrl == cache[tabId].favIconUrl && c[tabId].lastUpdated == cache[tabId].lastUpdated
    ensures tabId !in cache ==> c[tabId].favIconUrl.None? && c[tabId].lastUpdated.None?
  {
    var current := if tabId in cache then cache[tabId] else Entry(None, None, None, None, false, None);
    cache[tabId := current.(title := title, url := url, content := content, isValidVisit := true)]
  }

  /** `chrome.tabs.onRemoved`: the tab's entry goes; the others stay. */
  function OnRemoved(cache: Cache, tabId: int): (c: Cache)
    ensures tabId !in c
    ensures AgreeExcept(c, cache, tabId)
  {
    cache - {tabId}
  }

  /** A new page load in a tab forgets that the previous page was a valid visit, and its content. */
  lemma NavigationResetsValidity(cache: Cache, tab: Tab, title: Option<string>, url: Option<string>,
                                 content: Option<string>, now: int)
    requires IsWebPage(tab.url)
    ensures var c := OnUpdated(MarkValid(cache, tab.id, title, url, content), tab.id, Some("complete"), tab, now);
      !c[tab.id].isValidVisit && c[tab.id].content.None?
  {
  }

  /** Reporting the same valid visit twice leaves the cache as the first report did. */
  lemma MarkValidIdempotent(cache: Cache, tabId: int, title: Option<string>, url: Option<string>, content: Option<string>)
    ensures MarkValid(MarkValid(cache, tabId, title, url, content), tabId, title, url, content)
      == MarkValid(cache, tabId, title, url, content)
  {
  }

  /** Events for different tabs commute. */
  lemma DifferentTabsCommute(cache: Cache, a: int, b: int, title: Option<string>, url: Option<string>, content: Option<string>)
    requires a != b
    ensures OnRemoved(MarkValid(cache, a, title, url, content), b) == MarkValid(OnRemoved(cache, b), a, title, url, content)
  {
  }
}

=== FILE: text.dfy ===
/**
 String helpers with JavaScript semantics, shared by the modules that model the
 extension: prefix/suffix tests, ASCII lower-casing, `split`/`join` on one
 separator character, the whitespace class of regular expressions, `trim`,
 decimal conversion in both directions, and first-occurrence de-duplication.
 */
module Text {
  import opened Results

  // ---------------------------------------------------------------------------
  // Prefixes, suffixes, substrings
  // ---------------------------------------------------------------------------

  /** `s.startsWith(p)` */
  predicate StartsWith(s: string, p: string) {
    |p| <= |s| && s[..|p|] == p
  }

  /** `s.endsWith(p)` */
  predicate EndsWith(s: string, p: string) {
    |p| <= |s| && s[|s| - |p|..] == p
  }

  /** `s.includes(sub)` */
  predicate Contains(s: string, sub: string) {
    exists i | 0 <= i <= |s| - |sub| :: StartsWith(s[i..], sub)
  }

  /** `s.substring(0, n)` for a non-negative `n`. */
  function Take(s: string, n: nat): (r: string)
    ensures |r| <= n && StartsWith(s, r)
    ensures |r| == if |s| <= n then |s| else n
    ensures |s| <= n ==> r == s
  {
    if |s| <= n then s else s[..n]
  }

  /** `s.replace(/<suffix>$/, '')`: removes ONE occurrence of `suffix` at the end. */
  function DropSuffix(s: string, suffix: string): (r: string)
    ensures EndsWith(s, suffix) ==> r + suffix == s
    ensures !EndsWith(s, suffix) ==> r == s
  {
    if EndsWith(s, suffix) then s[..|s| - |suffix|] else s
  }

  /** `s.startsWith(prefix) ? s.substring(|prefix|) : s`, and `s.replace(/^<prefix>/, '')`. */
  function DropPrefix(s: string, prefix: string): (r: string)
    ensures StartsWith(s, prefix) ==> prefix + r == s
    ensures !StartsWith(s, prefix) ==> r == s
  {
    if StartsWith(s, prefix) then s[|prefix|..] else s
  }

  // ---------------------------------------------------------------------------
  // Case
  // ---------------------------------------------------------------------------

  /** `toLowerCase` on one character, restricted to the ASCII letters. */
  function LowerChar(c: char): char {
    if 'A' <= c <= 'Z' then (c as int + 32) as char else c
  }

  function ToLower(s: string): (r: string)
    ensures |r| == |s|
    ensures forall i :: 0 <= i < |s| ==> r[i] == LowerChar(s[i])
  {
    seq(|s|, i requires 0 <= i < |s| => LowerChar(s[i]))
  }

  /** Lower-casing is idempotent. */
  lemma ToLowerTwice(s: string)
    ensures ToLower(ToLower(s)) == ToLower(s)
  {
  }

  /** `s.toLowerCase().endsWith(suffix)` for a lower-case `suffix`. */
  predicate EndsWithIgnoringCase(s: string, suffix: string) {
    EndsWith(ToLower(s), suffix)
  }

  // ---------------------------------------------------------------------------
  // split / join on one separator character
  // ---------------------------------------------------------------------------

  /** `s.split(sep)`: the pieces between separators, at least one (possibly empty) piece. */
  function Split(s: string, sep: char): (parts: seq<string>)
    ensures |parts| >= 1
    ensures forall i :: 0 <= i < |parts| ==> sep !in parts[i]
  {
    if |s| == 0 then [""]
    else
      var rest := Split(s[1..], sep);
      if s[0] == sep then [""] + rest
      else [[s[0]] + rest[0]] + rest[1..]
  }

  lemma ConcatAssoc(a: string, b: string, c: string)
    ensures (a + b) + c == a + (b + c)
  {
  }

  /** A concatenation starts with its first part and ends with its second. */
  lemma ConcatEnds(a: string, b: string)
    ensures StartsWith(a + b, a) && EndsWith(a + b, b)
  {
    assert (a + b)[..|a|] == a;
    assert (a + b)[|a + b| - |b|..] == b;
  }

  /** `parts.join(sep)` */
  function Join(parts: seq<string>, sep: char): (s: string)
    ensures |parts| == 0 ==> s == ""
    ensures |parts| > 0 ==> StartsWith(s, parts[0])
    ensures |parts| > 1 ==> |s| > |parts[0]| && s[|parts[0]|] == sep
  {
    if |parts| == 0 then ""
    else if |parts| == 1 then parts[0]
    else
      var rest := Join(parts[1..], sep);
      ConcatEnds(parts[0], [sep] + rest);
      ConcatAssoc(parts[0], [sep], rest);
      parts[0] + [sep] + rest
  }

  /** Joining the pieces of a split gives the string back. */
  lemma {:induction false} JoinSplit(s: string, sep: char)
    ensures Join(Split(s, sep), sep) == s
  {
    if |s| > 0 {
      JoinSplit(s[1..], sep);
      var rest := Split(s[1..], sep);
      if s[0] != sep {
        JoinExtendFirst(s[0], rest, sep);
      } else {
        JoinEmptyFirst(rest, sep);
      }
      assert [s[0]] + s[1..] == s;
    }
  }

  /** A character put in front of the first piece lands in front of the join. */
  lemma JoinExtendFirst(c: char, parts: seq<string>, sep: char)
    requires |parts| >= 1
    ensures Join([[c] + parts[0]] + parts[1..], sep) == [c] + Join(parts, sep)
  {
    var ps := [[c] + parts[0]] + parts[1..];
    assert ps[0] == [c] + parts[0] && ps[1..] == parts[1..];
    if |parts| > 1 {
      var tail := [sep] + Join(parts[1..], sep);
      assert Join(parts, sep) == parts[0] + tail;
      assert Join(ps, sep) == ([c] + parts[0]) + tail;
      ConcatAssoc([c], parts[0], tail);
    }
  }

  /** An empty first piece contributes only its separator. */
  lemma JoinEmptyFirst(parts: seq<string>, sep: char)
    requires |parts| >= 1
    ensures Join([""] + parts, sep) == [sep] + Join(parts, sep)
  {
    assert ([""] + parts)[1..] == parts;
  }

  /** Splitting a join of separator-free pieces gives the pieces back. */
  lemma {:induction false} SplitJoin(parts: seq<string>, sep: char)
    requires |parts| >= 1
    requires forall i :: 0 <= i < |parts| ==> sep !in parts[i]
    ensures Split(Join(parts, sep), sep) == parts
  {
    if |parts| == 1 {
      SplitPiece(parts[0], sep, "", false);
    } else {
      SplitJoin(parts[1..], sep);
      SplitPiece(parts[0], sep, Join(parts[1..], sep), true);
      assert [parts[0]] + parts[1..] == parts;
    }
  }

  /** Splitting `piece + sep + tail` (or `piece` alone) for a separator-free `piece`. */
  lemma {:induction false} SplitPiece(piece: string, sep: char, tail: string, more: bool)
    requires sep !in piece
    requires !more ==> tail == ""
    ensures more ==> Split(piece + [sep] + tail, sep) == [piece] + Split(tail, sep)
    ensures !more ==> Split(piece, sep) == [piece]
  {
    if |piece| > 0 {
      SplitPiece(piece[1..], sep, tail, more);
      if more {
        assert (piece + [sep] + tail)[1..] == piece[1..] + [sep] + tail;
        assert [piece[0]] + piece[1..] == piece;
      } else {
        assert [piece[0]] + piece[1..] == piece;
      }
    } else if more {
      assert ([sep] + tail)[1..] == tail;
      assert piece + [sep] + tail == [sep] + tail;
    }
  }

  // ---------------------------------------------------------------------------
  // Whitespace: the `\s` class of regular expressions, which `trim` also strips
  // ---------------------------------------------------------------------------

  /** White space and line terminators as ECMAScript defines them. */
  predicate IsSpace(c: char) {
    || c == '\t' || c == '\n' || c == '\U{000B}' || c == '\U{000C}' || c == '\r' || c == ' '
    || c == '\U{00A0}' || c == '\U{1680}' || ('\U{2000}' <= c <= '\U{200A}')
    || c == '\U{2028}' || c == '\U{2029}' || c == '\U{202F}' || c == '\U{205F}'
    || c == '\U{3000}' || c == '\U{FEFF}'
  }

  /** No two neighbouring characters are both white space. */
  predicate NoSpaceRun(s: string) {
    forall i :: 0 <= i < |s| - 1 ==> !(IsSpace(s[i]) && IsSpace(s[i + 1]))
  }

  /** The only white space character in `s` is the plain space. */
  predicate OnlyPlainSpaces(s: string) {
    forall i :: 0 <= i < |s| ==> IsSpace(s[i]) ==> s[i] == ' '
  }

  /** The non-space characters of `s`, in order. */
  function Squeeze(s: string): string {
    if |s| == 0 then "" else (if IsSpace(s[0]) then "" else [s[0]]) + Squeeze(s[1..])
  }

  lemma {:induction false} SqueezeAppend(a: string, b: string)
    ensures Squeeze(a + b) == Squeeze(a) + Squeeze(b)
  {
    if |a| > 0 {
      SqueezeAppend(a[1..], b);
      assert (a + b)[1..] == a[1..] + b;
    } else {
      assert a + b == b;
    }
  }

  lemma {:induction false} SqueezeSpaces(s: string)
    requires forall i :: 0 <= i < |s| ==> IsSpace(s[i])
    ensures Squeeze(s) == ""
  {
    if |s| > 0 {
      SqueezeSpaces(s[1..]);
    }
  }

  /** `s.trimStart()`: drops the leading white space. */
  function TrimStart(s: string): (r: string)
    ensures |r| <= |s| && r == s[|s| - |r|..]
    ensures forall i :: 0 <= i < |s| - |r| ==> IsSpace(s[i])
    ensures |r| > 0 ==> !IsSpace(r[0])
  {
    if |s| > 0 && IsSpace(s[0]) then TrimStart(s[1..]) else s
  }

  /** `s.trimEnd()`: drops the trailing white space. */
  function TrimEnd(s: string): (r: string)
    ensures |r| <= |s| && r == s[..|r|]
    ensures forall i :: |r| <= i < |s| ==> IsSpace(s[i])
    ensures |r| > 0 ==> !IsSpace(r[|r| - 1])
  {
    if |s| > 0 && IsSpace(s[|s| - 1]) then TrimEnd(s[..|s| - 1]) else s
  }

  /** A run of mixed white space inside becomes one space; a trailing one stays. */
  lemma CollapseExample()
    ensures CollapseFrom("a \t b ", false) == "a b "
  {
    CollapseCons(' ', "", true);
    CollapseCons('b', " ", true);
    CollapseCons(' ', "b ", true);
    CollapseCons('\t', " b ", false);
    CollapseCons(' ', "\t b ", false);
    CollapseCons('a', " \t b ", false);
  }

  /** A trailing space is cut; the inner one stays. */
  lemma TrimExample()
    ensures Trim("a b ") == "a b"
  {
    var s := "a b ";
    assert !IsSpace(s[0]);
    TrimStartOfNonSpace(s);
    assert s[..3] == "a b" && IsSpace(s[3]) && !IsSpace(s[2]);
    assert TrimEnd(s) == TrimEnd("a b");
  }

  /** Dropping leading white space keeps the non-space characters. */
  lemma {:induction false} TrimStartSqueeze(s: string)
    ensures Squeeze(TrimStart(s)) == Squeeze(s)
  {
    if |s| > 0 && IsSpace(s[0]) {
      TrimStartSqueeze(s[1..]);
      assert Squeeze(s) == "" + Squeeze(s[1..]);
    }
  }

  /** Dropping trailing white space keeps the non-space characters. */
  lemma TrimEndSqueeze(s: string)
    ensures Squeeze(TrimEnd(s)) == Squeeze(s)
  {
    var r := TrimEnd(s);
    assert s == r + s[|r|..];
    SqueezeSpaces(s[|r|..]);
    SqueezeAppend(r, s[|r|..]);
  }

  /** `s.trim()` */
  function Trim(s: string): (r: string)
    ensures |r| <= |s|
    ensures |r| > 0 ==> !IsSpace(r[0]) && !IsSpace(r[|r| - 1])
    ensures Squeeze(r) == Squeeze(s)
    ensures NoSpaceRun(s) && OnlyPlainSpaces(s) ==> NoSpaceRun(r) && OnlyPlainSpaces(r)
    ensures exists a, b :: 0 <= a <= b <= |s| && r == s[a..b] && OnlySpacesOutside(s, a, b)
    ensures |r| == 0 <==> forall i :: 0 <= i < |s| ==> IsSpace(s[i])
  {
    TrimKeeps(s);
    TrimSlice(s);
    TrimEnd(TrimStart(s))
  }

  /** Every character of `s` before index `a` or from index `b` on is white space. */
  predicate OnlySpacesOutside(s: string, a: nat, b: nat)
    requires a <= b <= |s|
  {
    forall i :: 0 <= i < |s| && (i < a || b <= i) ==> IsSpace(s[i])
  }

  /** Trimming both ends leaves a slice of `s` with only white space around it. */
  lemma TrimSlice(s: string)
    ensures var r := TrimEnd(TrimStart(s));
      exists a, b :: 0 <= a <= b <= |s| && r == s[a..b] && OnlySpacesOutside(s, a, b)
    ensures |TrimEnd(TrimStart(s))| == 0 ==> forall i :: 0 <= i < |s| ==> IsSpace(s[i])
  {
    var t := TrimStart(s);
    var u := TrimEnd(t);
    var a := |s| - |t|;
    var b := a + |u|;
    assert u == s[a..b] by {
      assert t == s[a..];
      assert u == t[..|u|];
    }
    forall i | 0 <= i < |s| && (i < a || b <= i)
      ensures IsSpace(s[i])
    {
      if i >= b {
        assert s[i] == t[i - a];
      }
    }
    assert OnlySpacesOutside(s, a, b);
  }

  /** Trimming both ends keeps the non-space characters and the spacing. */
  lemma TrimKeeps(s: string)
    ensures Squeeze(TrimEnd(TrimStart(s))) == Squeeze(s)
    ensures NoSpaceRun(s) && OnlyPlainSpaces(s) ==>
      NoSpaceRun(TrimEnd(TrimStart(s))) && OnlyPlainSpaces(TrimEnd(TrimStart(s)))
  {
    var t := TrimStart(s);
    TrimStartSqueeze(s);
    TrimEndSqueeze(t);
    if NoSpaceRun(s) && OnlyPlainSpaces(s) {
      SuffixKeepsSpacing(s, t);
      PrefixKeepsSpacing(t, TrimEnd(t));
    }
  }

  lemma SuffixKeepsSpacing(s: string, t: string)
    requires NoSpaceRun(s) && OnlyPlainSpaces(s)
    requires |t| <= |s| && t == s[|s| - |t|..]
    ensures NoSpaceRun(t) && OnlyPlainSpaces(t)
  {
    SliceKeepsSpacing(s, |s| - |t|, |s|);
    assert s[|s| - |t|..|s|] == t;
  }

  lemma PrefixKeepsSpacing(t: string, u: string)
    requires NoSpaceRun(t) && OnlyPlainSpaces(t)
    requires |u| <= |t| && u == t[..|u|]
    ensures NoSpaceRun(u) && OnlyPlainSpaces(u)
  {
    SliceKeepsSpacing(t, 0, |u|);
    assert t[0..|u|] == u;
  }

  /**
   The character-by-character reading of `s.replace(/\s+/g, ' ')`: a white
   space character becomes a plain space when the character before it was not
   white space and is dropped when it was; every other character is kept.
   `afterSpace` says whether the character before `s` was white space.
   */
  function CollapseFrom(s: string, afterSpace: bool): string {
    if |s| == 0 then ""
    else if IsSpace(s[0]) then (if afterSpace then "" else " ") + CollapseFrom(s[1..], true)
    else [s[0]] + CollapseFrom(s[1..], false)
  }

  /** One step of `CollapseFrom`, for a sequence written as its head and tail. */
  lemma CollapseCons(c: char, t: string, afterSpace: bool)
    ensures CollapseFrom([c] + t, afterSpace) ==
      if IsSpace(c) then (if afterSpace then "" else " ") + CollapseFrom(t, true) else [c] + CollapseFrom(t, false)
  {
    assert ([c] + t)[1..] == t;
  }

  /** After white space, the leading run of white space contributes nothing. */
  lemma {:induction false} CollapseAfterSpace(t: string)
    ensures CollapseFrom(t, true) == CollapseFrom(TrimStart(t), false)
  {
    if |t| > 0 && IsSpace(t[0]) {
      CollapseAfterSpace(t[1..]);
      assert CollapseFrom(t, true) == "" + CollapseFrom(t[1..], true);
    }
  }

  /** `s.replace(/\s+/g, ' ')`: every maximal run of white space becomes one space. */
  function CollapseSpaces(s: string): (r: string)
    ensures r == CollapseFrom(s, false)
    ensures |r| == 0 <==> |s| == 0
    ensures |s| > 0 && !IsSpace(s[0]) ==> r[0] == s[0]
    ensures |s| > 0 && IsSpace(s[0]) ==> r[0] == ' '
    ensures NoSpaceRun(r) && OnlyPlainSpaces(r)
    ensures Squeeze(r) == Squeeze(s)
    decreases |s|
  {
    if |s| == 0 then ""
    else if IsSpace(s[0]) then
      var t := TrimStart(s);
      var rest := CollapseSpaces(t);
      CollapseAfterSpace(s[1..]);
      assert CollapseFrom(s, false) == " " + CollapseFrom(s[1..], true);
      TrimStartSqueeze(s);
      ConsKeepsSpacing(' ', rest);
      SqueezeCons(' ', rest);
      [' '] + rest
    else
      var rest := CollapseSpaces(s[1..]);
      ConsKeepsSpacing(s[0], rest);
      SqueezeCons(s[0], rest);
      assert Squeeze(s) == [s[0]] + Squeeze(s[1..]);
      [s[0]] + rest
  }

  /** A plain space before a string that does not start with white space, or any other character, keeps the spacing. */
  lemma ConsKeepsSpacing(c: char, t: string)
    requires NoSpaceRun(t) && OnlyPlainSpaces(t)
    requires IsSpace(c) ==> c == ' ' && (|t| == 0 || !IsSpace(t[0]))
    ensures NoSpaceRun([c] + t) && OnlyPlainSpaces([c] + t)
  {
    var r := [c] + t;
    forall i | 1 <= i < |r| ensures r[i] == t[i - 1] { }
  }

  /** Squeezing a string with one more character in front. */
  lemma SqueezeCons(c: char, t: string)
    ensures Squeeze([c] + t) == (if IsSpace(c) then "" else [c]) + Squeeze(t)
  {
    assert ([c] + t)[1..] == t;
  }

  /** Every slice of a string without space runs has none either, and keeps only plain spaces. */
  lemma SliceKeepsSpacing(s: string, a: nat, b: nat)
    requires a <= b <= |s|
    ensures NoSpaceRun(s) && OnlyPlainSpaces(s) ==> NoSpaceRun(s[a..b]) && OnlyPlainSpaces(s[a..b])
  {
    if NoSpaceRun(s) && OnlyPlainSpaces(s) {
      var t := s[a..b];
      forall i | 0 <= i < |t| - 1
        ensures !(IsSpace(t[i]) && IsSpace(t[i + 1]))
      {
        assert t[i] == s[a + i] && t[i + 1] == s[a + i + 1];
      }
    }
  }

  /** Replaces every `from` character by `to`: `s.replace(/<from>/g, '<to>')`. */
  function ReplaceChar(s: string, from: char, to: char): (r: string)
    ensures |r| == |s|
    ensures from != to ==> from !in r
    ensures forall i :: 0 <= i < |s| && s[i] != from ==> r[i] == s[i]
    ensures forall i :: 0 <= i < |s| && s[i] == from ==> r[i] == to
  {
    seq(|s|, i requires 0 <= i < |s| => if s[i] == from then to else s[i])
  }

  // ---------------------------------------------------------------------------
  // Decimal numbers
  // ---------------------------------------------------------------------------

  predicate IsDigit(c: char) {
    '0' <= c <= '9'
  }

  function DigitChar(d: nat): (c: char)
    requires d < 10
    ensures IsDigit(c)
  {
    ('0' as int + d) as char
  }

  function DigitValue(c: char): nat
    requires IsDigit(c)
  {
    c as int - '0' as int
  }

  /** The value of a run of decimal digits. */
  function DigitsValue(ds: string): nat
    requires forall i :: 0 <= i < |ds| ==> IsDigit(ds[i])
  {
    if |ds| == 0 then 0
    else DigitsValue(ds[..|ds| - 1]) * 10 + DigitValue(ds[|ds| - 1])
  }

  /** `String(n)` for a natural number. */
  function NatToString(n: nat): (r: string)
    ensures |r| >= 1 && forall i :: 0 <= i < |r| ==> IsDigit(r[i])
  {
    if n < 10 then [DigitChar(n)] else NatToString(n / 10) + [DigitChar(n % 10)]
  }

  /** `String(n)` for an integer. */
  function IntToString(n: int): string {
    if n < 0 then "-" + NatToString(-n) else NatToString(n)
  }

  /** Reading back the digits of a number gives the number. */
  lemma {:induction false} NatToStringValue(n: nat)
    ensures DigitsValue(NatToString(n)) == n
  {
    if n >= 10 {
      NatToStringValue(n / 10);
      var s := NatToString(n);
      assert s[..|s| - 1] == NatToString(n / 10);
    }
  }

  /** `String(n).padStart(2, '0')` */
  function PadTwo(n: nat): string {
    if n < 10 then "0" + NatToString(n) else NatToString(n)
  }

  /** Numbers below 100 are written with exactly two digits that read back as the number. */
  lemma PadTwoValue(n: nat)
    requires n < 100
    ensures |PadTwo(n)| == 2
    ensures forall i :: 0 <= i < 2 ==> IsDigit(PadTwo(n)[i])
    ensures DigitsValue(PadTwo(n)) == n
  {
    var s := PadTwo(n);
    NatToStringValue(n);
    if n >= 10 {
      assert NatToString(n / 10) == [DigitChar(n / 10)];
    } else {
      assert s[..1] == "0";
      assert s[..1][..0] == "";
    }
  }

  /** The longest prefix of `s` made of decimal digits. */
  function LeadingDigits(s: string): (ds: string)
    ensures StartsWith(s, ds)
    ensures forall i :: 0 <= i < |ds| ==> IsDigit(ds[i])
    ensures |ds| < |s| ==> !IsDigit(s[|ds|])
  {
    if |s| > 0 && IsDigit(s[0]) then [s[0]] + LeadingDigits(s[1..]) else ""
  }

  /** The value of the longest run of digits at the head of `u`; `None` when there is none. */
  function ParseDigits(u: string): Option<int> {
    var ds := LeadingDigits(u);
    if |ds| == 0 then None else Some(DigitsValue(ds))
  }

  /**
   `parseInt(s, 10)`: skips leading white space, reads an optional sign and then
   the longest run of decimal digits; `None` is `NaN` (no digit at all).
   */
  function ParseInt(s: string): (r: Option<int>)
    ensures |s| > 0 && IsDigit(s[0]) ==> r.Some? && r.value >= 0
    ensures |s| > 0 && !IsSpace(s[0]) && !IsDigit(s[0]) && s[0] != '-' && s[0] != '+' ==> r.None?
  {
    var t := TrimStart(s);
    if |t| > 0 && t[0] == '-' then
      match ParseDigits(t[1..])
      case None => None
      case Some(v) => Some(-v)
    else if |t| > 0 && t[0] == '+' then ParseDigits(t[1..])
    else ParseDigits(t)
  }

  /** `parseInt` of an empty or all-white-space string is `NaN`. */
  lemma ParseIntOfBlank(s: string)
    requires forall i :: 0 <= i < |s| ==> IsSpace(s[i])
    ensures ParseInt(s) == None
  {
  }

  lemma {:induction false} LeadingDigitsOfDigits(s: string)
    requires forall i :: 0 <= i < |s| ==> IsDigit(s[i])
    ensures LeadingDigits(s) == s
  {
    if |s| > 0 {
      LeadingDigitsOfDigits(s[1..]);
      assert [s[0]] + s[1..] == s;
    }
  }

  lemma ParseIntOfDigits(ds: string)
    requires |ds| >= 1 && forall i :: 0 <= i < |ds| ==> IsDigit(ds[i])
    ensures ParseInt(ds) == Some(DigitsValue(ds))
  {
    assert !IsSpace(ds[0]);
    assert TrimStart(ds) == ds;
    LeadingDigitsOfDigits(ds);
  }

  lemma ParseIntOfNegatedDigits(ds: string)
    requires |ds| >= 1 && forall i :: 0 <= i < |ds| ==> IsDigit(ds[i])
    ensures ParseInt("-" + ds) == Some(-(DigitsValue(ds) as int))
  {
    ParseDigitsOfDigits(ds);
    ParseNegated(ds, DigitsValue(ds));
  }

  lemma ParseNegated(ds: string, v: int)
    requires ParseDigits(ds) == Some(v)
    ensures ParseInt("-" + ds) == Some(-v)
  {
    SignThenDigits('-', ds);
    ParseIntNegative("-" + ds, v);
  }

  lemma ParsePlus(ds: string, v: int)
    requires ParseDigits(ds) == Some(v)
    ensures ParseInt("+" + ds) == Some(v)
  {
    var s := "+" + ds;
    SignThenDigits('+', ds);
    TrimStartOfNonSpace(s);
  }

  lemma SignThenDigits(sign: char, ds: string)
    ensures |[sign] + ds| > 0 && ([sign] + ds)[0] == sign && ([sign] + ds)[1..] == ds
  {
  }

  lemma ParseDigitsOfDigits(ds: string)
    requires |ds| >= 1 && forall i :: 0 <= i < |ds| ==> IsDigit(ds[i])
    ensures ParseDigits(ds) == Some(DigitsValue(ds))
  {
    LeadingDigitsOfDigits(ds);
  }

  /** A leading minus sign negates the digits that follow it. */
  lemma ParseIntNegative(s: string, v: int)
    requires |s| > 0 && s[0] == '-' && ParseDigits(s[1..]) == Some(v)
    ensures ParseInt(s) == Some(-v)
  {
    TrimStartOfNonSpace(s);
  }

  lemma TrimStartOfNonSpace(s: string)
    requires |s| > 0 && !IsSpace(s[0])
    ensures TrimStart(s) == s
  {
  }

  /** `parseInt(String(n), 10) == n` for every integer `n`. */
  lemma ParseIntOfIntToString(n: int)
    ensures ParseInt(IntToString(n)) == Some(n)
  {
    var m: nat := if n < 0 then -n else n;
    NatToStringValue(m);
    if n < 0 {
      ParseIntOfNegatedDigits(NatToString(m));
    } else {
      ParseIntOfDigits(NatToString(m));
    }
  }

  /** Leading white space is skipped: `trimStart` of spaces then a non-space start is that start. */
  lemma {:induction false} TrimStartAfterSpaces(w: string, t: string)
    requires forall i :: 0 <= i < |w| ==> IsSpace(w[i])
    requires |t| > 0 && !IsSpace(t[0])
    ensures TrimStart(w + t) == t
  {
    if |w| > 0 {
      assert (w + t)[0] == w[0];
      assert (w + t)[1..] == w[1..] + t;
      TrimStartAfterSpaces(w[1..], t);
    } else {
      assert w + t == t;
    }
  }

  /** The digit run at the head of `ds + rest` is `ds` when `rest` does not go on with a digit. */
  lemma {:induction false} LeadingDigitsStop(ds: string, rest: string)
    requires forall i :: 0 <= i < |ds| ==> IsDigit(ds[i])
    requires |rest| == 0 || !IsDigit(rest[0])
    ensures LeadingDigits(ds + rest) == ds
  {
    if |ds| > 0 {
      assert (ds + rest)[0] == ds[0];
      assert (ds + rest)[1..] == ds[1..] + rest;
      LeadingDigitsStop(ds[1..], rest);
      assert [ds[0]] + ds[1..] == ds;
    } else {
      assert ds + rest == rest;
    }
  }

  lemma ParseIntSkipsSpace(w: string, t: string)
    requires forall i :: 0 <= i < |w| ==> IsSpace(w[i])
    requires |t| > 0 && !IsSpace(t[0])
    ensures ParseInt(w + t) == ParseInt(t)
  {
    TrimStartAfterSpaces(w, t);
    ParseIntAfterTrim(w + t, t);
  }

  /** `parseInt` only looks at what `trimStart` leaves. */
  lemma ParseIntAfterTrim(s: string, t: string)
    requires TrimStart(s) == t && |t| > 0 && !IsSpace(t[0])
    ensures ParseInt(s) == ParseInt(t)
  {
    TrimStartOfNonSpace(t);
  }

  lemma ParseDigitsStop(ds: string, rest: string)
    requires |ds| >= 1 && forall i :: 0 <= i < |ds| ==> IsDigit(ds[i])
    requires |rest| == 0 || !IsDigit(rest[0])
    ensures ParseDigits(ds + rest) == Some(DigitsValue(ds))
  {
    LeadingDigitsStop(ds, rest);
  }

  /**
   `parseInt` reads a prefix: after leading white space it takes the digits up
   to the first non-digit, so `"7.5"` gives 7 and `" 12px"` gives 12.
   */
  lemma ParseIntPrefix(w: string, ds: string, rest: string)
    requires forall i :: 0 <= i < |w| ==> IsSpace(w[i])
    requires |ds| >= 1 && forall i :: 0 <= i < |ds| ==> IsDigit(ds[i])
    requires |rest| == 0 || !IsDigit(rest[0])
    ensures ParseInt(w + ds + rest) == Some(DigitsValue(ds))
  {
    var u := ds + rest;
    ConcatAssocSeq(w, ds, rest);
    assert u[0] == ds[0];
    ParseDigitsStop(ds, rest);
    ParseIntUnsigned(u);
    ParseIntSkipsSpace(w, u);
  }

  /** Without white space or a sign in front, `parseInt` reads the leading digits. */
  lemma ParseIntUnsigned(s: string)
    requires |s| > 0 && IsDigit(s[0])
    ensures ParseInt(s) == ParseDigits(s)
  {
    TrimStartOfNonSpace(s);
  }

  /**
   With a sign before the digits: `"-"` negates, `"+"` is dropped. `ParseDigits`
   reads the prefix, so with `ParseDigitsStop` this gives `parseInt(" -12px") == -12`.
   */
  lemma ParseIntSignedPrefix(w: string, sign: char, x: string, v: int)
    requires forall i :: 0 <= i < |w| ==> IsSpace(w[i])
    requires sign == '-' || sign == '+'
    requires ParseDigits(x) == Some(v)
    ensures ParseInt(w + [sign] + x) == Some(if sign == '-' then -v else v)
  {
    var t := [sign] + x;
    ConcatAssocSeq(w, [sign], x);
    assert t[0] == sign && !IsSpace(sign);
    if sign == '-' {
      assert t == "-" + x;
      ParseNegated(x, v);
    } else {
      assert t == "+" + x;
      ParsePlus(x, v);
    }
    ParseIntSkipsSpace(w, t);
  }

  /** A decimal fraction is cut at the point: `parseInt("7.5") == 7`. */
  lemma ParseIntOfFraction()
    ensures ParseInt("7.5") == Some(7)
  {
    ParseIntPrefix("", "7", ".5");
    assert "" + "7" + ".5" == "7.5";
    assert DigitsValue("7") == 7 by { assert "7"[..0] == ""; }
  }

  // ---------------------------------------------------------------------------
  // Searching and de-duplicating sequences
  // ---------------------------------------------------------------------------

  /** `xs.findIndex(p)`, with `None` for -1: the position of the FIRST element satisfying `p`. */
  function FirstIndex<T>(xs: seq<T>, p: T -> bool): (r: Option<nat>)
    ensures r.Some? ==> r.value < |xs| && p(xs[r.value])
    ensures r.Some? ==> forall j :: 0 <= j < r.value ==> !p(xs[j])
    ensures r.None? <==> forall j :: 0 <= j < |xs| ==> !p(xs[j])
  {
    if |xs| == 0 then None
    else if p(xs[0]) then Some(0)
    else
      match FirstIndex(xs[1..], p)
      case None => None
      case Some(k) => Some(k + 1)
  }

  /** `xs.filter(p)` */
  function Filter<T>(xs: seq<T>, p: T -> bool): (r: seq<T>)
    ensures |r| <= |xs|
    ensures forall i :: 0 <= i < |r| ==> r[i] in xs && p(r[i])
    ensures forall i :: 0 <= i < |xs| && p(xs[i]) ==> xs[i] in r
  {
    if |xs| == 0 then []
    else (if p(xs[0]) then [xs[0]] else []) + Filter(xs[1..], p)
  }

  /** Filtering works piece by piece, so the kept elements stay in input order. */
  lemma {:induction false} FilterAppend<T>(xs: seq<T>, ys: seq<T>, p: T -> bool)
    ensures Filter(xs + ys, p) == Filter(xs, p) + Filter(ys, p)
  {
    if |xs| > 0 {
      FilterAppend(xs[1..], ys, p);
      assert (xs + ys)[1..] == xs[1..] + ys;
      assert (xs + ys)[0] == xs[0];
      ConcatAssocSeq(if p(xs[0]) then [xs[0]] else [], Filter(xs[1..], p), Filter(ys, p));
    } else {
      assert xs + ys == ys;
    }
  }

  /** On one element, a filter keeps it or drops it; together with `FilterAppend` this fixes the result. */
  lemma FilterSingle<T>(x: T, p: T -> bool)
    ensures Filter([x], p) == if p(x) then [x] else []
  {
    assert [x][1..] == [];
  }

  lemma ConcatAssocSeq<T>(a: seq<T>, b: seq<T>, c: seq<T>)
    ensures (a + b) + c == a + (b + c)
  {
  }

  /** Where `x` first occurs in `xs`. */
  function FirstPos<T(==)>(xs: seq<T>, x: T): (k: nat)
    requires x in xs
    ensures k < |xs| && xs[k] == x
    ensures forall j :: 0 <= j < k ==> xs[j] != x
  {
    if xs[0] == x then 0 else 1 + FirstPos(xs[1..], x)
  }

  /** An element of a prefix first occurs at the same place in the whole sequence. */
  lemma FirstPosPrefix<T>(xs: seq<T>, n: nat, x: T)
    requires n <= |xs| && x in xs[..n]
    ensures x in xs && FirstPos(xs, x) == FirstPos(xs[..n], x) && FirstPos(xs, x) < n
  {
    var k' := FirstPos(xs[..n], x);
    assert xs[k'] == x;
    var k := FirstPos(xs, x);
    assert k <= k';
    assert xs[..n][k] == x;
  }

  /** Keeping the elements that pass a test keeps the order of their first occurrences. */
  lemma {:induction false} FilterKeepsFirstOrder<T>(xs: seq<T>, p: T -> bool, x: T, y: T)
    requires x in Filter(xs, p) && y in Filter(xs, p)
    requires FirstPos(Filter(xs, p), x) < FirstPos(Filter(xs, p), y)
    ensures x in xs && y in xs && FirstPos(xs, x) < FirstPos(xs, y)
  {
    var f := Filter(xs, p);
    var rest := Filter(xs[1..], p);
    assert f == (if p(xs[0]) then [xs[0]] else []) + rest;
    assert p(xs[0]) ==> f[0] == xs[0];
    if xs[0] == x {
    } else if xs[0] == y {
    } else {
      assert x in rest && y in rest;
      FirstPosBehind(f, rest, x, if p(xs[0]) then [xs[0]] else []);
      FirstPosBehind(f, rest, y, if p(xs[0]) then [xs[0]] else []);
      FilterKeepsFirstOrder(xs[1..], p, x, y);
    }
  }

  /** An order of first occurrences within the kept elements is one within the whole input. */
  lemma FirstOrderedThroughFilter<T>(xs: seq<T>, p: T -> bool, r: seq<T>)
    requires forall i :: 0 <= i < |r| ==> r[i] in Filter(xs, p)
    requires FirstOrdered(Filter(xs, p), r)
    ensures FirstOrdered(xs, r)
  {
    forall i | 0 <= i < |r| - 1 && r[i] in xs && r[i + 1] in xs
      ensures FirstPos(xs, r[i]) < FirstPos(xs, r[i + 1])
    {
      FilterKeepsFirstOrder(xs, p, r[i], r[i + 1]);
    }
  }

  /** Filtering and then de-duplicating keeps the order in which the kept elements first occur. */
  lemma DedupFilterFirstOrdered<T>(xs: seq<T>, p: T -> bool)
    ensures FirstOrdered(xs, Dedup(Filter(xs, p)))
  {
    DedupKeepsFirstOrder(Filter(xs, p));
    FirstOrderedThroughFilter(xs, p, Dedup(Filter(xs, p)));
  }

  /** Behind a head that does not contain `x`, `x` first occurs as far in as the head is long. */
  lemma FirstPosBehind<T>(f: seq<T>, rest: seq<T>, x: T, head: seq<T>)
    requires f == head + rest && x in rest && x !in head
    ensures x in f && FirstPos(f, x) == |head| + FirstPos(rest, x)
  {
    var k := FirstPos(rest, x);
    assert f[|head| + k] == x;
    var k' := FirstPos(f, x);
    assert k' >= |head|;
    assert rest[k' - |head|] == x;
  }

  predicate Distinct<T(==)>(xs: seq<T>) {
    forall i, j :: 0 <= i < j < |xs| ==> xs[i] != xs[j]
  }

  /**
   `[...new Set(xs)]`: every element once, at the position of its first
   occurrence. The definition keeps `xs[k]` exactly when it does not occur
   in `xs[..k]`.
   */
  function Dedup<T(==)>(xs: seq<T>): (r: seq<T>)
    ensures forall i :: 0 <= i < |r| ==> r[i] in xs
    ensures forall i :: 0 <= i < |xs| ==> xs[i] in r
    ensures Distinct(r)
    ensures |r| <= |xs|
  {
    if |xs| == 0 then []
    else
      var n := |xs| - 1;
      var r := Dedup(xs[..n]);
      assert xs == xs[..n] + [xs[n]];
      if xs[n] in xs[..n] then r else r + [xs[n]]
  }

  /** Each element `Dedup` keeps first occurs in the input before the next one kept does. */
  lemma {:induction false} DedupKeepsFirstOrder<T>(xs: seq<T>)
    ensures FirstOrdered(xs, Dedup(xs))
  {
    if |xs| > 0 {
      var n := |xs| - 1;
      DedupKeepsFirstOrder(xs[..n]);
      DedupOrderStep(xs, Dedup(xs[..n]));
    }
  }

  /** Each element of `r` first occurs in `xs` before the next element of `r` does. */
  predicate FirstOrdered<T(==)>(xs: seq<T>, r: seq<T>) {
    forall i :: 0 <= i < |r| - 1 && r[i] in xs && r[i + 1] in xs ==> FirstPos(xs, r[i]) < FirstPos(xs, r[i + 1])
  }

  /**
   The order of first occurrences carries over from the prefix `xs[..|xs| - 1]`
   to `xs`, and a new last element comes after all of them.
   */
  lemma DedupOrderStep<T>(xs: seq<T>, r: seq<T>)
    requires |xs| > 0
    requires forall i :: 0 <= i < |r| ==> r[i] in xs[..|xs| - 1]
    requires FirstOrdered(xs[..|xs| - 1], r)
    ensures FirstOrdered(xs, r)
    ensures xs[|xs| - 1] !in xs[..|xs| - 1] ==> FirstOrdered(xs, r + [xs[|xs| - 1]])
  {
    var n := |xs| - 1;
    forall i | 0 <= i < |r| ensures r[i] in xs && FirstPos(xs, r[i]) == FirstPos(xs[..n], r[i]) < n {
      FirstPosPrefix(xs, n, r[i]);
    }
    if xs[n] !in xs[..n] {
      var r' := r + [xs[n]];
      assert FirstPos(xs, xs[n]) == n by {
        forall j | 0 <= j < n ensures xs[j] != xs[n] {
          assert xs[j] == xs[..n][j];
        }
      }
      forall i | 0 <= i < |r'| - 1 && r'[i] in xs && r'[i + 1] in xs
        ensures FirstPos(xs, r'[i]) < FirstPos(xs, r'[i + 1])
      {
        assert r'[i] == r[i];
        if i + 1 < |r| {
          assert r'[i + 1] == r[i + 1];
        }
      }
    }
  }

  /** A new element at the end keeps a sequence free of repeats. */
  lemma DistinctSnoc<T>(xs: seq<T>, x: T)
    requires Distinct(xs) && x !in xs
    ensures Distinct(xs + [x])
  {
    var ys := xs + [x];
    forall i, j | 0 <= i < j < |ys| ensures ys[i] != ys[j] {
      assert ys[i] == xs[i];
      if j < |xs| {
        assert ys[j] == xs[j];
      }
    }
  }

  /** A sequence without repeats is its own de-duplication: the order is kept. */
  lemma {:induction false} DedupOfDistinct<T>(xs: seq<T>)
    requires Distinct(xs)
    ensures Dedup(xs) == xs
  {
    if |xs| > 0 {
      var n := |xs| - 1;
      DedupOfDistinct(xs[..n]);
      assert xs[n] !in xs[..n];
      assert xs[..n] + [xs[n]] == xs;
    }
  }

  /**
   The insertion-ordered set the source builds: walks `xs` once, remembering
   what it has seen. It computes `Dedup`.
   */
  method DedupBySet<T(==)>(xs: seq<T>) returns (r: seq<T>)
    ensures r == Dedup(xs)
  {
    var seen: set<T> := {};
    r := [];
    var i := 0;
    while i < |xs|
      invariant 0 <= i <= |xs|
      invariant r == Dedup(xs[..i])
      invariant seen == set k | 0 <= k < i :: xs[k]
    {
      DedupBySetStep(xs, i, seen, r);
      if xs[i] !in seen {
        seen := seen + {xs[i]};
        r := r + [xs[i]];
      }
      i := i + 1;
    }
    assert xs[..|xs|] == xs;
  }

  /** One turn of the walk keeps the seen set and the output in step with the prefix walked. */
  lemma DedupBySetStep<T>(xs: seq<T>, i: nat, seen: set<T>, r: seq<T>)
    requires i < |xs| && r == Dedup(xs[..i]) && seen == set k | 0 <= k < i :: xs[k]
    ensures xs[i] in seen ==> r == Dedup(xs[..i + 1]) && seen == set k | 0 <= k < i + 1 :: xs[k]
    ensures xs[i] !in seen ==> r + [xs[i]] == Dedup(xs[..i + 1]) && seen + {xs[i]} == set k | 0 <= k < i + 1 :: xs[k]
  {
    DedupStep(xs, i);
    SeenIsPrefix(xs, i, seen);
    if xs[i] in seen {
      assert xs[i] in xs[..i];
      assert seen + {xs[i]} == seen;
    } else {
      assert xs[i] !in xs[..i];
    }
  }

  /** One more element of the input: `Dedup` keeps it exactly when it is new. */
  lemma DedupStep<T>(xs: seq<T>, i: nat)
    requires i < |xs|
    ensures Dedup(xs[..i + 1]) == if xs[i] in xs[..i] then Dedup(xs[..i]) else Dedup(xs[..i]) + [xs[i]]
  {
    assert xs[..i + 1][..i] == xs[..i];
  }

  /** The set of the elements seen so far answers membership in the prefix walked. */
  lemma SeenIsPrefix<T>(xs: seq<T>, i: nat, seen: set<T>)
    requires i < |xs| && seen == set k | 0 <= k < i :: xs[k]
    ensures xs[i] in seen <==> xs[i] in xs[..i]
    ensures seen + {xs[i]} == set k | 0 <= k < i + 1 :: xs[k]
  {
    if xs[i] in xs[..i] {
      var j :| 0 <= j < i && xs[..i][j] == xs[i];
      assert xs[j] in seen;
    }
  }
}

=== FILE: uri.dfy ===
/**
 Percent-encoding as the note-store client uses it: `encodeURIComponent` on
 each path segment, and `decodeURIComponent` on the path the active-note
 redirect carries. Both follow section 19.2.6 of ECMA-262 (the Encode and
 Decode abstract operations) over Unicode scalar values with UTF-8 octets.
 */
module Uri {
  import opened Results
  import opened Text

  /** The characters `encodeURIComponent` copies unchanged: ASCII letters, digits and `-_.!~*'()`. */
  predicate IsUnreserved(c: char) {
    || ('A' <= c <= 'Z') || ('a' <= c <= 'z') || ('0' <= c <= '9')
    || c == '-' || c == '_' || c == '.' || c == '!' || c == '~' || c == '*' || c == '\'' || c == '(' || c == ')'
  }

  function HexDigit(d: nat): (c: char)
    requires d < 16
    ensures IsUnreserved(c)
  {
    if d < 10 then ('0' as int + d) as char else ('A' as int + d - 10) as char
  }

  /** The value of a hexadecimal digit of either case. */
  function HexValue(c: char): (r: Option<nat>)
    ensures r.Some? ==> r.value < 16
  {
    if '0' <= c <= '9' then Some(c as int - '0' as int)
    else if 'A' <= c <= 'F' then Some(c as int - 'A' as int + 10)
    else if 'a' <= c <= 'f' then Some(c as int - 'a' as int + 10)
    else None
  }

  predicate IsOctets(bs: seq<nat>) {
    forall i :: 0 <= i < |bs| ==> bs[i] < 256
  }

  /** `%XX` for one octet, with upper-case digits. */
  function Escape(b: nat): string
    requires b < 256
  {
    ['%', HexDigit(b / 16), HexDigit(b % 16)]
  }

  function EscapeAll(bs: seq<nat>): (r: string)
    requires IsOctets(bs)
    ensures |r| == 3 * |bs|
    ensures forall i :: 0 <= i < |r| ==> IsUnreserved(r[i]) || r[i] == '%'
  {
    if |bs| == 0 then "" else Escape(bs[0]) + EscapeAll(bs[1..])
  }

  /** The UTF-8 octets of a Unicode scalar value. */
  function Utf8(c: char): (bs: seq<nat>)
    ensures 1 <= |bs| <= 4 && IsOctets(bs)
    ensures |bs| == 1 <==> c as int < 0x80
  {
    var v := c as int;
    if v < 0x80 then [v]
    else if v < 0x800 then [0xC0 + v / 64, 0x80 + v % 64]
    else if v < 0x10000 then [0xE0 + (v / 64) / 64, 0x80 + (v / 64) % 64, 0x80 + v % 64]
    else [0xF0 + ((v / 64) / 64) / 64, 0x80 + ((v / 64) / 64) % 64, 0x80 + (v / 64) % 64, 0x80 + v % 64]
  }

  /** `encodeURIComponent` of one character. */
  function EncodeChar(c: char): string {
    if IsUnreserved(c) then [c] else EscapeAll(Utf8(c))
  }

  /** `encodeURIComponent(s)` */
  function EncodeComponent(s: string): (r: string)
    ensures forall i :: 0 <= i < |r| ==> IsUnreserved(r[i]) || r[i] == '%'
    ensures (forall i :: 0 <= i < |s| ==> IsUnreserved(s[i])) ==> r == s
  {
    if |s| == 0 then "" else EncodeChar(s[0]) + EncodeComponent(s[1..])
  }

  // ---------------------------------------------------------------------------
  // Decoding
  // ---------------------------------------------------------------------------

  /** The octet written `%XX` at the head of `s`, if `s` starts with one. */
  function OctetAt(s: string): (r: Option<nat>)
    ensures r.Some? ==> r.value < 256
  {
    if |s| >= 3 && s[0] == '%' then
      match HexValue(s[1])
      case None => None
      case Some(h) =>
        match HexValue(s[2])
        case None => None
        case Some(l) => Some(h * 16 + l)
    else None
  }

  /** Reads `k` escaped octets from the head of `s`. */
  function ReadOctets(s: string, k: nat): (r: Option<seq<nat>>)
    ensures r.Some? ==> |r.value| == k && 3 * k <= |s| && IsOctets(r.value)
    decreases k
  {
    if k == 0 then Some([])
    else
      match OctetAt(s)
      case None => None
      case Some(b) =>
        match ReadOctets(s[3..], k - 1)
        case None => None
        case Some(bs) => Some([b] + bs)
  }

  /** How many octets a UTF-8 sequence led by `b` has: 0 when `b` cannot lead a multi-octet one. */
  function SequenceLength(b: nat): nat {
    if 0xC0 <= b < 0xE0 then 2
    else if 0xE0 <= b < 0xF0 then 3
    else if 0xF0 <= b < 0xF8 then 4
    else 0
  }

  predicate IsContinuation(b: nat) {
    0x80 <= b < 0xC0
  }

  /**
   The scalar value a multi-octet UTF-8 sequence encodes, when it is a valid
   encoding: continuation octets, shortest form, no surrogate, at most U+10FFFF.
   */
  function Utf8Decode(bs: seq<nat>): Option<char>
    requires 2 <= |bs| <= 4 && SequenceLength(bs[0]) == |bs|
  {
    if exists i | 1 <= i < |bs| :: !IsContinuation(bs[i]) then None
    else if |bs| == 2 then
      var v := (bs[0] - 0xC0) * 64 + (bs[1] - 0x80);
      if v < 0x80 then None else Some(v as char)
    else if |bs| == 3 then
      var v := ((bs[0] - 0xE0) * 64 + (bs[1] - 0x80)) * 64 + (bs[2] - 0x80);
      if v < 0x800 || (0xD800 <= v < 0xE000) then None else Some(v as char)
    else
      var v := (((bs[0] - 0xF0) * 64 + (bs[1] - 0x80)) * 64 + (bs[2] - 0x80)) * 64 + (bs[3] - 0x80);
      if v < 0x10000 || v > 0x10FFFF then None else Some(v as char)
  }

  /** Decodes the escape sequence at the head of `s`: the character and how many characters it took. */
  function DecodeEscape(s: string): (r: Option<(char, nat)>)
    ensures r.Some? ==> 3 <= r.value.1 <= |s|
  {
    match OctetAt(s)
    case None => None
    case Some(b) =>
      if b < 0x80 then Some((b as char, 3))
      else
        var n := SequenceLength(b);
        if n == 0 then None
        else
          match ReadOctets(s[3..], n - 1)
          case None => None
          case Some(rest) =>
            match Utf8Decode([b] + rest)
            case None => None
            case Some(c) => Some((c, 3 * n))
  }

  function Prepend(p: string, r: Option<string>): Option<string> {
    match r
    case None => None
    case Some(t) => Some(p + t)
  }

  /** `decodeURIComponent(s)`; `None` is the `URIError` it throws on a malformed escape. */
  function DecodeComponent(s: string): (r: Option<string>)
    ensures '%' !in s ==> r == Some(s)
    ensures r.Some? ==> |r.value| <= |s|
    decreases |s|
  {
    if |s| == 0 then Some("")
    else if s[0] != '%' then
      assert [s[0]] + s[1..] == s;
      Prepend([s[0]], DecodeComponent(s[1..]))
    else
      match DecodeEscape(s)
      case None => None
      case Some((c, n)) => Prepend([c], DecodeComponent(s[n..]))
  }

  // ---------------------------------------------------------------------------
  // Round trip
  // ---------------------------------------------------------------------------

  lemma OctetAtEscape(b: nat, t: string)
    requires b < 256
    ensures OctetAt(Escape(b) + t) == Some(b)
  {
    var s := Escape(b) + t;
    assert s[0] == '%' && s[1] == HexDigit(b / 16) && s[2] == HexDigit(b % 16);
  }

  lemma {:induction false} ReadEscaped(bs: seq<nat>, t: string)
    requires IsOctets(bs)
    ensures ReadOctets(EscapeAll(bs) + t, |bs|) == Some(bs)
  {
    if |bs| > 0 {
      var s := EscapeAll(bs) + t;
      assert s == Escape(bs[0]) + (EscapeAll(bs[1..]) + t);
      OctetAtEscape(bs[0], EscapeAll(bs[1..]) + t);
      assert s[3..] == EscapeAll(bs[1..]) + t;
      ReadEscaped(bs[1..], t);
      assert [bs[0]] + bs[1..] == bs;
    }
  }

  /** A multi-octet UTF-8 encoding announces its own length and decodes to the character. */
  lemma Utf8RoundTrip(c: char)
    requires c as int >= 0x80
    ensures SequenceLength(Utf8(c)[0]) == |Utf8(c)|
    ensures Utf8Decode(Utf8(c)) == Some(c)
  {
    var v := c as int;
    var bs := Utf8(c);
    assert v == (v / 64) * 64 + v % 64;
    if v >= 0x800 {
      assert v / 64 == ((v / 64) / 64) * 64 + (v / 64) % 64;
      if v >= 0x10000 {
        assert (v / 64) / 64 == (((v / 64) / 64) / 64) * 64 + ((v / 64) / 64) % 64;
      }
    }
    assert forall i | 1 <= i < |bs| :: IsContinuation(bs[i]);
  }

  lemma PrependTwice(a: string, b: string, r: Option<string>)
    ensures Prepend(a, Prepend(b, r)) == Prepend(a + b, r)
    ensures Prepend("", r) == r
  {
    if r.Some? {
      assert a + (b + r.value) == (a + b) + r.value;
      assert "" + r.value == r.value;
    }
  }

  /** A character other than `%` decodes to itself. */
  lemma DecodePlain(c: char, t: string)
    requires c != '%'
    ensures DecodeComponent([c] + t) == Prepend([c], DecodeComponent(t))
  {
    assert ([c] + t)[1..] == t;
  }

  /** An escape sequence decodes to its character, and decoding resumes after it. */
  lemma DecodeEscaped(s: string, c: char, n: nat)
    requires |s| > 0 && s[0] == '%' && DecodeEscape(s) == Some((c, n))
    ensures DecodeComponent(s) == Prepend([c], DecodeComponent(s[n..]))
  {
  }

  /** The escapes `encodeURIComponent` writes for a reserved character read back as that character. */
  lemma DecodeEscapeOfEncoding(c: char, t: string)
    requires !IsUnreserved(c)
    ensures |EncodeChar(c)| >= 3 && (EncodeChar(c) + t)[0] == '%'
    ensures DecodeEscape(EncodeChar(c) + t) == Some((c, |EncodeChar(c)|))
  {
    var bs := Utf8(c);
    assert EncodeChar(c) == EscapeAll(bs);
    EscapeAllHead(bs, t);
    if c as int >= 0x80 {
      DecodeEscapeOfUtf8(c, t);
    } else {
      assert bs == [c as int];
    }
  }

  /** The first escape of a run of escaped octets reads back as the first octet. */
  lemma EscapeAllHead(bs: seq<nat>, t: string)
    requires IsOctets(bs) && |bs| > 0
    ensures (EscapeAll(bs) + t)[0] == '%'
    ensures OctetAt(EscapeAll(bs) + t) == Some(bs[0])
    ensures (EscapeAll(bs) + t)[3..] == EscapeAll(bs[1..]) + t
  {
    var rest := EscapeAll(bs[1..]) + t;
    assert EscapeAll(bs) == Escape(bs[0]) + EscapeAll(bs[1..]);
    ConcatAssoc(Escape(bs[0]), EscapeAll(bs[1..]), t);
    OctetAtEscape(bs[0], rest);
    DropThree(Escape(bs[0]), rest);
  }

  lemma DropThree(a: string, b: string)
    requires |a| == 3
    ensures (a + b)[3..] == b
  {
  }

  /** The escaped UTF-8 octets of a non-ASCII character decode to that character. */
  lemma DecodeEscapeOfUtf8(c: char, t: string)
    requires c as int >= 0x80
    ensures DecodeEscape(EscapeAll(Utf8(c)) + t) == Some((c, 3 * |Utf8(c)|))
  {
    var bs := Utf8(c);
    var s := EscapeAll(bs) + t;
    EscapeAllHead(bs, t);
    Utf8RoundTrip(c);
    ReadEscaped(bs[1..], t);
    assert [bs[0]] + bs[1..] == bs;
    DecodeMultiOctet(s, bs[0], bs[1..], c);
  }

  /** An escaped lead octet followed by its escaped continuation octets decodes to the character they encode. */
  lemma DecodeMultiOctet(s: string, b: nat, rest: seq<nat>, c: char)
    requires b >= 0x80 && SequenceLength(b) == |rest| + 1
    requires OctetAt(s) == Some(b) && |s| >= 3 && ReadOctets(s[3..], |rest|) == Some(rest)
    requires 2 <= |[b] + rest| <= 4 && Utf8Decode([b] + rest) == Some(c)
    ensures DecodeEscape(s) == Some((c, 3 * (|rest| + 1)))
  {
  }

  /** Decoding what one character encodes to gives the character, and decoding goes on after it. */
  lemma DecodeEncodeChar(c: char, t: string)
    ensures DecodeComponent(EncodeChar(c) + t) == Prepend([c], DecodeComponent(t))
  {
    var s := EncodeChar(c) + t;
    if IsUnreserved(c) {
      DecodePlain(c, t);
    } else {
      DecodeEscapeOfEncoding(c, t);
      DecodeEscaped(s, c, |EncodeChar(c)|);
      assert s[|EncodeChar(c)|..] == t;
    }
  }

  /** `decodeURIComponent(encodeURIComponent(s) + t)` is `s` followed by the decoding of `t`. */
  lemma {:induction false} DecodeEncode(s: string, t: string)
    ensures DecodeComponent(EncodeComponent(s) + t) == Prepend(s, DecodeComponent(t))
  {
    if |s| == 0 {
      assert EncodeComponent(s) + t == t;
      PrependTwice("", "", DecodeComponent(t));
    } else {
      assert EncodeComponent(s) + t == EncodeChar(s[0]) + (EncodeComponent(s[1..]) + t);
      DecodeEncodeChar(s[0], EncodeComponent(s[1..]) + t);
      DecodeEncode(s[1..], t);
      PrependTwice([s[0]], s[1..], DecodeComponent(t));
      assert [s[0]] + s[1..] == s;
    }
  }

  /** `decodeURIComponent` undoes `encodeURIComponent`. */
  lemma DecodeEncodeComponent(s: string)
    ensures DecodeComponent(EncodeComponent(s)) == Some(s)
  {
    DecodeEncode(s, "");
    assert EncodeComponent(s) + "" == EncodeComponent(s);
    assert s + "" == s;
  }

  // ---------------------------------------------------------------------------
  // Paths: each `/`-separated segment encoded on its own
  // ---------------------------------------------------------------------------

  function EncodeSegments(parts: seq<string>): (r: seq<string>)
    ensures |r| == |parts|
    ensures forall i :: 0 <= i < |r| ==> r[i] == EncodeComponent(parts[i])
  {
    seq(|parts|, i requires 0 <= i < |parts| => EncodeComponent(parts[i]))
  }

  /** No encoded segment holds a `/`, so splitting their join gives them back. */
  lemma SplitEncodedSegments(parts: seq<string>)
    requires |parts| >= 1
    ensures Split(Join(EncodeSegments(parts), '/'), '/') == EncodeSegments(parts)
  {
    var enc := EncodeSegments(parts);
    forall i | 0 <= i < |enc|
      ensures '/' !in enc[i]
    {
      assert !IsUnreserved('/');
    }
    SplitJoin(enc, '/');
  }

  /**
   `path.split('/').map(encodeURIComponent).join('/')`: the encoded path has the
   segments of the path, each encoded, so none gained or lost a `/`.
   */
  function EncodePath(path: string): (e: string)
    ensures Split(e, '/') == EncodeSegments(Split(path, '/'))
    ensures |Split(e, '/')| == |Split(path, '/')|
  {
    SplitEncodedSegments(Split(path, '/'));
    Join(EncodeSegments(Split(path, '/')), '/')
  }

  lemma {:induction false} DecodeJoined(parts: seq<string>)
    ensures DecodeComponent(Join(EncodeSegments(parts), '/')) == Some(Join(parts, '/'))
  {
    var enc := EncodeSegments(parts);
    if |parts| == 1 {
      DecodeEncodeComponent(parts[0]);
    } else if |parts| >= 2 {
      var rest := Join(enc[1..], '/');
      assert enc[1..] == EncodeSegments(parts[1..]);
      DecodeJoined(parts[1..]);
      assert Join(enc, '/') == enc[0] + ("/" + rest);
      DecodeEncode(parts[0], "/" + rest);
      DecodePlain('/', rest);
      PrependTwice(parts[0], "/", Some(Join(parts[1..], '/')));
    }
  }

  /** `decodeURIComponent` of an encoded path gives the path back. */
  lemma DecodeEncodePath(path: string)
    ensures DecodeComponent(EncodePath(path)) == Some(path)
  {
    DecodeJoined(Split(path, '/'));
    JoinSplit(path, '/');
  }
}
